=== FILE: README.md ===
# Recruitment automation: a Dafny model of the interview core

This project models the decision logic of an HR-interview automation system. The system runs a
technical interview against a scenario of questions, or a customer-service conversation against
a scenario of stages. After each answer it asks a language model whether a clarification is
needed. It scores the answer and picks the next question. When the interview is over it
summarises the transcript, runs a grammar check and a validation, and assembles an evaluation
report. Everything is kept in an interview store.

Every language-model call is an argument of the model. It is an `Oracle<T>`: either
`Answer(value)` or `Raised(message)`. So every property holds whatever the model answers.
Randomness enters as `pick`/`draws` indices. Clocks and prompt rendering enter as plain
parameters. The store is an append-only journal of writes.

Modules, following the program's structure:

- `Wrappers`, `Text`, `Collections` hold the shared types and helpers:
  - `Option`, `Result`, `Oracle`, and Python truthiness of optional strings;
  - `strip`, `replace`, `split`, `join` and integer rendering and parsing on `seq<char>`;
  - insertion-ordered dictionaries as sequences of pairs.
- `Scenarios`, `ScenarioManager`, `NewScenarioManager` model the scenario catalogue:
  - lookup and the random selections;
  - tag and difficulty filters;
  - format detection and the stage walk;
  - adding scenarios, and updating them with the `M.m` → `M.(m+1)` version bump.
  - The class-based catalogue of the earlier code base behaves the same and is covered by the
    same members.
- `Messages` and `QuestionSelection` cover the history of system, model and human messages, and
  the choice of the next question from the model's answer.
- `ConversationEngine` is the fail-open interview turn. `LegacyEngine` is the earlier class-based
  engine with no fallbacks.
- `Evaluation` and `Storage` cover report assembly, the metrics and the interview store.
- `Handler` and `LegacyHandler` are the two request handlers. Each rebuilds a session from
  stored answers, runs one engine turn, stores the answer and completes the interview. They also
  cover the single and batch interview runs.
- `Attributes`, `Tools`, `Summary`, `ToolRuns` cover:
  - `get_attribute`;
  - the tool registry and the default tools;
  - the map-reduce summarisation graph;
  - the evaluation-tools node both master agents share.
- `MasterAgent` and `NewMasterAgent` are the nodes and routes of the two interview graphs.

Where the code and its documentation disagree, the model follows the code. The engine's
documentation says a failing next-question choice completes the interview. The code falls back
to the first unasked question (domains/recruitment/conversation.py:327-332), and so does the
model.

## Model

| member | source | states |
|---|---|---|
| Scenarios.FindById | domains/recruitment/scenario_manager.py:71-75 | the result is a catalogue member with the id; None exactly when no scenario has the id |
| Scenarios.Sample | domains/recruitment/scenario_manager.py:110 | sampling without replacement: exactly k elements, a sub-multiset of the pool |
| Scenarios.SampleScenarios | temp_data/domains/recruitment/scenario_manager.py:99-112 | empty pool gives []; on a non-empty pool it fails exactly for a negative count or a drawn scenario without an id (the log line's join), so a pool whose scenarios all have ids always succeeds for count >= 0; a success has min(count, n) elements drawn without replacement |
| Scenarios.FilterByTags | temp_data/domains/recruitment/scenario_manager.py:124-135 | no tags keeps everything; otherwise exactly the scenarios with a matching topic are kept |
| Scenarios.FilterByTagsAppend | temp_data/domains/recruitment/scenario_manager.py:124-135 | the tag filter keeps catalogue order: filtering a concatenation concatenates the filtered parts |
| Scenarios.FilterByDifficulty | temp_data/domains/recruitment/scenario_manager.py:137-149 | exactly the scenarios whose difficulty equals the argument are kept |
| Scenarios.FilterByDifficultyAppend | domains/recruitment/scenario_manager.py:140-152 | the difficulty filter keeps catalogue order |
| Scenarios.BumpVersion | domains/recruitment/scenario_manager.py:249-254 | a version without exactly one dot becomes "1.1" |
| Scenarios.BumpVersionIncrements | domains/recruitment/scenario_manager.py:249-254 | "M.m" becomes "M.(m+1)" for every major part without a dot and every minor number |
| Scenarios.Merge | domains/recruitment/scenario_manager.py:257-258 | for each of the eleven fields, a field present in the update replaces the stored one and an absent field keeps it |
| ScenarioManager.LoadScenarios | domains/recruitment/scenario_manager.py:29-50 | an unreadable file or one without scenarios gives []; otherwise one scenario per entry, with "1.0" filled in for a missing version |
| ScenarioManager.GetScenarioById | domains/recruitment/scenario_manager.py:61-75 | the first scenario with the id, or None exactly when none has it |
| ScenarioManager.SelectRandomScenario | domains/recruitment/scenario_manager.py:77-90 | None exactly for an empty catalogue, otherwise a catalogue member |
| ScenarioManager.SelectRandomScenarios | domains/recruitment/scenario_manager.py:92-115 | [] for an empty catalogue; an error for a negative count; a catalogue whose scenarios have ids always gives min(count, n) scenarios drawn without replacement for count >= 0 |
| ScenarioManager.GetRandomQuestion | domains/recruitment/scenario_manager.py:154-175 | None exactly for an unknown scenario or one without questions; otherwise one of its questions |
| ScenarioManager.AddScenario | domains/recruitment/scenario_manager.py:199-231 | rejected, with the catalogue unchanged, when a required field is missing or the id is taken; otherwise appended with version "1.0" |
| ScenarioManager.AddScenarioKeepsIdsUnique | domains/recruitment/scenario_manager.py:211-231 | adding keeps ids unique, and an added scenario is found by its id |
| ScenarioManager.UpdateScenario | domains/recruitment/scenario_manager.py:233-267 | an unknown id changes nothing and returns false; otherwise only the first match is replaced by the merged, re-versioned scenario |
| ScenarioManager.UpdateThenGet | domains/recruitment/scenario_manager.py:246-267 | after an update that keeps the id, lookup returns the updated scenario |
| ScenarioManager.UpdateBumpsMinor | temp_data/domains/recruitment/scenario_manager.py:237-258 | an update turns version "M.m" into "M.(m+1)" |
| NewScenarioManager.AllScenarios | domains/recruitment/new_scenario_manager.py:102-124 | traditional scenarios first, then new-format ones when they are included |
| NewScenarioManager.GetScenarioByIdIsFirstOverall | domains/recruitment/new_scenario_manager.py:126-147 | lookup is the first match over traditional scenarios followed by new-format ones |
| NewScenarioManager.SelectRandomScenario | domains/recruitment/new_scenario_manager.py:162-187 | None exactly for an empty pool; a member of the new-format list when only those are asked for |
| NewScenarioManager.SelectRandomScenarios | domains/recruitment/new_scenario_manager.py:189-218 | the one-list selection over the chosen pool: [] for an empty pool, an error for a negative count; for count >= 0 on a pool whose scenarios have ids, always exactly min(count, pool size) scenarios drawn without replacement |
| NewScenarioManager.FilterByTags | domains/recruitment/new_scenario_manager.py:220-247 | the one-list tag filter over the pool: no tags gives every scenario of the pool; otherwise exactly the pool's scenarios with a matching topic, in pool order |
| NewScenarioManager.FilterByTagsTraditionalFirst | domains/recruitment/new_scenario_manager.py:231-247 | the filter over both lists is the traditional result followed by the new-format one |
| NewScenarioManager.FilterByDifficulty | domains/recruitment/new_scenario_manager.py:249-267 | the one-list difficulty filter over the pool: exactly the pool's scenarios with equal difficulty, in pool order |
| NewScenarioManager.FilterByDifficultyTraditionalFirst | domains/recruitment/new_scenario_manager.py:260-267 | the filter over both lists is the traditional result followed by the new-format one |
| NewScenarioManager.GetRandomQuestion | domains/recruitment/new_scenario_manager.py:269-314 | None for an unknown scenario; a stage item for a new-format scenario; a question otherwise |
| NewScenarioManager.NextConversationStage | domains/recruitment/new_scenario_manager.py:316-379 | None for a missing, traditional or stage-less scenario; otherwise the item of a stage of its flow |
| NewScenarioManager.NextInFlow | domains/recruitment/new_scenario_manager.py:339-379 | no current stage gives the first stage; an unknown current stage gives None; every result is a stage of the flow |
| NewScenarioManager.WalkVisitsEveryStageInOrder | domains/recruitment/new_scenario_manager.py:355-379 | the stage after stage i is stage i+1, and there is none after the last |
| NewScenarioManager.WalkIsTheFlow | domains/recruitment/new_scenario_manager.py:316-379 | walking from no stage until None visits every stage of the flow exactly once, in order |
| NewScenarioManager.GetScenarioContext | domains/recruitment/new_scenario_manager.py:381-396 | a context exactly for a known new-format scenario, and then its own |
| NewScenarioManager.GetCustomerProfile | domains/recruitment/new_scenario_manager.py:398-413 | a profile exactly for a known new-format scenario, and then its own |
| NewScenarioManager.GetEvaluationCriteria | domains/recruitment/new_scenario_manager.py:415-430 | criteria exactly for a known new-format scenario, {} when it has none |
| NewScenarioManager.AddScenario | domains/recruitment/new_scenario_manager.py:470-515 | rejected when a format-specific field is missing or the id is taken in either list; otherwise appended, with version "1.0", to the list of its format |
| NewScenarioManager.AddThenGet | domains/recruitment/new_scenario_manager.py:470-515 | an accepted scenario is found by its id |
| NewScenarioManager.UpdateScenario | domains/recruitment/new_scenario_manager.py:517-575 | the first match in the traditional list is updated, else the first in the new-format list; an unknown id changes nothing |
| Messages.ToRoleMessage | domains/handler.py:230-236 | role "system" exactly for system messages, "assistant" exactly for model messages, "user" otherwise; content copied |
| Messages.TranscriptLinesAppend | domains/recruitment/master_agent.py:131-140 | transcript lines of a concatenation are the concatenated lines |
| QuestionSelection.Available | domains/recruitment/conversation.py:266-270 | exactly the questions whose id is not asked, in scenario order |
| QuestionSelection.AvailableAfterPrefix | domains/recruitment/conversation.py:266-270 | after the first m questions are asked, the rest are available in order |
| QuestionSelection.CleanId | domains/recruitment/conversation.py:315 | the cleaned answer has no comma and no surrounding spaces |
| QuestionSelection.CleanIdOfQuestionLine | domains/recruitment/conversation.py:291-293 | cleaning an echoed "ID: x, Question: t" line gives back x |
| QuestionSelection.MatchAnswer | domains/recruitment/conversation.py:318-326 | the chosen question is available; it has the cleaned id whenever one available question does, else it is the first |
| QuestionSelection.MatchEchoedLine | domains/recruitment/conversation.py:291-326 | a model that echoes a listed line selects exactly that question |
| ConversationEngine.Opening | domains/recruitment/conversation.py:44-71 | history is [system prompt, "Let's begin the interview. " + first question]; asked ids are [first id]; no evaluation and both flags false |
| ConversationEngine.ChooseScenario | domains/recruitment/conversation.py:31-38 | a known id picks that scenario; an unknown or absent id falls back to a random member; None exactly for an empty catalogue |
| ConversationEngine.StartInterview | domains/recruitment/conversation.py:29-77 | an error for an empty catalogue or a scenario without questions; otherwise the opening of the chosen scenario |
| ConversationEngine.EntryFor | domains/recruitment/conversation.py:150-172 | the entry records question and answer; a failed analysis stores five scores of 5 and the fixed reasoning |
| ConversationEngine.SelectNextQuestion | domains/recruitment/conversation.py:232-336 | None when nothing is unasked; the only unasked question without consulting the model; otherwise the model's match, or the first unasked question when the model fails |
| ConversationEngine.ProcessResponse | domains/recruitment/conversation.py:79-230 | the answer is appended first; clarification appends one question and changes nothing else; otherwise the analysis is recorded, and the turn completes when the asked count reaches the question count or no question is left, else asks the selected one |
| ConversationEngine.ProcessResponseNeverRepeats | domains/recruitment/conversation.py:197-209 | asked ids stay distinct scenario ids, and the last asked id is that of the current question, itself a question of the scenario |
| ConversationEngine.SelectionFollowsEchoedLine | domains/recruitment/conversation.py:289-326 | a model that echoes a listed question line moves the interview to that question |
| ConversationEngine.ModellessInterviewCompletes | domains/recruitment/conversation.py:130-224 | with every model call failing, n questions need n answers: the questions are asked in order, every evaluation is the fallback, and the interview completes |
| LegacyEngine.StartInterview | temp_data/domains/recruitment/conversation.py:127-174 | succeeds exactly when the fail-open engine does, with the same session |
| LegacyEngine.SelectNextQuestion | temp_data/domains/recruitment/conversation.py:246-303 | a missing questions field raises; otherwise the same choice as the fail-open engine, and a model failure raises |
| LegacyEngine.ProcessResponse | temp_data/domains/recruitment/conversation.py:176-244 | the answer is appended first; any failure leaves the partial session and an error; a turn without error adds exactly one model message |
| LegacyEngine.EnginesAgreeWhenModelCooperates | temp_data/domains/recruitment/conversation.py:176-244 | when no model call fails, the earlier engine's turn equals the fail-open one |
| LegacyEngine.DuplicateIdsStrandTheSession | temp_data/domains/recruitment/conversation.py:226-242 | a scenario repeating a question id leaves the turn without a next question |
| Evaluation.QuestionText | domains/recruitment/evaluation.py:166-172 | the text of the first question with the id, "" when none has it |
| Evaluation.Kept | domains/recruitment/evaluation.py:165-179 | exactly the answers whose question text is found and non-empty |
| Evaluation.EvaluateEach | domains/recruitment/evaluation.py:165-181 | one evaluation per kept answer in order; the first failing evaluation fails the report with its message |
| Evaluation.EvaluatedIdsAreTheEvaluableOnes | domains/recruitment/evaluation.py:182-188 | the detailed evaluations are keyed by exactly the evaluable answer ids |
| Evaluation.FormatEvaluations | domains/recruitment/evaluation.py:111-137 | one block per evaluation, numbered from 1, joined by blank lines; "" for none |
| Evaluation.FormatEvaluationsAppend | domains/recruitment/evaluation.py:111-137 | the blocks follow evaluation order: one more evaluation appends its block, numbered next, after one blank line |
| Evaluation.ScenarioBlockOf | domains/recruitment/evaluation.py:190-197 | id, title, description and difficulty copied with "" as default, topics with [] |
| Evaluation.GenerateReport | domains/recruitment/evaluation.py:146-210 | an evaluation failure propagates; otherwise the report bundles the scenario block, the detailed evaluations and the overall evaluation of their values |
| Evaluation.Average | domains/recruitment/evaluation.py:235-252 | 0 for no values, otherwise the exact mean |
| Evaluation.CalculateMetrics | domains/recruitment/evaluation.py:212-258 | overall score and recommendation copied with defaults 0 and ""; each of the seven averages is the mean of its score over the detailed evaluations, a missing score counting as 0, and 0 when there are none |
| Evaluation.Scores | domains/recruitment/evaluation.py:235-252 | a missing score key counts as 0 |
| Evaluation.AverageBounds | temp_data/domains/recruitment/evaluation.py:284-301 | the average of scores within [lo, hi] lies within [lo, hi] |
| Evaluation.MetricsOfReport | temp_data/domains/recruitment/evaluation.py:261-305 | metrics of a report carry its overall evaluation; when every evaluation scores all seven scores within 1-10, all seven averages lie within 1-10 |
| Storage.CreateSession | domains/recruitment/storage.py:95-136 | a new session id, unused before, whose record has the scenario, the initial status and the metadata, with no answers |
| Storage.UpdateStatus | domains/recruitment/storage.py:138-170 | only the status of an existing session changes; the journal only grows |
| Storage.StoreResponse | domains/recruitment/storage.py:172-214 | the answer is added last to the session's stored answers |
| Storage.GetSession | domains/recruitment/storage.py:302-341 | a record exactly for ids that were created |
| Storage.OtherSessionsUnchanged | domains/recruitment/storage.py:302-374 | writes about one session change neither the record nor the answers of another |
| Handler.InfoOf | domains/handler.py:221-227 | a scenario summary exactly when id, title and description exist, else the key error |
| Handler.StartInterviewSession | domains/handler.py:63-119 | an unknown scenario id is an error with no write; a start creates exactly one session record |
| Handler.CurrentQuestion | domains/handler.py:168-180 | the first question without a stored answer; "list index out of range" for a scenario without questions; none exactly when every question is answered |
| Handler.RebuiltHistory | domains/handler.py:150-188 | system message, then per stored answer its question text and the answer, then the current question |
| Handler.EngineSession | domains/handler.py:190-197 | the engine is given the answered ids without the current question, and an empty evaluation |
| Handler.CompleteInterview | domains/handler.py:252-334 | status "completed" is written first; a failure then writes "error"; only report writes about the session follow |
| Handler.ProcessResponse | domains/handler.py:121-250 | an unknown session is an error with no write; the store only grows with writes about the session; an ongoing turn adds exactly the answer |
| Handler.Decide | domains/handler.py:212-247 | completion when the engine flags it or the asked count reaches the question count |
| Handler.AnswerCurrent | domains/handler.py:199-214 | the answer is stored under the current question, whatever the engine did |
| Handler.Feed | domains/handler.py:493-510 | feeding answers one by one either stops at a failure or completion, or stores every answer in order |
| Handler.RunSingleInterview | domains/handler.py:467-512 | the run's writes concern its new session; an incomplete run has stored every answer |
| Handler.RunBatch | domains/handler.py:434-465 | mismatched list lengths give a single error; metadata defaults to one None per scenario; one result per scenario otherwise |
| Handler.RunAll | domains/handler.py:450-465 | one reply per scenario, with increasing fresh session ids |
| LegacyHandler.ProcessResponseAsWritten | temp_data/domains/handler.py:104-223 | once every question has an answer, the completion is handed back unawaited |
| LegacyHandler.EngineTurn | temp_data/domains/handler.py:174-187 | a turn without error has a next question, and completion needs every question answered |
| LegacyHandler.AnswerQuestion | temp_data/domains/handler.py:183-194 | an engine error leaves the answer unstored; otherwise it is stored under the current question |
| LegacyHandler.Settle | temp_data/domains/handler.py:196-219 | completion exactly when the engine flags it |
| LegacyHandler.ProcessResponse | temp_data/domains/handler.py:104-223 | the turn with the completion awaited: errors for unknown sessions, only writes about the session, an ongoing turn adds exactly the answer |
| LegacyHandler.AwaitedCompletion | temp_data/domains/handler.py:166-169 | with every question answered, the corrected turn completes the interview |
| LegacyHandler.UnawaitedCompletionFailsTheRun | temp_data/domains/handler.py:440-492 | the written run step fails with "argument of type 'coroutine' is not iterable", the corrected one completes |
| LegacyHandler.EngineNeverCloses | temp_data/domains/handler.py:153-198 | fed the answered ids without the current question, the engine never completes the interview itself |
| LegacyHandler.OneQuestionRunFails | temp_data/domains/handler.py:440-492 | a one-question scenario run with two answers fails as written and completes when corrected |
| Attributes.GetAttribute | temp_data/domains/recruitment/utils.py:5-10 | an attribute wins over a dictionary key; a dictionary key comes next; otherwise the default |
| Attributes.GetAttributeOrNone | temp_data/domains/recruitment/utils.py:5-10 | None exactly when neither an attribute nor a key is present |
| Tools.Describe | domains/recruitment/tools.py:26-33 | the given description, else the docstring, else "No description available" |
| Tools.RegisterTool | domains/recruitment/tools.py:18-33 | the function is stored under the name and returned unchanged; other entries stay |
| Tools.GetTool | domains/recruitment/tools.py:44-58 | the registered function, None exactly for an unregistered name |
| Tools.GetAvailableTools | domains/recruitment/tools.py:35-42 | exactly the registered names, each with its description |
| Tools.GetToolsDict | domains/recruitment/tools.py:60-71 | exactly the registered names, each with its function |
| Tools.ToolsDictAgreesWithGetTool | domains/recruitment/tools.py:44-71 | the tools dictionary and single lookup agree on every name |
| Tools.AvailableToolsDescribeRegistered | domains/recruitment/tools.py:35-58 | the listed description of a name is that of its registration |
| Tools.AddCustomTool | domains/recruitment/tools.py:278-292 | the name is inserted or overwritten; every other entry is unchanged |
| Tools.InitializeTools | domains/recruitment/tools.py:294-300 | the four default tools, each under its own name |
| Tools.SummarizeInterviewHistory | domains/recruitment/tools.py:73-121 | empty contents and a run without a final state raise; a graph failure propagates; otherwise the final summary is set and nothing else changes |
| Tools.GrammarCheck | domains/recruitment/tools.py:127-160 | fails exactly when the model call does; otherwise the stripped answer |
| Tools.SummarizeAsWritten | domains/recruitment/tools.py:102-119 | as written, every summarisation fails: empty contents are refused, and any other run raises the `async for` TypeError on the un-awaited `ainvoke` |
| Tools.AwaitedSummaryTakesFinalState | domains/recruitment/tools.py:102-121 | with `ainvoke` awaited, a non-empty transcript is summarised exactly when the graph run answers, and the summary is its final state's `final_summary` |
| Tools.ValidationTool | domains/recruitment/tools.py:162-201 | fails exactly when the model call does; otherwise the stripped answer (no surrounding spaces, no longer than the answer, the answer itself when already trimmed) becomes the validation result and no other field changes |
| Tools.ErrorReport | domains/recruitment/tools.py:270-275 | any failure gives all three scores 0 and the error as the one misconception |
| Tools.TechnicalAccuracyCheck | domains/recruitment/tools.py:203-276 | a model failure gives the error report; an unparsable answer gives scores of 5 and "Unable to parse response" |
| Tools.FallbacksDistinguished | domains/recruitment/tools.py:253-275 | the two fallback reports are told apart by their misconception |
| Summary.Length | domains/recruitment/summary.py:33-34 | the sum of per-document token counts |
| Summary.LengthAppend | domains/recruitment/summary.py:33-34 | the length is additive over concatenation |
| Summary.MapSummaries | domains/recruitment/summary.py:41-45 | one generate_summary task per content |
| Summary.MapPhase | domains/recruitment/summary.py:36-45 | one summary per content in order, failing exactly when some call fails |
| Summary.CollectSummaries | domains/recruitment/summary.py:47-51 | one document per summary |
| Summary.CollapseSummaries | domains/recruitment/summary.py:53-62 | one collapsed document per group of the splitter, failing exactly when some group's call fails |
| Summary.ShouldCollapse | domains/recruitment/summary.py:64-72 | only collapse_summaries or generate_final_summary |
| Summary.CollapseDecision | domains/recruitment/summary.py:64-92 | both collect and collapse go to the final summary exactly when the total length is within the budget; more documents never bring it back under |
| Summary.GenerateFinalSummaryNode | domains/recruitment/summary.py:74-78 | the reduce call on the page contents joined by blank lines |
| Summary.DirectSummaryJoinsSummaries | domains/recruitment/summary.py:41-92 | summaries within the budget go straight to the final call, joined in content order, with two characters per separator |
| ToolRuns.SummaryStep | domains/recruitment/master_agent.py:154-162 | a failed or empty summarisation keeps "Error generating summary." and a fresh analysis state |
| ToolRuns.RouteAfterEvaluation | domains/recruitment/master_agent.py:284-289 | "error" exactly when the error is truthy, else the final report (domains/recruitment/new_master_agent.py:568-573 routes the same way) |
| ToolRuns.RunTools | domains/recruitment/master_agent.py:154-181 | a wanted summarisation replaces the summary (by the error string on failure); grammar and validation run exactly when wanted and the kept summary is truthy, fed the analysis summary; failures give the fixed error strings; unrun results stay |
| ToolRuns.AsWrittenSummaryAlwaysFails | domains/recruitment/master_agent.py:154-181 | with the summarisation as written, the agent always keeps "Error generating summary." and runs the grammar check and the validation on an empty summary |
| ToolRuns.Shown | domains/recruitment/master_agent.py:252-260 | a falsy result is shown as its placeholder |
| MasterAgent.Initialize | domains/recruitment/master_agent.py:57-82 | a failing start only sets the error; otherwise the engine's session is copied and the rest reset |
| MasterAgent.ProcessNode | domains/recruitment/master_agent.py:84-125 | a falsy response changes nothing; otherwise the engine turn's question, asked ids, history, evaluation and flags are copied and the response cleared |
| MasterAgent.AnswerIsRecorded | domains/recruitment/master_agent.py:107-118 | without clarification the current question gets an evaluation of the answer |
| MasterAgent.RouteAfterProcessing | domains/recruitment/master_agent.py:274-282 | "error" exactly when an error is set; then evaluation tools exactly when complete; else another answer |
| MasterAgent.ContentsOfAnswer | domains/recruitment/master_agent.py:131-140 | an answer adds exactly one "Candidate: " line at the end |
| MasterAgent.StartedInterviewHasContents | domains/recruitment/master_agent.py:131-140 | a started interview's contents are the single opening line, the system prompt skipped |
| MasterAgent.EvaluationToolsNode | domains/recruitment/master_agent.py:142-188 | all three tools on the labelled contents; history, evaluation, error and route unchanged |
| MasterAgent.DetailedText | domains/recruitment/master_agent.py:233-249 | a block starts with the question and has nine lines when the texts are single-line |
| MasterAgent.DetailedEvaluations | domains/recruitment/master_agent.py:233-249 | one block per evaluation entry, in entry order |
| MasterAgent.ReportNode | domains/recruitment/master_agent.py:190-270 | a missing title or description is an error; otherwise the report request shows placeholders and the blocks, and the answer or the failure is recorded |
| MasterAgent.ReportBlocksFollowRecording | domains/recruitment/master_agent.py:233-260 | the report call sees the blocks in recording order: one more recorded evaluation adds its block at the end after a blank line |
| NewMasterAgent.Choose | domains/recruitment/new_master_agent.py:91-100 | a new-format scenario whenever there is one; None exactly when there are none |
| NewMasterAgent.InitStaged | domains/recruitment/new_master_agent.py:106-157 | no first stage is an error; otherwise the first stage, no completed stages, history [system, greeting], and the scenario's own context, customer profile and evaluation criteria ({} when missing) |
| NewMasterAgent.InitTraditional | domains/recruitment/new_master_agent.py:158-189 | an empty question list is an error; a scenario without `questions` opens on an empty question; otherwise stage "question_1" and history [system, opening + first question] |
| NewMasterAgent.Initialize | domains/recruitment/new_master_agent.py:91-196 | no scenarios is an error; otherwise a two-message history, no completed stages and the format of the chosen scenario |
| NewMasterAgent.ProcessNode | domains/recruitment/new_master_agent.py:198-218 | a falsy response changes nothing; otherwise exactly one human message and the response cleared |
| NewMasterAgent.MarkCompleted | domains/recruitment/new_master_agent.py:235-236 | the stage is added only when absent, keeping the list distinct |
| NewMasterAgent.AdvanceStaged | domains/recruitment/new_master_agent.py:220-299 | the current stage is marked completed; with no next stage the conversation closes; otherwise the next stage and one model message, or the error |
| NewMasterAgent.StagedAdvanceFollowsFlow | domains/recruitment/new_master_agent.py:235-299 | advancing from stage i moves to stage i+1, and closes after the last stage |
| NewMasterAgent.AdvanceTraditional | domains/recruitment/new_master_agent.py:300-353 | completes exactly when half the history exceeds the question count; otherwise the next "question_k" stage and one model message; a failure sets the error |
| NewMasterAgent.TraditionalConversationTakesOneAnswerPerQuestion | domains/recruitment/new_master_agent.py:336-353 | n questions close the conversation after exactly n answers |
| NewMasterAgent.AdvanceNode | domains/recruitment/new_master_agent.py:220-353 | the staged advance for new-format scenarios, the question advance otherwise |
| NewMasterAgent.RouteAfterProcessing | domains/recruitment/new_master_agent.py:554-559 | evaluation tools exactly when complete, else advance |
| NewMasterAgent.RouteAfterAdvancing | domains/recruitment/new_master_agent.py:561-566 | evaluation tools exactly when complete, else wait for the next response |
| NewMasterAgent.FailedAdvanceKeepsLooping | domains/recruitment/new_master_agent.py:554-566 | a failing advance sets the error but the graph keeps asking |
| NewMasterAgent.Wanted | domains/recruitment/new_master_agent.py:388-412 | an empty tool list runs every tool; otherwise exactly the named ones |
| NewMasterAgent.EvaluationToolsNode | domains/recruitment/new_master_agent.py:361-437 | the wanted tools on the "Agent"/"Customer" contents; history, error and route unchanged |
| NewMasterAgent.ReportNode | domains/recruitment/new_master_agent.py:439-550 | a missing title or description is an error; otherwise the answer or the failure is recorded |

## Left out

- Prompt text and the JSON rendering of scenario parts are not modelled. A rendering is passed
  in as a parameter.
- The LangGraph and LangChain machinery is not modelled: graph compilation, the `Send`
  scheduling of the summary graph, the library's splitter and collapse helpers, and the
  `async for` drivers `run_interview` and `run_conversation`. The splitter and the token counter
  are parameters. Nothing claims the collapse loop ends.
- Summary.MapPhase: reports the first failing call in content order. The library runs the tasks
  concurrently and may raise another one.
- Concurrency is not modelled: the interview semaphore, `asyncio.gather` in batches, and
  thread-local state. Both handlers acquire the semaphore twice per run, which can block a large
  batch.
- Randomness is not modelled: random choice and sampling become index arguments. Only
  membership, count and drawing without replacement are stated.
- Clocks, uuids and timestamps are not modelled. The store allocates session ids. The
  customer-service session id takes the clock as a string argument.
- SQLite, JSON export, scenario files and their saving are not modelled. Loading is a parsed
  file or an unreadable one. Saving is a boolean argument.
- Pydantic validation of model answers is not modelled. An answer is either parsed or raised.
- Text.ParseInt: accepts ASCII digits only. Python's `int()` also accepts other Unicode decimal
  digits, such as Arabic-Indic ones; version numbers and scores are not expected to use them.
- CalculateMetrics: the averages are exact reals. The code divides with Python's `/`, which returns a
  rounded float, and the model does not state that rounding.
- CalculateMetrics: the report is typed, so a malformed report cannot occur. The code's `except`
  that returns `{}` on such a report has no counterpart.
- The `tools_to_run` field of the interview agent is not modelled. It always runs all three
  tools. Its persistence path is also left out.
- The "Failed to process response" and "Failed to run evaluation tools" handlers of the
  interview agent are not modelled. No modelled step raises into them.
- `master_agent.py` imports a `ConversationEngine` that `domains/recruitment/conversation.py`
  does not define. The model uses that module's functions as the engine.
- The "error" route names a node that is not added to either graph. The model stops at the
  route.
- The summary chunk size is the configured default of 1000 tokens
  (temp_data/domains/settings.py:49). `domains/settings.py` is not part of this model.
- The descriptions of the default tools are fixed strings, not their docstrings.
- NewMasterAgent.ReportRequest: carries the evaluation criteria as a map. The order in which
  the code writes them into the prompt text is not modelled.
- A JSON `null` field is treated as an absent key throughout the scenario model, because
  scenario fields are `Option` values. The code tells them apart in a few places:
  `add_scenario` accepts a `"title": null` that the model rejects; a stored `"version": null` makes
  the update raise where the model bumps the version; `"topics": null` makes the tag filter raise
  where the model drops the scenario; a `null` in an update patch is stored where the model keeps
  the old value; and a null id is looked up like a missing one.
- Session listing, search, export and the report queries of the store and the handlers are not
  modelled. They are plain reads.

## Findings

| source | as written | input that shows it | evidently intended | confidence | as-written member | corrected member |
|---|---|---|---|---|---|---|
| domains/recruitment/tools.py:104-108 | `summarize_interview_history` iterates with `async for` over `summarization_graph.ainvoke(...)`, which is a coroutine and not an asynchronous iterator, so every run raises a TypeError and the master agents keep "Error generating summary." | any non-empty transcript, such as ["HR: hello"] | `ainvoke` is awaited and its final state read | not executed; rests on the library's `ainvoke` returning a coroutine | Tools.SummarizeAsWritten | Tools.AwaitedSummaryTakesFinalState |
| temp_data/domains/handler.py:166-169 | once every question has an answer, `process_response` returns the `_complete_interview` coroutine without awaiting it, and `_run_single_interview` then tests `"error" in` that coroutine, which raises | a one-question scenario run with the answers ["a", "b"] | the completion is awaited, the interview completes and its report is stored | not executed | LegacyHandler.OneQuestionRunFails | LegacyHandler.AwaitedCompletion |

The members that use the summarisation take the graph run as a parameter (`Tools.GraphRun`).
They therefore hold for the awaited run `Tools.Awaited(invoke)`, which is the corrected behaviour.
`ToolRuns.AsWrittenSummaryAlwaysFails` shows what the agents do with the run as written.

=== FILE: attributes.dfy ===
/**
 * `get_attribute`: reading a named value from something that may carry it as an attribute, as a
 * dictionary key, or not at all. The summarisation graph and the tools read their state this
 * way, whether it arrives as an object or as a plain dictionary.
 */
module Attributes {
  import opened Wrappers
  import opened Collections

  /**
   * A value as `get_attribute` sees it: the attributes it has, and its items when it is a
   * dictionary (`None` for anything that is not one).
   */
  datatype Object<V> = Object(attributes: Dict<string, V>, items: Option<Dict<string, V>>)

  /**
   * A plain dictionary read through names that are not dictionary methods: items and no
   * attribute of those names (a name such as `items` or `get` would find the bound method).
   */
  function PlainDict<V>(items: Dict<string, V>): (o: Object<V>)
    ensures o.items == Some(items) && Keys(o.attributes) == []
  {
    Object([], Some(items))
  }

  /** The object has a value under `name` in some form. */
  predicate Carries<V>(obj: Object<V>, name: string)
  {
    name in Keys(obj.attributes) || (obj.items.Some? && name in Keys(obj.items.value))
  }

  /**
   * `get_attribute(obj, name, default)`: the attribute when the object has one, else the
   * dictionary entry when the object is a dictionary holding the key, else the default.
   */
  function GetAttribute<V>(obj: Object<V>, name: string, default: Option<V>): (r: Option<V>)
    ensures !Carries(obj, name) ==> r == default
    ensures Carries(obj, name) ==> r.Some? && (r.value in Values(obj.attributes) ||
                                               (obj.items.Some? && r.value in Values(obj.items.value)))
  {
    match Get(obj.attributes, name)
    case Some(v) => Some(v)
    case None =>
      match obj.items
      case Some(items) => if name in Keys(items) then Get(items, name) else default
      case None => default
  }

  /** The signature's default: `None`. */
  function GetAttributeOrNone<V>(obj: Object<V>, name: string): (r: Option<V>)
    ensures r.None? <==> !Carries(obj, name)
  {
    GetAttribute(obj, name, None)
  }

  /** An attribute is returned even when a dictionary key of the same name holds something else. */
  lemma AttributeWins<V>(obj: Object<V>, name: string, default: Option<V>)
    requires name in Keys(obj.attributes)
    ensures GetAttribute(obj, name, default) == Get(obj.attributes, name)
  {
  }

  /** For a plain dictionary and a name that is not a dictionary method, the read is `d.get(name, default)`. */
  lemma PlainDictRead<V>(items: Dict<string, V>, name: string, default: V)
    ensures GetAttribute(PlainDict(items), name, Some(default)) == Some(Get(items, name).GetOr(default))
  {
  }

  /** Without the attribute or the key, every default comes back unchanged. */
  lemma DefaultWhenAbsent<V>(obj: Object<V>, name: string, default: Option<V>)
    requires !Carries(obj, name)
    ensures GetAttribute(obj, name, default) == default
  {
  }
}

=== FILE: collections.dfy ===
/**
 * Python list filtering and insertion-ordered dictionaries.
 *
 * A Python `dict` remembers the order in which keys were first inserted; assigning to an
 * existing key replaces its value in place. `Dict<K, V>` models that as a sequence of pairs
 * with distinct keys.
 */
module Collections {
  import opened Wrappers

  /** `[x for x in s if p(x)]`. */
  function Filter<T>(s: seq<T>, p: T -> bool): (r: seq<T>)
    ensures |r| <= |s|
    ensures forall i :: 0 <= i < |r| ==> r[i] in s && p(r[i])
    ensures forall i :: 0 <= i < |s| && p(s[i]) ==> s[i] in r
  {
    if |s| == 0 then []
    else if p(s[0]) then [s[0]] + Filter(s[1..], p)
    else Filter(s[1..], p)
  }

  /** Filtering keeps the original order: it distributes over concatenation. */
  lemma {:induction false} FilterAppend<T>(a: seq<T>, b: seq<T>, p: T -> bool)
    ensures Filter(a + b, p) == Filter(a, p) + Filter(b, p)
  {
    if |a| == 0 {
      assert a + b == b;
    } else {
      assert (a + b)[1..] == a[1..] + b;
      FilterAppend(a[1..], b, p);
    }
  }

  /** An element passing the filter keeps every copy it had. */
  lemma {:induction false} FilterCounts<T>(s: seq<T>, p: T -> bool, x: T)
    ensures multiset(Filter(s, p))[x] == if p(x) then multiset(s)[x] else 0
  {
    if |s| > 0 {
      var rest := s[1..];
      FilterCounts(rest, p, x);
      assert s == [s[0]] + rest;
      assert multiset(s) == multiset([s[0]]) + multiset(rest);
      if p(s[0]) {
        assert Filter(s, p) == [s[0]] + Filter(rest, p);
        assert multiset(Filter(s, p)) == multiset([s[0]]) + multiset(Filter(rest, p));
      } else {
        assert Filter(s, p) == Filter(rest, p);
      }
    }
  }

  /** When every element passes, nothing is dropped. */
  lemma {:induction false} FilterAll<T>(s: seq<T>, p: T -> bool)
    requires forall i :: 0 <= i < |s| ==> p(s[i])
    ensures Filter(s, p) == s
  {
    if |s| > 0 {
      FilterAll(s[1..], p);
    }
  }

  /** When no element passes, nothing is kept. */
  lemma {:induction false} FilterNone<T>(s: seq<T>, p: T -> bool)
    requires forall i :: 0 <= i < |s| ==> !p(s[i])
    ensures Filter(s, p) == []
  {
    if |s| > 0 {
      FilterNone(s[1..], p);
    }
  }

  /** Index of the first element satisfying `p`, if any. */
  function FirstIndex<T>(s: seq<T>, p: T -> bool): (r: Option<nat>)
    ensures r.Some? ==> r.value < |s| && p(s[r.value])
    ensures r.Some? ==> forall j :: 0 <= j < r.value ==> !p(s[j])
    ensures r.None? <==> forall j :: 0 <= j < |s| ==> !p(s[j])
  {
    if |s| == 0 then None
    else if p(s[0]) then Some(0)
    else match FirstIndex(s[1..], p)
      case None => None
      case Some(i) => Some(i + 1)
  }

  /** `next((x for x in s if p(x)), None)`. */
  function FindFirst<T>(s: seq<T>, p: T -> bool): (r: Option<T>)
    ensures r.Some? ==> r.value in s && p(r.value)
    ensures r.None? <==> forall j :: 0 <= j < |s| ==> !p(s[j])
  {
    match FirstIndex(s, p)
    case None => None
    case Some(i) => Some(s[i])
  }

  /** Searching a concatenation searches the first part first. */
  lemma {:induction false} FindFirstAppend<T>(a: seq<T>, b: seq<T>, p: T -> bool)
    ensures FindFirst(a + b, p) == if FindFirst(a, p).Some? then FindFirst(a, p) else FindFirst(b, p)
  {
    if |a| == 0 {
      assert a + b == b;
    } else {
      assert (a + b)[1..] == a[1..] + b;
      FindFirstAppend(a[1..], b, p);
      FirstIndexShift(a, p);
      FirstIndexShift(a + b, p);
    }
  }

  lemma FirstIndexShift<T>(s: seq<T>, p: T -> bool)
    requires |s| > 0
    ensures FindFirst(s, p) == if p(s[0]) then Some(s[0]) else FindFirst(s[1..], p)
  {
    if !p(s[0]) {
      match FirstIndex(s[1..], p)
      case None =>
      case Some(i) => assert s[i + 1] == s[1..][i];
    }
  }

  /** An insertion-ordered dictionary. */
  type Dict<K, V> = seq<(K, V)>

  function Keys<K, V>(d: Dict<K, V>): (ks: seq<K>)
    ensures |ks| == |d|
    ensures forall i :: 0 <= i < |d| ==> ks[i] == d[i].0
  {
    if |d| == 0 then [] else [d[0].0] + Keys(d[1..])
  }

  function Values<K, V>(d: Dict<K, V>): (vs: seq<V>)
    ensures |vs| == |d|
    ensures forall i :: 0 <= i < |d| ==> vs[i] == d[i].1
  {
    if |d| == 0 then [] else [d[0].1] + Values(d[1..])
  }

  /** Adding an entry at the end adds its value at the end of the values. */
  lemma ValuesSnoc<K, V>(d: Dict<K, V>, kv: (K, V))
    ensures Values(d + [kv]) == Values(d) + [kv.1]
  {
    assert forall i :: 0 <= i < |d| ==> (d + [kv])[i] == d[i];
  }

  predicate Distinct<T(==)>(s: seq<T>)
  {
    forall i, j :: 0 <= i < j < |s| ==> s[i] != s[j]
  }

  /** A sequence without repeats has as many distinct elements as entries. */
  lemma {:induction false} DistinctElements<T>(s: seq<T>)
    requires Distinct(s)
    ensures |set x | x in s| == |s|
    decreases |s|
  {
    if |s| > 0 {
      var init := s[..|s| - 1];
      DistinctElements(init);
      assert (set x | x in s) == (set x | x in init) + {s[|s| - 1]};
      assert s[|s| - 1] !in init;
    } else {
      assert (set x | x in s) == {};
    }
  }

  /** A sequence has at most as many distinct elements as entries. */
  lemma {:induction false} FewerElements<T>(s: seq<T>)
    ensures |set x | x in s| <= |s|
    decreases |s|
  {
    if |s| > 0 {
      var init := s[..|s| - 1];
      FewerElements(init);
      assert (set x | x in s) == (set x | x in init) + {s[|s| - 1]};
    } else {
      assert (set x | x in s) == {};
    }
  }

  lemma {:induction false} SubsetSize<T>(x: set<T>, y: set<T>)
    requires x <= y
    ensures |x| <= |y|
    decreases y
  {
    if x != {} {
      var e :| e in x;
      SubsetSize(x - {e}, y - {e});
    }
  }

  /**
   * Pigeonholes: entries without repeats, all drawn from `b`, which holds some value they miss,
   * are fewer than the entries of `b`.
   */
  lemma DistinctWithin<T>(a: seq<T>, b: seq<T>, missed: T)
    requires Distinct(a) && (forall x :: x in a ==> x in b) && missed in b && missed !in a
    ensures |a| < |b|
  {
    DistinctElements(a);
    FewerElements(b);
    var sa, sb := set x | x in a, set x | x in b;
    SubsetSize(sa, sb - {missed});
    assert |sb - {missed}| == |sb| - 1;
  }

  predicate WellFormed<K(==), V>(d: Dict<K, V>)
  {
    Distinct(Keys(d))
  }

  /** `d.get(k)`. */
  function Get<K(==), V>(d: Dict<K, V>, k: K): (r: Option<V>)
    ensures r.None? <==> k !in Keys(d)
    ensures r.Some? ==> exists i :: 0 <= i < |d| && d[i] == (k, r.value)
  {
    if |d| == 0 then None
    else if d[0].0 == k then Some(d[0].1)
    else Get(d[1..], k)
  }

  /** `d[k] = v`: replaces the value in place when `k` is present, appends otherwise. */
  function Put<K(==), V>(d: Dict<K, V>, k: K, v: V): (r: Dict<K, V>)
    ensures k in Keys(d) ==> Keys(r) == Keys(d)
    ensures k !in Keys(d) ==> Keys(r) == Keys(d) + [k]
    ensures forall i :: 0 <= i < |r| ==> r[i] == (k, v) || r[i] in d
  {
    if |d| == 0 then [(k, v)]
    else if d[0].0 == k then [(k, v)] + d[1..]
    else [d[0]] + Put(d[1..], k, v)
  }

  /** After `d[k] = v`, reading `k` gives `v` and every other key reads as before. */
  lemma {:induction false} GetPut<K, V>(d: Dict<K, V>, k: K, v: V, k': K)
    ensures Get(Put(d, k, v), k') == if k' == k then Some(v) else Get(d, k')
  {
    if |d| > 0 && d[0].0 != k {
      GetPut(d[1..], k, v, k');
    }
  }

  /** Assignment keeps keys distinct. */
  lemma PutWellFormed<K, V>(d: Dict<K, V>, k: K, v: V)
    requires WellFormed(d)
    ensures WellFormed(Put(d, k, v))
  {
    var ks := Keys(d);
    if k !in ks {
      assert Keys(Put(d, k, v)) == ks + [k];
    }
  }

  /** `{k: v for k, v in pairs}`: later pairs overwrite earlier ones at the first key's position. */
  function FromPairs<K(==, !new), V>(pairs: seq<(K, V)>): (r: Dict<K, V>)
    ensures WellFormed(r)
    ensures forall k :: k in Keys(r) <==> k in Keys(pairs)
    decreases |pairs|
  {
    if |pairs| == 0 then []
    else
      var front := pairs[..|pairs| - 1];
      var last := pairs[|pairs| - 1];
      var init := FromPairs(front);
      PutWellFormed(init, last.0, last.1);
      KeysOfPut(init, last.0, last.1);
      KeysOfSnoc(pairs);
      Put(init, last.0, last.1)
  }

  /** The keys after `d[k] = v` are the keys before and `k`. */
  lemma KeysOfPut<K, V>(d: Dict<K, V>, k: K, v: V)
    ensures forall x :: x in Keys(Put(d, k, v)) <==> x in Keys(d) || x == k
  {
  }

  /** The keys of a non-empty list of pairs are those of all but the last pair, and the last one's. */
  lemma KeysOfSnoc<K, V>(pairs: seq<(K, V)>)
    requires |pairs| > 0
    ensures Keys(pairs) == Keys(pairs[..|pairs| - 1]) + [pairs[|pairs| - 1].0]
  {
    var front := pairs[..|pairs| - 1];
    var rhs := Keys(front) + [pairs[|pairs| - 1].0];
    assert |rhs| == |Keys(pairs)|;
    forall i | 0 <= i < |rhs|
      ensures rhs[i] == Keys(pairs)[i]
    {
      if i < |front| {
        assert rhs[i] == Keys(front)[i] == front[i].0;
      }
    }
  }

  /** The value kept for a key is the one from its last pair. */
  lemma {:induction false} FromPairsLastWins<K(!new), V>(pairs: seq<(K, V)>, i: nat)
    requires i < |pairs|
    requires forall j :: i < j < |pairs| ==> pairs[j].0 != pairs[i].0
    ensures Get(FromPairs(pairs), pairs[i].0) == Some(pairs[i].1)
    decreases |pairs|
  {
    var init := pairs[..|pairs| - 1];
    var last := pairs[|pairs| - 1];
    GetPut(FromPairs(init), last.0, last.1, pairs[i].0);
    if i < |pairs| - 1 {
      assert init[i] == pairs[i];
      FromPairsLastWins(init, i);
    }
  }
}

=== FILE: conversation_engine.dfy ===
/**
 * The interview engine (fail-open variant): starting an interview session and processing one
 * candidate answer. Every language-model call is an `Oracle` argument — the clarification
 * check, the answer analysis and the next-question choice. When one of them fails the engine
 * carries on: no clarification, a neutral default analysis, or the first unasked question.
 */
module ConversationEngine {
  import opened Wrappers
  import opened Text
  import opened Collections
  import opened Scenarios
  import opened Messages
  import opened QuestionSelection
  import ScenarioManager

  const SystemPrompt: string :=
    "You are an HR interviewer conducting a technical assessment interview. \n"
    + "Your goal is to evaluate the candidate's responses to technical questions.\n"
    + "Be professional, courteous, and thorough in your interactions.\n"
  const OpeningPrefix: string := "Let's begin the interview. "
  const ClosingMessage: string :=
    "Thank you for completing this technical interview. We'll now evaluate your responses."

  /** The parsed answer of the clarification check; the follow-up question is optional in the schema. */
  datatype Clarification = Clarification(needsClarification: bool, clarificationQuestion: Option<string>, reasoning: string)

  /** The parsed answer of the answer analysis: five scores and the reasoning. */
  datatype Analysis = Analysis(
    relevance: int, completeness: int, clarity: int, technicalAccuracy: int, professionalTone: int,
    reasoning: string)

  /** The analysis recorded when the analysis call fails. */
  const FallbackAnalysis: Analysis := Analysis(5, 5, 5, 5, 5, "Analysis failed due to an error.")

  datatype EvaluationEntry = EvaluationEntry(question: string, response: string, analysis: Analysis)

  /** An interview session: the dictionary the engine keeps between turns. */
  datatype Session = Session(
    scenario: Scenario,
    currentQuestion: Question,
    questionsAsked: seq<string>,
    history: seq<Message>,
    evaluation: Dict<string, EvaluationEntry>,
    awaitingClarification: bool,
    interviewComplete: bool)

  /** The session an interview starts with, asking the scenario's first question. */
  function Opening(s: Scenario, first: Question): (r: Session)
    ensures r.currentQuestion == first && r.questionsAsked == [first.id]
    ensures r.history == [System(SystemPrompt), Ai(OpeningPrefix + first.text)]
    ensures r.evaluation == [] && !r.awaitingClarification && !r.interviewComplete
  {
    Session(s, first, [first.id], [System(SystemPrompt), Ai(OpeningPrefix + first.text)], [], false, false)
  }

  /**
   * The scenario an interview runs on: the requested one when the id is non-empty and known,
   * otherwise a random one (`None` for an empty catalogue).
   */
  function ChooseScenario(catalogue: seq<Scenario>, scenarioId: Option<string>, pick: nat): (r: Option<Scenario>)
    ensures r.Some? ==> r.value in catalogue
    ensures r.None? <==> |catalogue| == 0
    ensures Truthy(scenarioId) && ScenarioManager.GetScenarioById(catalogue, scenarioId.value).Some? ==>
      r == ScenarioManager.GetScenarioById(catalogue, scenarioId.value)
  {
    if Truthy(scenarioId) && ScenarioManager.GetScenarioById(catalogue, scenarioId.value).Some? then
      ScenarioManager.GetScenarioById(catalogue, scenarioId.value)
    else ScenarioManager.SelectRandomScenario(catalogue, pick)
  }

  /**
   * `start_interview`: a session on the chosen scenario whose first question is asked; an empty
   * catalogue, or a scenario without questions, is an error.
   */
  function StartInterview(catalogue: seq<Scenario>, scenarioId: Option<string>, pick: nat): (r: Result<Session>)
    ensures |catalogue| == 0 ==> r == Err("No scenarios available to start interview")
    ensures r.Ok? ==> Some(r.value.scenario) == ChooseScenario(catalogue, scenarioId, pick)
    ensures r.Ok? ==> (r.value.scenario.questions.Some? && |r.value.scenario.questions.value| > 0 &&
      r.value == Opening(r.value.scenario, r.value.scenario.questions.value[0]))
    ensures r.Err? <==> (ChooseScenario(catalogue, scenarioId, pick).None? ||
      ChooseScenario(catalogue, scenarioId, pick).value.questions.GetOr([]) == [])
  {
    match ChooseScenario(catalogue, scenarioId, pick)
    case None => Err("No scenarios available to start interview")
    case Some(s) =>
      match s.questions
      case None => Err("Invalid scenario format: 'questions'")
      case Some(qs) =>
        if |qs| == 0 then Err("Invalid scenario format: list index out of range")
        else Ok(Opening(s, qs[0]))
  }

  /** The clarification check asked for a follow-up and supplied one. */
  predicate AsksClarification(clarification: Oracle<Clarification>)
  {
    clarification.Answer? && clarification.value.needsClarification
    && clarification.value.clarificationQuestion.Some?
  }

  /** What is recorded for the current question: the analysis, or the neutral default when it failed. */
  function EntryFor(s: Session, response: string, analysis: Oracle<Analysis>): (e: EvaluationEntry)
    ensures e.question == s.currentQuestion.text && e.response == response
    ensures analysis.Raised? ==> e.analysis == FallbackAnalysis
    ensures analysis.Answer? ==> e.analysis == analysis.value
  {
    EvaluationEntry(s.currentQuestion.text, response,
      match analysis case Answer(a) => a case Raised(_) => FallbackAnalysis)
  }

  /** The session has asked as many questions as its scenario lists. */
  predicate AllAsked(s: Session)
  {
    s.scenario.questions.Some? && |s.questionsAsked| >= |s.scenario.questions.value|
  }

  /**
   * `select_next_question`: `None` when the scenario has no `questions` key or nothing is left;
   * the only question left without asking the model; otherwise the first unasked question whose
   * id the model named, falling back to the first unasked question when the answer names none
   * of them or the call fails.
   */
  function SelectNextQuestion(s: Session, selection: Oracle<string>): (r: Option<Question>)
    ensures s.scenario.questions.None? ==> r.None?
    ensures s.scenario.questions.Some? ==>
      var available := Available(s.scenario.questions.value, s.questionsAsked);
      && (r.None? <==> |available| == 0)
      && (r.Some? ==> r.value in s.scenario.questions.value && r.value.id !in s.questionsAsked)
      && (|available| == 1 || selection.Raised? ==> r.None? || r == Some(available[0]))
      && (|available| > 1 && selection.Answer? ==> r == Some(MatchAnswer(available, selection.value)))
  {
    match s.scenario.questions
    case None => None
    case Some(qs) =>
      var available := Available(qs, s.questionsAsked);
      if |available| == 0 then None
      else if |available| == 1 then Some(available[0])
      else match selection
        case Raised(_) => Some(available[0])
        case Answer(raw) => Some(MatchAnswer(available, raw))
  }

  /**
   * `process_response`: records the answer, then either asks the model's clarification question
   * and waits, or records an analysis for the current question and moves on — closing the
   * interview when every question has been asked or none can be selected, asking the selected
   * question otherwise.
   */
  function ProcessResponse(
    s: Session, response: string,
    clarification: Oracle<Clarification>, analysis: Oracle<Analysis>, selection: Oracle<string>): (r: Session)
    ensures r.scenario == s.scenario
    ensures |r.history| == |s.history| + 2
    ensures r.history[..|s.history| + 1] == s.history + [Human(response)]
    ensures r.awaitingClarification <==> AsksClarification(clarification)
    ensures AsksClarification(clarification) ==>
      r == s.(history := s.history + [Human(response), Ai(clarification.value.clarificationQuestion.value)],
               awaitingClarification := true)
    ensures !AsksClarification(clarification) ==>
      && r.evaluation == Put(s.evaluation, s.currentQuestion.id, EntryFor(s, response, analysis))
      && Get(r.evaluation, s.currentQuestion.id) == Some(EntryFor(s, response, analysis))
      && (forall k :: k != s.currentQuestion.id ==> Get(r.evaluation, k) == Get(s.evaluation, k))
      && Keys(r.evaluation) == Keys(Put(s.evaluation, s.currentQuestion.id, EntryFor(s, response, analysis)))
    ensures !AsksClarification(clarification) && AllAsked(s) ==>
      r.interviewComplete && r.history[|s.history| + 1] == Ai(ClosingMessage) &&
      r.questionsAsked == s.questionsAsked && r.currentQuestion == s.currentQuestion
    ensures !AsksClarification(clarification) && !AllAsked(s) ==>
      match SelectNextQuestion(s.(history := s.history + [Human(response)]), selection)
      case Some(q) =>
        r.currentQuestion == q && r.questionsAsked == s.questionsAsked + [q.id] &&
        r.history[|s.history| + 1] == Ai(q.text) && r.interviewComplete == s.interviewComplete
      case None =>
        r.interviewComplete && r.history[|s.history| + 1] == Ai(ClosingMessage) &&
        r.questionsAsked == s.questionsAsked && r.currentQuestion == s.currentQuestion
  {
    var answered := s.(history := s.history + [Human(response)]);
    if AsksClarification(clarification) then
      answered.(history := answered.history + [Ai(clarification.value.clarificationQuestion.value)],
                awaitingClarification := true)
    else
      var entry := EntryFor(s, response, analysis);
      GetPutAll(s.evaluation, s.currentQuestion.id, entry);
      var analysed := answered.(awaitingClarification := false,
                                evaluation := Put(s.evaluation, s.currentQuestion.id, entry));
      if AllAsked(s) then
        analysed.(interviewComplete := true, history := analysed.history + [Ai(ClosingMessage)])
      else
        match SelectNextQuestion(answered, selection)
        case Some(q) =>
          analysed.(currentQuestion := q, questionsAsked := s.questionsAsked + [q.id],
                    history := analysed.history + [Ai(q.text)])
        case None =>
          analysed.(interviewComplete := true, history := analysed.history + [Ai(ClosingMessage)])
  }

  lemma GetPutAll(d: Dict<string, EvaluationEntry>, k: string, v: EvaluationEntry)
    ensures forall k' :: Get(Put(d, k, v), k') == if k' == k then Some(v) else Get(d, k')
  {
    forall k' {
      GetPut(d, k, v, k');
    }
  }

  /**
   * Every asked id is distinct and names a question of the scenario, and the last one asked is
   * the current question, itself a question of the scenario.
   */
  predicate AskedWellFormed(s: Session)
  {
    && Distinct(s.questionsAsked)
    && s.scenario.questions.Some?
    && (forall i :: 0 <= i < |s.questionsAsked| ==> s.questionsAsked[i] in Ids(s.scenario.questions.value))
    && |s.questionsAsked| > 0
    && s.questionsAsked[|s.questionsAsked| - 1] == s.currentQuestion.id
    && s.currentQuestion in s.scenario.questions.value
  }

  /** No question is ever asked twice: processing an answer keeps the asked list well formed. */
  lemma ProcessResponseNeverRepeats(
    s: Session, response: string,
    clarification: Oracle<Clarification>, analysis: Oracle<Analysis>, selection: Oracle<string>)
    requires AskedWellFormed(s)
    ensures AskedWellFormed(ProcessResponse(s, response, clarification, analysis, selection))
  {
    var r := ProcessResponse(s, response, clarification, analysis, selection);
    assert r.scenario == s.scenario;
    var next := SelectNextQuestion(s.(history := s.history + [Human(response)]), selection);
    if !AsksClarification(clarification) && !AllAsked(s) && next.Some? {
      var q := next.value;
      assert r.questionsAsked == s.questionsAsked + [q.id] && r.currentQuestion == q;
      assert q.id !in s.questionsAsked && q in s.scenario.questions.value;
      AskNewQuestion(s, q, r);
    } else {
      assert r.questionsAsked == s.questionsAsked && r.currentQuestion == s.currentQuestion;
    }
  }

  /** Asking a fresh question of the scenario keeps the asked list well formed. */
  lemma AskNewQuestion(s: Session, q: Question, r: Session)
    requires AskedWellFormed(s) && r.scenario == s.scenario
    requires q.id !in s.questionsAsked && q in s.scenario.questions.value
    requires r.questionsAsked == s.questionsAsked + [q.id] && r.currentQuestion == q
    ensures AskedWellFormed(r)
  {
    var i :| 0 <= i < |s.scenario.questions.value| && s.scenario.questions.value[i] == q;
    assert Ids(s.scenario.questions.value)[i] == q.id;
    forall i, j | 0 <= i < j < |r.questionsAsked|
      ensures r.questionsAsked[i] != r.questionsAsked[j]
    {
      if j == |s.questionsAsked| {
        assert r.questionsAsked[i] == s.questionsAsked[i];
      }
    }
  }

  /** A session opened on a scenario starts well formed. */
  lemma OpeningWellFormed(sc: Scenario)
    requires sc.questions.Some? && |sc.questions.value| > 0
    ensures AskedWellFormed(Opening(sc, sc.questions.value[0]))
  {
    assert Ids(sc.questions.value)[0] == sc.questions.value[0].id;
  }

  /**
   * When the unasked questions have distinct plain ids and the model answers with one of the
   * lines it was shown, that question is the one asked next.
   */
  lemma SelectionFollowsEchoedLine(s: Session, k: nat)
    requires s.scenario.questions.Some?
    requires k < |Available(s.scenario.questions.value, s.questionsAsked)|
    requires Distinct(Ids(Available(s.scenario.questions.value, s.questionsAsked)))
    requires PlainId(Available(s.scenario.questions.value, s.questionsAsked)[k].id)
    ensures SelectNextQuestion(s, Answer(QuestionLine(Available(s.scenario.questions.value, s.questionsAsked)[k])))
      == Some(Available(s.scenario.questions.value, s.questionsAsked)[k])
  {
    var available := Available(s.scenario.questions.value, s.questionsAsked);
    if |available| > 1 {
      MatchEchoedLine(available, k);
    }
  }

  /** The message carried by a model call that raised. */
  const Unavailable: string := "model unavailable"

  /** The session after the candidate gives each of `answers` in turn while every model call fails. */
  function AnswerWithoutModel(s: Session, answers: seq<string>): (r: Session)
    ensures r.scenario == s.scenario
    ensures |r.history| == |s.history| + 2 * |answers|
    decreases |answers|
  {
    if |answers| == 0 then s
    else
      var next := ProcessResponse(s, answers[0], Raised(Unavailable), Raised(Unavailable), Raised(Unavailable));
      AnswerWithoutModel(next, answers[1..])
  }

  /** Every recorded analysis is the neutral default. */
  predicate AllFallback(evaluation: Dict<string, EvaluationEntry>)
  {
    forall i :: 0 <= i < |evaluation| ==> evaluation[i].1.analysis == FallbackAnalysis
  }

  /** Midway through a model-less interview on `questions`: question `k` is current, the earlier ones are recorded. */
  predicate OnTrack(s: Session, questions: seq<Question>, k: nat)
  {
    && s.scenario.questions == Some(questions)
    && k < |questions|
    && s.currentQuestion == questions[k]
    && s.questionsAsked == Ids(questions[..k + 1])
    && Keys(s.evaluation) == Ids(questions[..k])
    && AllFallback(s.evaluation)
    && !s.interviewComplete
  }

  /** Recording a fresh question under the default analysis keeps every record a default one. */
  lemma RecordFallback(evaluation: Dict<string, EvaluationEntry>, id: string, entry: EvaluationEntry)
    requires AllFallback(evaluation) && entry.analysis == FallbackAnalysis
    ensures AllFallback(Put(evaluation, id, entry))
  {
    var recorded := Put(evaluation, id, entry);
    forall i | 0 <= i < |recorded|
      ensures recorded[i].1.analysis == FallbackAnalysis
    {
      if recorded[i] != (id, entry) {
        var j :| 0 <= j < |evaluation| && evaluation[j] == recorded[i];
      }
    }
  }

  /** The ids of a one-longer prefix, and the next id is new when ids are distinct. */
  lemma IdsOfLongerPrefix(questions: seq<Question>, k: nat)
    requires k < |questions| && Distinct(Ids(questions))
    ensures Ids(questions[..k + 1]) == Ids(questions[..k]) + [questions[k].id]
    ensures questions[k].id !in Ids(questions[..k])
  {
    forall j | 0 <= j < k
      ensures Ids(questions[..k])[j] != questions[k].id
    {
      assert Ids(questions)[j] != Ids(questions)[k];
    }
  }

  /** Without the model, the next question is the first one not yet asked. */
  lemma ModellessSelection(s: Session, questions: seq<Question>, k: nat)
    requires s.scenario.questions == Some(questions) && k + 1 < |questions| && Distinct(Ids(questions))
    requires s.questionsAsked == Ids(questions[..k + 1])
    ensures SelectNextQuestion(s, Raised(Unavailable)) == Some(questions[k + 1])
  {
    AvailableAfterPrefix(questions, k + 1);
    assert questions[k + 1..][0] == questions[k + 1];
  }

  /** Recording the current question under the default analysis extends the record by its id. */
  lemma RecordOnTrack(s: Session, questions: seq<Question>, k: nat, entry: EvaluationEntry)
    requires OnTrack(s, questions, k) && Distinct(Ids(questions)) && entry.analysis == FallbackAnalysis
    ensures Keys(Put(s.evaluation, questions[k].id, entry)) == Ids(questions[..k + 1])
    ensures AllFallback(Put(s.evaluation, questions[k].id, entry))
  {
    IdsOfLongerPrefix(questions, k);
    RecordFallback(s.evaluation, questions[k].id, entry);
  }

  /** One model-less turn records the current question and asks the next one in scenario order, or closes. */
  lemma OnTrackStep(s: Session, questions: seq<Question>, k: nat, answer: string)
    requires OnTrack(s, questions, k) && Distinct(Ids(questions))
    ensures var r := ProcessResponse(s, answer, Raised(Unavailable), Raised(Unavailable), Raised(Unavailable));
      && (k + 1 < |questions| ==> OnTrack(r, questions, k + 1))
      && (k + 1 == |questions| ==>
            r.interviewComplete && r.questionsAsked == Ids(questions)
            && Keys(r.evaluation) == Ids(questions) && AllFallback(r.evaluation))
  {
    RecordOnTrack(s, questions, k, EntryFor(s, answer, Raised(Unavailable)));
    if k + 1 < |questions| {
      ModellessSelection(s.(history := s.history + [Human(answer)]), questions, k);
      IdsOfLongerPrefix(questions, k + 1);
    } else {
      assert questions[..k + 1] == questions;
    }
  }

  /**
   * With every model call failing, a candidate who answers each question of a scenario with
   * distinct question ids is asked them all in scenario order, and the interview then closes with
   * every question recorded under the neutral default analysis.
   */
  lemma {:induction false} ModellessInterviewCompletes(s: Session, questions: seq<Question>, k: nat, answers: seq<string>)
    requires OnTrack(s, questions, k) && Distinct(Ids(questions))
    requires |answers| == |questions| - k
    ensures var r := AnswerWithoutModel(s, answers);
      && r.interviewComplete && r.questionsAsked == Ids(questions)
      && Keys(r.evaluation) == Ids(questions) && AllFallback(r.evaluation)
    decreases |answers|
  {
    var next := ProcessResponse(s, answers[0], Raised(Unavailable), Raised(Unavailable), Raised(Unavailable));
    OnTrackStep(s, questions, k, answers[0]);
    if k + 1 < |questions| {
      ModellessInterviewCompletes(next, questions, k + 1, answers[1..]);
    } else {
      assert answers[1..] == [];
    }
  }

  /** An opened interview is on track at its first question. */
  lemma OpeningOnTrack(sc: Scenario)
    requires sc.questions.Some? && |sc.questions.value| > 0
    ensures OnTrack(Opening(sc, sc.questions.value[0]), sc.questions.value, 0)
  {
    var qs := sc.questions.value;
    assert Ids(qs[..1]) == [qs[0].id];
    assert Ids(qs[..0]) == [];
  }
}

=== FILE: evaluation.dfy ===
/**
 * Evaluation of a finished interview: one detailed evaluation per answered question whose text
 * the scenario knows, an overall evaluation of the whole interview, the report that bundles
 * them, and the aggregate metrics computed from a report. The two model calls are oracle
 * arguments; their failures are not caught here, so they fail the whole report.
 */
module Evaluation {
  import opened Wrappers
  import opened Text
  import opened Collections
  import opened Scenarios
  import opened QuestionSelection

  /** The parsed answer of the per-response evaluation. */
  datatype DetailedEvaluation = DetailedEvaluation(
    relevance: int, completeness: int, clarity: int, technicalAccuracy: int, professionalTone: int,
    grammar: int, vocabulary: int,
    reasoning: string, strengths: seq<string>, weaknesses: seq<string>)

  /** The parsed answer of the whole-interview evaluation. */
  datatype OverallEvaluation = OverallEvaluation(
    technicalSkills: int, communication: int, problemSolving: int, domainKnowledge: int, overall: int,
    keyStrengths: seq<string>, improvementAreas: seq<string>, hiringRecommendation: string, reasoning: string)

  /** The `scenario` block of a report. */
  datatype ScenarioBlock = ScenarioBlock(id: string, title: string, description: string, difficulty: string, topics: seq<string>)

  /** A report (its timestamp is not modelled). */
  datatype Report = Report(
    scenario: ScenarioBlock,
    finalSummary: string,
    detailedEvaluations: Dict<string, DetailedEvaluation>,
    overallEvaluation: OverallEvaluation)

  /** The per-response evaluation call: question text and answer in, evaluation or exception out. */
  type ResponseEvaluator = (string, string) -> Oracle<DetailedEvaluation>
  /** The overall evaluation call: title, description, summary and formatted evaluations in. */
  type InterviewEvaluator = (string, string, string, string) -> Oracle<OverallEvaluation>

  /** The text of the first scenario question with the id, `""` when there is none. */
  function QuestionText(scenario: Scenario, questionId: string): (t: string)
    ensures (forall i :: 0 <= i < |scenario.questions.GetOr([])| ==> scenario.questions.GetOr([])[i].id != questionId) ==> t == ""
    ensures forall i :: 0 <= i < |scenario.questions.GetOr([])| && scenario.questions.GetOr([])[i].id == questionId ==>
      (exists j :: 0 <= j <= i && scenario.questions.GetOr([])[j].id == questionId && t == scenario.questions.GetOr([])[j].text)
  {
    var qs := scenario.questions.GetOr([]);
    match FirstIndex(qs, q => HasQuestionId(questionId, q))
    case Some(i) => qs[i].text
    case None => ""
  }

  /** An answer is evaluated only when its question is found with a non-empty text. */
  predicate Evaluable(scenario: Scenario, answer: (string, string))
  {
    QuestionText(scenario, answer.0) != ""
  }

  /** The evaluation call made for an answer. */
  function EvaluationOf(scenario: Scenario, answer: (string, string), evaluate: ResponseEvaluator): Oracle<DetailedEvaluation>
  {
    evaluate(QuestionText(scenario, answer.0), answer.1)
  }

  /** Evaluates each answer in order with `call`; the first failing call fails the whole, with its message. */
  function EvaluateEach(answers: Dict<string, string>, call: ((string, string)) -> Oracle<DetailedEvaluation>)
    : (r: Result<Dict<string, DetailedEvaluation>>)
    ensures r.Err? <==> exists i :: 0 <= i < |answers| && call(answers[i]).Raised?
    ensures r.Err? ==> exists i :: (0 <= i < |answers| && call(answers[i]) == Raised(r.message) &&
                                    forall j :: 0 <= j < i ==> call(answers[j]).Answer?)
    ensures r.Ok? ==> |r.value| == |answers|
    ensures r.Ok? ==> forall i :: 0 <= i < |answers| ==> r.value[i] == (answers[i].0, call(answers[i]).value)
  {
    if |answers| == 0 then Ok([])
    else
      match call(answers[0])
      case Raised(m) => Err(m)
      case Answer(e) =>
        var rest := answers[1..];
        match EvaluateEach(rest, call)
        case Err(m) =>
          assert forall j :: 0 <= j < |rest| ==> rest[j] == answers[j + 1];
          Err(m)
        case Ok(tail) =>
          assert forall j :: 1 <= j < |answers| ==> answers[j] == rest[j - 1];
          Ok([(answers[0].0, e)] + tail)
  }

  /** The answers that are evaluated, in order: those whose question is known. */
  function Kept(scenario: Scenario, responses: Dict<string, string>): (kept: Dict<string, string>)
    ensures |kept| <= |responses|
    ensures forall i :: 0 <= i < |kept| ==> kept[i] in responses && Evaluable(scenario, kept[i])
    ensures forall i :: 0 <= i < |responses| && Evaluable(scenario, responses[i]) ==> responses[i] in kept
  {
    Filter(responses, a => Evaluable(scenario, a))
  }

  /**
   * The detailed evaluations, in answer order: the answers whose question is unknown are
   * skipped and every other one is evaluated.
   */
  function EvaluateResponses(scenario: Scenario, responses: Dict<string, string>, evaluate: ResponseEvaluator)
    : (r: Result<Dict<string, DetailedEvaluation>>)
    ensures var kept := Kept(scenario, responses);
      && (r.Err? <==> exists i :: 0 <= i < |kept| && EvaluationOf(scenario, kept[i], evaluate).Raised?)
      && (r.Ok? ==> |r.value| == |kept|)
      && (r.Ok? ==> forall i :: 0 <= i < |kept| ==>
            r.value[i] == (kept[i].0, EvaluationOf(scenario, kept[i], evaluate).value))
  {
    EvaluateEach(Kept(scenario, responses), a => EvaluationOf(scenario, a, evaluate))
  }

  /** Skipping keeps the keys of the evaluations exactly the evaluable answer ids. */
  lemma EvaluatedIdsAreTheEvaluableOnes(scenario: Scenario, responses: Dict<string, string>, evaluate: ResponseEvaluator)
    requires EvaluateResponses(scenario, responses, evaluate).Ok?
    ensures forall k :: k in Keys(EvaluateResponses(scenario, responses, evaluate).value) <==>
      k in Keys(responses) && QuestionText(scenario, k) != ""
  {
    assert Keys(EvaluateResponses(scenario, responses, evaluate).value) == Keys(Kept(scenario, responses));
    KeptKeys(scenario, responses);
  }

  /** The ids of the kept answers are exactly the evaluable answer ids. */
  lemma KeptKeys(scenario: Scenario, responses: Dict<string, string>)
    ensures forall k :: k in Keys(Kept(scenario, responses)) <==> k in Keys(responses) && QuestionText(scenario, k) != ""
  {
    forall k ensures k in Keys(Kept(scenario, responses)) <==> k in Keys(responses) && QuestionText(scenario, k) != "" {
      if k in Keys(Kept(scenario, responses)) {
        KeptKeySound(scenario, responses, k);
      }
      if k in Keys(responses) && QuestionText(scenario, k) != "" {
        KeptKeyComplete(scenario, responses, k);
      }
    }
  }

  lemma KeptKeySound(scenario: Scenario, responses: Dict<string, string>, k: string)
    requires k in Keys(Kept(scenario, responses))
    ensures k in Keys(responses) && QuestionText(scenario, k) != ""
  {
    var kept := Kept(scenario, responses);
    var i :| 0 <= i < |kept| && Keys(kept)[i] == k;
    assert kept[i] in responses && Evaluable(scenario, kept[i]);
    KeyOfMember(responses, kept[i]);
  }

  lemma KeptKeyComplete(scenario: Scenario, responses: Dict<string, string>, k: string)
    requires k in Keys(responses) && QuestionText(scenario, k) != ""
    ensures k in Keys(Kept(scenario, responses))
  {
    var j :| 0 <= j < |responses| && Keys(responses)[j] == k;
    assert Evaluable(scenario, responses[j]);
    KeyOfMember(Kept(scenario, responses), responses[j]);
  }

  lemma KeyOfMember<K, V>(d: Dict<K, V>, kv: (K, V))
    requires kv in d
    ensures kv.0 in Keys(d)
  {
    var i :| 0 <= i < |d| && d[i] == kv;
    assert Keys(d)[i] == kv.0;
  }

  /** The header of the block numbered `i + 1`. */
  function Header(i: nat): (h: string)
    ensures |h| > 0
  {
    "EVALUATION " + NatToString(i + 1) + ":\n"
  }

  /** One evaluation's scores (each out of 10), strengths and weaknesses, a line each. */
  function Body(e: DetailedEvaluation): string
  {
    "- Relevance: " + IntToString(e.relevance) + "/10\n"
    + "- Completeness: " + IntToString(e.completeness) + "/10\n"
    + "- Clarity: " + IntToString(e.clarity) + "/10\n"
    + "- Technical Accuracy: " + IntToString(e.technicalAccuracy) + "/10\n"
    + "- Professional Tone: " + IntToString(e.professionalTone) + "/10\n"
    + "- Grammar: " + IntToString(e.grammar) + "/10\n"
    + "- Vocabulary: " + IntToString(e.vocabulary) + "/10\n"
    + "- Strengths: " + Join(", ", e.strengths) + "\n"
    + "- Weaknesses: " + Join(", ", e.weaknesses) + "\n"
  }

  /** The block of the evaluation numbered `i + 1`: its header, then its body. */
  function FormatEvaluation(i: nat, e: DetailedEvaluation): (text: string)
    ensures Header(i) <= text
  {
    Header(i) + Body(e)
  }

  /** The numbered blocks, one per evaluation, in order. */
  function Blocks(evaluations: seq<DetailedEvaluation>): (r: seq<string>)
    ensures |r| == |evaluations|
    ensures forall i :: 0 <= i < |r| ==> r[i] == FormatEvaluation(i, evaluations[i])
  {
    seq(|evaluations|, i requires 0 <= i < |evaluations| => FormatEvaluation(i, evaluations[i]))
  }

  /** The text handed to the overall evaluation: the blocks separated by blank lines. */
  function FormatEvaluations(evaluations: seq<DetailedEvaluation>): (text: string)
    ensures |evaluations| == 0 ==> text == ""
    ensures |evaluations| > 0 ==> "EVALUATION 1:\n" <= text
    ensures |evaluations| > 0 ==>
      |text| == SumLengths(Blocks(evaluations)) + 2 * (|evaluations| - 1)
  {
    var blocks := Blocks(evaluations);
    if |evaluations| == 0 then ""
    else
      JoinLength("\n\n", blocks);
      FirstHeaderLeads(evaluations);
      Join("\n\n", blocks)
  }

  /**
   * The blocks appear in evaluation order: formatting one more evaluation appends its block,
   * numbered after the others, behind one blank line.
   */
  lemma FormatEvaluationsAppend(evaluations: seq<DetailedEvaluation>, e: DetailedEvaluation)
    requires |evaluations| > 0
    ensures FormatEvaluations(evaluations + [e]) ==
      FormatEvaluations(evaluations) + "\n\n" + FormatEvaluation(|evaluations|, e)
  {
    var blocks := Blocks(evaluations);
    var last := FormatEvaluation(|evaluations|, e);
    BlocksSnoc(evaluations, e);
    JoinSnoc("\n\n", blocks, last);
    assert FormatEvaluations(evaluations) == Join("\n\n", blocks);
    assert FormatEvaluations(evaluations + [e]) == Join("\n\n", blocks + [last]);
  }

  /** One more evaluation adds one more block, at the end. */
  lemma BlocksSnoc(evaluations: seq<DetailedEvaluation>, e: DetailedEvaluation)
    ensures Blocks(evaluations + [e]) == Blocks(evaluations) + [FormatEvaluation(|evaluations|, e)]
  {
    var longer := evaluations + [e];
    var blocks := Blocks(evaluations);
    var more := Blocks(longer);
    forall i | 0 <= i < |blocks|
      ensures more[i] == blocks[i]
    {
      assert longer[i] == evaluations[i];
    }
    assert longer[|evaluations|] == e;
    SnocPointwise(more, blocks, FormatEvaluation(|evaluations|, e));
  }

  /** A sequence one longer than `s`, agreeing with it and ending in `x`, is `s + [x]`. */
  lemma SnocPointwise<T>(t: seq<T>, s: seq<T>, x: T)
    requires |t| == |s| + 1
    requires forall i :: 0 <= i < |s| ==> t[i] == s[i]
    requires t[|s|] == x
    ensures t == s + [x]
  {
    assert forall i :: 0 <= i < |t| ==> t[i] == (s + [x])[i];
  }

  /** The joined blocks open with the first block's header. */
  lemma FirstHeaderLeads(evaluations: seq<DetailedEvaluation>)
    requires |evaluations| > 0
    ensures "EVALUATION 1:\n" <= Join("\n\n", Blocks(evaluations))
  {
    var blocks := Blocks(evaluations);
    FirstHeader();
    JoinStartsWithFirst("\n\n", blocks);
    PrefixTransitive(Header(0), blocks[0], Join("\n\n", blocks));
  }

  /** The first block's header is numbered 1. */
  lemma FirstHeader()
    ensures Header(0) == "EVALUATION 1:\n"
  {
    assert NatToString(1) == "1";
  }

  /** The report's scenario block: the scenario's fields, `""` or `[]` where absent. */
  function ScenarioBlockOf(s: Scenario): (b: ScenarioBlock)
    ensures b.id == s.id.GetOr("") && b.title == s.title.GetOr("") && b.description == s.description.GetOr("")
    ensures b.difficulty == s.difficulty.GetOr("") && b.topics == s.topics.GetOr([])
  {
    ScenarioBlock(s.id.GetOr(""), s.title.GetOr(""), s.description.GetOr(""), s.difficulty.GetOr(""), s.topics.GetOr([]))
  }

  /**
   * `generate_evaluation_report`: the detailed evaluations, then the overall evaluation of them
   * (in order), then the report; a failing call fails the report.
   */
  function GenerateReport(
    scenario: Scenario, responses: Dict<string, string>, finalSummary: string,
    evaluate: ResponseEvaluator, evaluateInterview: InterviewEvaluator): (r: Result<Report>)
    ensures EvaluateResponses(scenario, responses, evaluate).Err? ==> r == Err(EvaluateResponses(scenario, responses, evaluate).message)
    ensures r.Ok? ==>
      && EvaluateResponses(scenario, responses, evaluate) == Ok(r.value.detailedEvaluations)
      && r.value.scenario == ScenarioBlockOf(scenario)
      && r.value.finalSummary == finalSummary
      && evaluateInterview(scenario.title.GetOr(""), scenario.description.GetOr(""), finalSummary,
                           FormatEvaluations(Values(r.value.detailedEvaluations))) == Answer(r.value.overallEvaluation)
    ensures EvaluateResponses(scenario, responses, evaluate).Ok? ==>
      (r.Err? <==> evaluateInterview(scenario.title.GetOr(""), scenario.description.GetOr(""), finalSummary,
                      FormatEvaluations(Values(EvaluateResponses(scenario, responses, evaluate).value))).Raised?)
  {
    match EvaluateResponses(scenario, responses, evaluate)
    case Err(m) => Err(m)
    case Ok(detailed) =>
      match evaluateInterview(scenario.title.GetOr(""), scenario.description.GetOr(""), finalSummary,
                              FormatEvaluations(Values(detailed)))
      case Raised(m) => Err(m)
      case Answer(overall) => Ok(Report(ScenarioBlockOf(scenario), finalSummary, detailed, overall))
  }

  /** What `calculate_metrics` reads from a report dictionary: score maps and the optional overall fields. */
  datatype ReportData = ReportData(
    detailed: seq<map<string, int>>, overallScore: Option<int>, hiringRecommendation: Option<string>)

  datatype Metrics = Metrics(
    avgRelevance: real, avgCompleteness: real, avgClarity: real, avgTechnical: real,
    avgProfessional: real, avgGrammar: real, avgVocabulary: real,
    overallScore: int, hiringRecommendation: string)

  /** The seven score keys of a detailed evaluation's dictionary form. */
  const ScoreKeys: seq<string> := [
    "relevance_score", "completeness_score", "clarity_score", "technical_accuracy_score",
    "professional_tone_score", "grammar_score", "vocabulary_score"]

  /** The scores of a detailed evaluation, under the keys its dictionary form uses. */
  function ScoreMap(e: DetailedEvaluation): (m: map<string, int>)
    ensures forall k :: k in ScoreKeys ==> k in m
    ensures m["relevance_score"] == e.relevance && m["completeness_score"] == e.completeness
    ensures m["clarity_score"] == e.clarity && m["technical_accuracy_score"] == e.technicalAccuracy
    ensures m["professional_tone_score"] == e.professionalTone
    ensures m["grammar_score"] == e.grammar && m["vocabulary_score"] == e.vocabulary
  {
    map["relevance_score" := e.relevance, "completeness_score" := e.completeness, "clarity_score" := e.clarity,
        "technical_accuracy_score" := e.technicalAccuracy, "professional_tone_score" := e.professionalTone,
        "grammar_score" := e.grammar, "vocabulary_score" := e.vocabulary]
  }

  /** A stored report as `calculate_metrics` sees it. */
  function DataOf(r: Report): (d: ReportData)
    ensures |d.detailed| == |r.detailedEvaluations|
    ensures d.overallScore == Some(r.overallEvaluation.overall)
    ensures d.hiringRecommendation == Some(r.overallEvaluation.hiringRecommendation)
  {
    var evaluations := Values(r.detailedEvaluations);
    ReportData(seq(|evaluations|, i requires 0 <= i < |evaluations| => ScoreMap(evaluations[i])),
               Some(r.overallEvaluation.overall), Some(r.overallEvaluation.hiringRecommendation))
  }

  /** `eval_data.get(key, 0)` for every evaluation. */
  function Scores(detailed: seq<map<string, int>>, key: string): (r: seq<int>)
    ensures |r| == |detailed|
    ensures forall i :: 0 <= i < |detailed| ==> r[i] == (if key in detailed[i] then detailed[i][key] else 0)
  {
    seq(|detailed|, i requires 0 <= i < |detailed| => if key in detailed[i] then detailed[i][key] else 0)
  }

  function Sum(xs: seq<int>): int
  {
    if |xs| == 0 then 0 else xs[0] + Sum(xs[1..])
  }

  /** `a` is the mean of `xs`, and 0 when there are no values. */
  predicate IsMean(a: real, xs: seq<int>)
  {
    && (|xs| == 0 ==> a == 0.0)
    && (|xs| > 0 ==> a * (|xs| as real) == Sum(xs) as real)
  }

  /** `sum(xs) / len(xs) if xs else 0`, in exact arithmetic. */
  function Average(xs: seq<int>): (a: real)
    ensures IsMean(a, xs)
  {
    if |xs| == 0 then 0.0 else Sum(xs) as real / |xs| as real
  }

  /** `calculate_metrics`: seven averages over the detailed evaluations, and the overall fields with defaults. */
  function CalculateMetrics(d: ReportData): (m: Metrics)
    ensures m.overallScore == d.overallScore.GetOr(0) && m.hiringRecommendation == d.hiringRecommendation.GetOr("")
    ensures IsMean(m.avgRelevance, Scores(d.detailed, "relevance_score"))
    ensures IsMean(m.avgCompleteness, Scores(d.detailed, "completeness_score"))
    ensures IsMean(m.avgClarity, Scores(d.detailed, "clarity_score"))
    ensures IsMean(m.avgTechnical, Scores(d.detailed, "technical_accuracy_score"))
    ensures IsMean(m.avgProfessional, Scores(d.detailed, "professional_tone_score"))
    ensures IsMean(m.avgGrammar, Scores(d.detailed, "grammar_score"))
    ensures IsMean(m.avgVocabulary, Scores(d.detailed, "vocabulary_score"))
  {
    Metrics(
      Average(Scores(d.detailed, "relevance_score")),
      Average(Scores(d.detailed, "completeness_score")),
      Average(Scores(d.detailed, "clarity_score")),
      Average(Scores(d.detailed, "technical_accuracy_score")),
      Average(Scores(d.detailed, "professional_tone_score")),
      Average(Scores(d.detailed, "grammar_score")),
      Average(Scores(d.detailed, "vocabulary_score")),
      d.overallScore.GetOr(0),
      d.hiringRecommendation.GetOr(""))
  }

  /** A sum of values within `[lo, hi]` lies between `n * lo` and `n * hi`. */
  lemma {:induction false} SumBounds(xs: seq<int>, lo: int, hi: int)
    requires forall i :: 0 <= i < |xs| ==> lo <= xs[i] <= hi
    ensures |xs| * lo <= Sum(xs) <= |xs| * hi
  {
    if |xs| > 0 {
      SumBounds(xs[1..], lo, hi);
    }
  }

  /** An average of scores within `[lo, hi]` stays within `[lo, hi]`. */
  lemma AverageBounds(xs: seq<int>, lo: int, hi: int)
    requires |xs| > 0
    requires forall i :: 0 <= i < |xs| ==> lo <= xs[i] <= hi
    ensures lo as real <= Average(xs) <= hi as real
  {
    SumBounds(xs, lo, hi);
    QuotientBounds(Average(xs), |xs| as real, Sum(xs) as real, lo as real, hi as real);
  }

  lemma QuotientBounds(a: real, n: real, total: real, lo: real, hi: real)
    requires n > 0.0 && a * n == total && lo * n <= total <= hi * n
    ensures lo <= a <= hi
  {
  }

  /** Every one of the seven scores of an evaluation lies within `[lo, hi]`. */
  predicate ScoresWithin(e: DetailedEvaluation, lo: int, hi: int)
  {
    && lo <= e.relevance <= hi && lo <= e.completeness <= hi && lo <= e.clarity <= hi
    && lo <= e.technicalAccuracy <= hi && lo <= e.professionalTone <= hi
    && lo <= e.grammar <= hi && lo <= e.vocabulary <= hi
  }

  /** Bounded scores give, under any score key, an average within the same bounds. */
  lemma KeyAverageBounds(r: Report, key: string, lo: int, hi: int)
    requires key in ScoreKeys && |r.detailedEvaluations| > 0
    requires forall i :: 0 <= i < |r.detailedEvaluations| ==> ScoresWithin(r.detailedEvaluations[i].1, lo, hi)
    ensures lo as real <= Average(Scores(DataOf(r).detailed, key)) <= hi as real
  {
    var d := DataOf(r);
    var xs := Scores(d.detailed, key);
    forall i | 0 <= i < |xs|
      ensures lo <= xs[i] <= hi
    {
      var e := Values(r.detailedEvaluations)[i];
      assert e == r.detailedEvaluations[i].1;
      assert d.detailed[i] == ScoreMap(e);
    }
    AverageBounds(xs, lo, hi);
  }

  /**
   * The metrics of a generated report: its overall score and recommendation, and averages over
   * exactly the evaluated answers — each within 1..10 whenever every evaluation scored within 1..10.
   */
  lemma MetricsOfReport(r: Report)
    requires forall i :: 0 <= i < |r.detailedEvaluations| ==> ScoresWithin(r.detailedEvaluations[i].1, 1, 10)
    ensures CalculateMetrics(DataOf(r)).overallScore == r.overallEvaluation.overall
    ensures CalculateMetrics(DataOf(r)).hiringRecommendation == r.overallEvaluation.hiringRecommendation
    ensures |r.detailedEvaluations| > 0 ==>
      var m := CalculateMetrics(DataOf(r));
      && 1.0 <= m.avgRelevance <= 10.0 && 1.0 <= m.avgCompleteness <= 10.0 && 1.0 <= m.avgClarity <= 10.0
      && 1.0 <= m.avgTechnical <= 10.0 && 1.0 <= m.avgProfessional <= 10.0
      && 1.0 <= m.avgGrammar <= 10.0 && 1.0 <= m.avgVocabulary <= 10.0
  {
    if |r.detailedEvaluations| > 0 {
      forall key | key in ScoreKeys
        ensures 1.0 <= Average(Scores(DataOf(r).detailed, key)) <= 10.0
      {
        KeyAverageBounds(r, key, 1, 10);
      }
    }
  }
}

=== FILE: handler.dfy ===
/**
 * The request handler of the fail-open engine. It keeps no session in memory: every answer is
 * handled by reading the session's stored answers back, rebuilding the conversation from them,
 * recovering the current question as the first one not yet answered, running one engine turn,
 * storing the answer, and deciding whether the interview is over — in which case the answers are
 * summarised, evaluated and the report stored.
 */
module Handler {
  import opened Wrappers
  import opened Text
  import opened Collections
  import opened Scenarios
  import opened Messages
  import opened QuestionSelection
  import opened Evaluation
  import opened Storage
  import ScenarioManager
  import Engine = ConversationEngine

  /** The system message a rebuilt conversation starts with. */
  const InterviewerRole: string := "You are an HR interviewer conducting a technical assessment interview."

  const StartFailed: string := "Failed to start interview: "
  const ProcessFailed: string := "Failed to process response: "
  const CompleteFailed: string := "Failed to complete interview: "
  const RunFailed: string := "Failed to run interview: "
  const LengthMismatch: string := "Mismatch in input list lengths"

  /** The scenario block of a reply. */
  datatype ScenarioInfo = ScenarioInfo(id: string, title: string, description: string)

  /** The dictionaries the handler returns. */
  datatype Reply =
    | Failure(error: string)
    | Started(sessionId: SessionId, scenario: ScenarioInfo, currentQuestion: Question, history: seq<RoleMessage>)
    | Ongoing(sessionId: SessionId, scenario: ScenarioInfo, currentQuestion: Question, awaitingClarification: bool,
              history: seq<RoleMessage>)
    | Completed(sessionId: SessionId, report: Report)
    | Incomplete(sessionId: SessionId)

  /** The three model calls of one engine turn. */
  datatype Turn = Turn(
    clarification: Oracle<Engine.Clarification>, analysis: Oracle<Engine.Analysis>, selection: Oracle<string>)

  /** The model calls of completing an interview: the summary of the answer texts and the two evaluators. */
  datatype Grader = Grader(
    summarize: seq<string> -> Oracle<Option<string>>, evaluate: ResponseEvaluator, evaluateInterview: InterviewEvaluator)

  /** `scenario["id"]`, `scenario["title"]`, `scenario["description"]`, raising on the first that is absent. */
  function InfoOf(sc: Scenario): (r: Result<ScenarioInfo>)
    ensures r.Ok? <==> sc.id.Some? && sc.title.Some? && sc.description.Some?
    ensures r.Ok? ==> r.value == ScenarioInfo(sc.id.value, sc.title.value, sc.description.value)
    ensures r.Err? ==> r.message in {"'id'", "'title'", "'description'"}
  {
    match sc.id
    case None => Err("'id'")
    case Some(id) =>
      match sc.title
      case None => Err("'title'")
      case Some(title) =>
        match sc.description
        case None => Err("'description'")
        case Some(description) => Ok(ScenarioInfo(id, title, description))
  }

  /** What an engine's `start_interview` hands back to the handler: the first question and the opening messages. */
  datatype FirstTurn = FirstTurn(question: Question, history: seq<Message>)

  /** `start_interview` of the fail-open engine, for a scenario id. */
  function EngineStart(catalogue: seq<Scenario>, enginePick: nat): (begin: string -> Result<FirstTurn>)
  {
    id =>
      match Engine.StartInterview(catalogue, Some(id), enginePick)
      case Err(m) => Err(m)
      case Ok(s) => Ok(FirstTurn(s.currentQuestion, s.history))
  }

  /**
   * `start_interview_session`: an explicit id must name a scenario; otherwise one is drawn at
   * random. The session is created before the engine starts, so a failure after that point
   * leaves the new session in the store.
   */
  function StartInterviewSession(
    catalogue: seq<Scenario>, st: Store, scenarioId: Option<string>, metadata: Option<Metadata>,
    pick: nat, begin: string -> Result<FirstTurn>): (r: (Store, Reply))
    ensures r.1.Failure? || r.1.Started?
    ensures Truthy(scenarioId) && ScenarioManager.GetScenarioById(catalogue, scenarioId.value).None? ==>
      r == (st, Failure("Scenario with ID " + scenarioId.value + " not found"))
    ensures !Truthy(scenarioId) && |catalogue| == 0 ==> r == (st, Failure(StartFailed + NotSubscriptable))
    ensures r.0 == st || (|r.0| == |st| + 1 && r.0[..|st|] == st && r.0[|st|].SessionCreated? && r.0[|st|].metadata == metadata)
    ensures r.1.Started? && Truthy(scenarioId) ==> r.1.scenario.id == scenarioId.value
    ensures r.1.Started? ==>
      && r.1.sessionId == |st|
      && r.0 == st + [SessionCreated(r.1.scenario.id, metadata)]
      && GetSession(r.0, r.1.sessionId) == Some(SessionRecord(r.1.scenario.id, InitialStatus, metadata.GetOr([])))
      && begin(r.1.scenario.id).Ok?
      && r.1.currentQuestion == begin(r.1.scenario.id).value.question
      && r.1.history == ToRoleMessages(begin(r.1.scenario.id).value.history)
  {
    if Truthy(scenarioId) then
      match ScenarioManager.GetScenarioById(catalogue, scenarioId.value)
      case None => (st, Failure("Scenario with ID " + scenarioId.value + " not found"))
      case Some(sc) => Launch(st, sc, metadata, begin)
    else
      match ScenarioManager.SelectRandomScenario(catalogue, pick)
      case None => (st, Failure(StartFailed + NotSubscriptable))
      case Some(sc) => Launch(st, sc, metadata, begin)
  }

  /** The part of `start_interview_session` after the scenario is chosen. */
  function Launch(st: Store, sc: Scenario, metadata: Option<Metadata>, begin: string -> Result<FirstTurn>)
    : (r: (Store, Reply))
    ensures r.1.Failure? || r.1.Started?
    ensures sc.id.None? ==> r == (st, Failure(StartFailed + "'id'"))
    ensures sc.id.Some? ==> r.0 == st + [SessionCreated(sc.id.value, metadata)]
    ensures sc.id.Some? && begin(sc.id.value).Err? ==> r.1 == Failure(StartFailed + begin(sc.id.value).message)
    ensures r.1.Started? ==>
      && sc.id.Some? && r.1.sessionId == |st| && InfoOf(sc) == Ok(r.1.scenario)
      && begin(sc.id.value).Ok?
      && r.1.currentQuestion == begin(sc.id.value).value.question
      && r.1.history == ToRoleMessages(begin(sc.id.value).value.history)
  {
    match sc.id
    case None => (st, Failure(StartFailed + "'id'"))
    case Some(id) =>
      var (created, sid) := CreateSession(st, id, metadata);
      match begin(id)
      case Err(m) => (created, Failure(StartFailed + m))
      case Ok(first) =>
        match InfoOf(sc)
        case Err(m) => (created, Failure(StartFailed + m))
        case Ok(info) => (created, Started(sid, info, first.question, ToRoleMessages(first.history)))
  }

  /**
   * The question a turn answers: the first scenario question whose id has no stored answer; with
   * no answer stored yet, the first question, which a scenario without questions does not have.
   */
  function CurrentQuestion(questions: seq<Question>, answered: seq<string>): (r: Result<Option<Question>>)
    ensures r.Err? <==> |answered| == 0 && |questions| == 0
    ensures r.Err? ==> r.message == "list index out of range"
    ensures r.Ok? && r.value.Some? ==>
      exists i :: 0 <= i < |questions| && questions[i] == r.value.value && questions[i].id !in answered &&
        forall j :: 0 <= j < i ==> questions[j].id in answered
    ensures r == Ok(None) <==> |answered| > 0 && forall i :: 0 <= i < |questions| ==> questions[i].id in answered
  {
    if |answered| == 0 then
      if |questions| == 0 then Err("list index out of range") else Ok(Some(questions[0]))
    else
      match FirstIndex(questions, (q: Question) => NotAsked(answered, q))
      case None => Ok(None)
      case Some(i) => Ok(Some(questions[i]))
  }

  /** The current question is the first question the engine counts as available. */
  lemma CurrentIsFirstAvailable(questions: seq<Question>, answered: seq<string>)
    requires CurrentQuestion(questions, answered).Ok? && CurrentQuestion(questions, answered).value.Some?
    ensures |Available(questions, answered)| > 0
    ensures Available(questions, answered)[0] == CurrentQuestion(questions, answered).value.value
  {
    if |answered| == 0 {
      AvailableStartsAt(questions, answered, 0);
    } else {
      var i := FirstIndex(questions, (q: Question) => NotAsked(answered, q)).value;
      AvailableStartsAt(questions, answered, i);
    }
  }

  /** The stored answers as question and answer messages, the question text `""` when unknown. */
  function Exchanges(sc: Scenario, responses: Dict<string, string>): (r: seq<Message>)
    ensures |r| == 2 * |responses|
  {
    if |responses| == 0 then []
    else
      var last := responses[|responses| - 1];
      Exchanges(sc, responses[..|responses| - 1]) + [Ai(QuestionText(sc, last.0)), Human(last.1)]
  }

  /** Each stored answer becomes its question's text, as asked by the model, followed by the answer. */
  lemma {:induction false} ExchangesAt(sc: Scenario, responses: Dict<string, string>, i: nat)
    requires i < |responses|
    ensures Exchanges(sc, responses)[2 * i] == Ai(QuestionText(sc, responses[i].0))
    ensures Exchanges(sc, responses)[2 * i + 1] == Human(responses[i].1)
    decreases |responses|
  {
    if i < |responses| - 1 {
      var init := responses[..|responses| - 1];
      ExchangesAt(sc, init, i);
      assert init[i] == responses[i];
    }
  }

  /** The conversation handed to the engine: the interviewer role, the stored exchanges, the current question. */
  function RebuiltHistory(sc: Scenario, responses: Dict<string, string>, current: Question): (h: seq<Message>)
    ensures |h| == 2 * |responses| + 2
    ensures h[0] == System(InterviewerRole) && h[|h| - 1] == Ai(current.text)
    ensures h[1..|h| - 1] == Exchanges(sc, responses)
  {
    [System(InterviewerRole)] + Exchanges(sc, responses) + [Ai(current.text)]
  }

  /** The engine session the handler builds: the asked ids are the stored ones, without the current question. */
  function EngineSession(sc: Scenario, responses: Dict<string, string>, current: Question): (s: Engine.Session)
    ensures s.scenario == sc && s.currentQuestion == current && s.questionsAsked == Keys(responses)
    ensures s.history == RebuiltHistory(sc, responses, current)
    ensures s.evaluation == [] && !s.awaitingClarification && !s.interviewComplete
  {
    Engine.Session(sc, current, Keys(responses), RebuiltHistory(sc, responses, current), [], false, false)
  }

  /** The writes that store a report: each detailed evaluation in order, the overall one, the report. */
  function ReportWrites(sid: SessionId, report: Report): (ws: seq<Write>)
    ensures |ws| == |report.detailedEvaluations| + 2
    ensures forall i :: 0 <= i < |report.detailedEvaluations| ==>
      ws[i] == DetailedStored(sid, report.detailedEvaluations[i].0, report.detailedEvaluations[i].1)
    ensures ws[|ws| - 2] == OverallStored(sid, report.overallEvaluation) && ws[|ws| - 1] == ReportStored(sid, report)
    ensures forall i :: 0 <= i < |ws| ==> About(ws[i], sid) && (ws[i].DetailedStored? || ws[i].OverallStored? || ws[i].ReportStored?)
  {
    var detailed := report.detailedEvaluations;
    seq(|detailed|, i requires 0 <= i < |detailed| => DetailedStored(sid, detailed[i].0, detailed[i].1))
      + [OverallStored(sid, report.overallEvaluation), ReportStored(sid, report)]
  }

  /**
   * `complete_interview`: the session is marked completed before anything else; the answers are
   * summarised and evaluated (a later answer to the same question replacing an earlier one), and
   * the evaluations and report stored. Any failure marks the session as errored.
   */
  function CompleteInterview(st: Store, sid: SessionId, sc: Scenario, responses: Dict<string, string>, grader: Grader)
    : (r: (Store, Reply))
    ensures r.1.Completed? || r.1.Failure?
    ensures |r.0| > |st| && r.0[..|st| + 1] == st + [StatusSet(sid, "completed")] && r.0[..|st|] == st
    ensures forall i :: |st| <= i < |r.0| ==> About(r.0[i], sid) && !r.0[i].ResponseStored?
    ensures r.1.Completed? ==>
      && r.1.sessionId == sid
      && grader.summarize(Values(responses)).Answer?
      && GenerateReport(sc, FromPairs(responses), grader.summarize(Values(responses)).value.GetOr(""),
                        grader.evaluate, grader.evaluateInterview) == Ok(r.1.report)
      && r.0 == st + [StatusSet(sid, "completed")] + ReportWrites(sid, r.1.report)
    ensures r.1.Failure? ==>
      && r.0 == st + [StatusSet(sid, "completed"), StatusSet(sid, "error")]
      && CompleteFailed <= r.1.error
    ensures GetSession(st, sid).Some? ==>
      GetSession(r.0, sid) == Some(GetSession(st, sid).value.(status := if r.1.Completed? then "completed" else "error"))
  {
    match grader.summarize(Values(responses))
    case Raised(m) => Abandon(st, sid, m)
    case Answer(summary) =>
      match GenerateReport(sc, FromPairs(responses), summary.GetOr(""), grader.evaluate, grader.evaluateInterview)
      case Err(m) => Abandon(st, sid, m)
      case Ok(report) => (FileReport(st, sid, report), Completed(sid, report))
  }

  /** The success path of `complete_interview`: the session, marked completed, gets its evaluations and report. */
  function FileReport(st: Store, sid: SessionId, report: Report): (r: Store)
    ensures r == st + [StatusSet(sid, "completed")] + ReportWrites(sid, report)
    ensures forall i :: |st| <= i < |r| ==> About(r[i], sid) && !r[i].ResponseStored?
    ensures GetSession(st, sid).Some? ==> GetSession(r, sid) == Some(GetSession(st, sid).value.(status := "completed"))
  {
    var marked := UpdateStatus(st, sid, "completed");
    var ws := ReportWrites(sid, report);
    StatusSurvives(marked, ws, sid);
    AppendedRecords(st, [StatusSet(sid, "completed")] + ws, sid);
    assert marked + ws == st + ([StatusSet(sid, "completed")] + ws);
    marked + ws
  }

  /** The failure path of `complete_interview`: the session, already marked completed, is marked errored. */
  function Abandon(st: Store, sid: SessionId, message: string): (r: (Store, Reply))
    ensures r.0 == st + [StatusSet(sid, "completed"), StatusSet(sid, "error")]
    ensures r.1 == Failure(CompleteFailed + message)
    ensures GetSession(st, sid).Some? ==> GetSession(r.0, sid) == Some(GetSession(st, sid).value.(status := "error"))
  {
    var marked := UpdateStatus(st, sid, "completed");
    var errored := UpdateStatus(marked, sid, "error");
    assert errored == st + [StatusSet(sid, "completed"), StatusSet(sid, "error")];
    (errored, Failure(CompleteFailed + message))
  }

  /** Records of the session that store no answer, appended to a store. */
  lemma AppendedRecords(st: Store, ws: seq<Write>, sid: SessionId)
    requires forall i :: 0 <= i < |ws| ==> About(ws[i], sid) && !ws[i].ResponseStored?
    ensures forall i :: |st| <= i < |st + ws| ==> About((st + ws)[i], sid) && !(st + ws)[i].ResponseStored?
  {
    assert forall i :: |st| <= i < |st + ws| ==> (st + ws)[i] == ws[i - |st|];
  }

  /** Storing evaluations and reports leaves a session's row as it was. */
  lemma {:induction false} StatusSurvives(st: Store, ws: seq<Write>, sid: SessionId)
    requires forall i :: 0 <= i < |ws| ==> !ws[i].StatusSet? && !ws[i].SessionCreated?
    ensures GetSession(st + ws, sid) == GetSession(st, sid)
    decreases |ws|
  {
    if |ws| > 0 && sid < |st| {
      var init := ws[..|ws| - 1];
      StatusSurvives(st, init, sid);
      AfterAppend(st, ws, sid);
      AfterAppend(st, init, sid);
      assert After(st + ws, sid)[..|After(st + ws, sid)| - 1] == After(st + init, sid);
      assert (st + ws)[sid] == st[sid];
      assert (st + init)[sid] == st[sid];
    } else if |ws| == 0 {
      assert st + ws == st;
    }
  }

  /** Where the stored answers leave an interview: every question answered, or a question to answer. */
  datatype Position =
    | AllAnswered(scenario: Scenario)
    | AtQuestion(scenario: Scenario, questions: seq<Question>, current: Question)

  /**
   * The scenario of a stored session and its current question; looking up a scenario that is
   * gone, one without questions, or the first question of an empty list raises.
   */
  function Locate(catalogue: seq<Scenario>, scenarioId: string, responses: Dict<string, string>): (r: Result<Position>)
    ensures ScenarioManager.GetScenarioById(catalogue, scenarioId).None? ==> r == Err(NotSubscriptable)
    ensures r.Ok? ==>
      && ScenarioManager.GetScenarioById(catalogue, scenarioId) == Some(r.value.scenario)
      && r.value.scenario.questions.Some?
      && CurrentQuestion(r.value.scenario.questions.value, Keys(responses)).Ok?
    ensures r.Ok? && r.value.AllAnswered? ==>
      CurrentQuestion(r.value.scenario.questions.value, Keys(responses)) == Ok(None)
    ensures r.Ok? && r.value.AtQuestion? ==>
      && r.value.scenario.questions == Some(r.value.questions)
      && CurrentQuestion(r.value.questions, Keys(responses)) == Ok(Some(r.value.current))
    ensures r.Err? && ScenarioManager.GetScenarioById(catalogue, scenarioId).Some? ==>
      var sc := ScenarioManager.GetScenarioById(catalogue, scenarioId).value;
      if sc.questions.None? then r.message == "'questions'"
      else CurrentQuestion(sc.questions.value, Keys(responses)) == Err(r.message)
  {
    match ScenarioManager.GetScenarioById(catalogue, scenarioId)
    case None => Err(NotSubscriptable)
    case Some(sc) =>
      match sc.questions
      case None => Err("'questions'")
      case Some(questions) =>
        match CurrentQuestion(questions, Keys(responses))
        case Err(m) => Err(m)
        case Ok(None) => Ok(AllAnswered(sc))
        case Ok(Some(current)) => Ok(AtQuestion(sc, questions, current))
  }

  /**
   * `process_response`: an unknown session is an error that writes nothing; a known one is
   * resumed. Whatever happens, only the session's own records are written.
   */
  function ProcessResponse(catalogue: seq<Scenario>, st: Store, sid: SessionId, response: string, turn: Turn, grader: Grader)
    : (r: (Store, Reply))
    ensures r.1.Failure? || r.1.Ongoing? || r.1.Completed?
    ensures GetSession(st, sid).None? ==> r == (st, Failure("Session " + NatToString(sid) + " not found"))
    ensures |r.0| >= |st| && r.0[..|st|] == st
    ensures forall i :: |st| <= i < |r.0| ==> About(r.0[i], sid)
    ensures r.1.Ongoing? || r.1.Completed? ==> r.1.sessionId == sid
    ensures r.1.Ongoing? ==> Values(Responses(r.0, sid)) == Values(Responses(st, sid)) + [response]
  {
    match GetSession(st, sid)
    case None => (st, Failure("Session " + NatToString(sid) + " not found"))
    case Some(record) =>
      var r := Resume(catalogue, st, sid, response, turn, grader);
      var position := Locate(catalogue, record.scenarioId, Responses(st, sid));
      if position.Ok? && position.value.AtQuestion? then
        ValuesSnoc(Responses(st, sid), (position.value.current.id, response));
        r
      else r
  }

  /**
   * The turn on a stored session: a scenario or current question that cannot be found fails
   * without writing; with every question answered the interview is completed without running
   * the engine; otherwise the engine runs and the answer is stored under the current question,
   * whatever the engine did with it.
   */
  function Resume(catalogue: seq<Scenario>, st: Store, sid: SessionId, response: string, turn: Turn, grader: Grader)
    : (r: (Store, Reply))
    requires GetSession(st, sid).Some?
    ensures r.1.Failure? || r.1.Ongoing? || r.1.Completed?
    ensures |r.0| >= |st| && r.0[..|st|] == st
    ensures forall i :: |st| <= i < |r.0| ==> About(r.0[i], sid)
    ensures r.1.Ongoing? || r.1.Completed? ==> r.1.sessionId == sid
    ensures r.1.Ongoing? ==>
      var position := Locate(catalogue, GetSession(st, sid).value.scenarioId, Responses(st, sid));
      position.Ok? && position.value.AtQuestion?
    ensures
      var responses := Responses(st, sid);
      match Locate(catalogue, GetSession(st, sid).value.scenarioId, responses)
      case Err(m) => r == (st, Failure(ProcessFailed + m))
      case Ok(AllAnswered(sc)) => r == CompleteInterview(st, sid, sc, responses, grader)
      case Ok(AtQuestion(sc, questions, current)) =>
        Responses(r.0, sid) == responses + [(current.id, response)]
  {
    Dispatch(st, sid, Locate(catalogue, GetSession(st, sid).value.scenarioId, Responses(st, sid)),
             Responses(st, sid), response, turn, grader)
  }

  /** `Resume` once the session has been located. */
  function Dispatch(
    st: Store, sid: SessionId, position: Result<Position>, responses: Dict<string, string>,
    response: string, turn: Turn, grader: Grader): (r: (Store, Reply))
    requires GetSession(st, sid).Some? && responses == Responses(st, sid)
    requires position.Ok? && position.value.AtQuestion? ==>
      position.value.scenario.questions == Some(position.value.questions)
    ensures r.1.Failure? || r.1.Ongoing? || r.1.Completed?
    ensures |r.0| >= |st| && r.0[..|st|] == st
    ensures forall i :: |st| <= i < |r.0| ==> About(r.0[i], sid)
    ensures r.1.Ongoing? || r.1.Completed? ==> r.1.sessionId == sid
    ensures r.1.Ongoing? ==> position.Ok? && position.value.AtQuestion?
    ensures
      match position
      case Err(m) => r == (st, Failure(ProcessFailed + m))
      case Ok(AllAnswered(sc)) => r == CompleteInterview(st, sid, sc, responses, grader)
      case Ok(AtQuestion(sc, questions, current)) =>
        Responses(r.0, sid) == responses + [(current.id, response)]
  {
    match position
    case Err(m) => (st, Failure(ProcessFailed + m))
    case Ok(AllAnswered(sc)) => CompleteInterview(st, sid, sc, responses, grader)
    case Ok(AtQuestion(sc, questions, current)) =>
      AnswerCurrent(st, sid, sc, questions, responses, current, response, turn, grader)
  }

  /** The part of `process_response` that runs the engine on the current question and stores the answer. */
  function AnswerCurrent(
    st: Store, sid: SessionId, sc: Scenario, questions: seq<Question>, responses: Dict<string, string>,
    current: Question, response: string, turn: Turn, grader: Grader): (r: (Store, Reply))
    requires sc.questions == Some(questions)
    requires GetSession(st, sid).Some? && responses == Responses(st, sid)
    ensures r.1.Failure? || r.1.Ongoing? || r.1.Completed?
    ensures |r.0| >= |st| && r.0[..|st|] == st
    ensures forall i :: |st| <= i < |r.0| ==> About(r.0[i], sid)
    ensures Responses(r.0, sid) == responses + [(current.id, response)]
    ensures r.1.Ongoing? || r.1.Completed? ==> r.1.sessionId == sid
  {
    var updated := Engine.ProcessResponse(EngineSession(sc, responses, current), response,
                                          turn.clarification, turn.analysis, turn.selection);
    StoreThenDecide(st, sid, sc, questions, responses, current, response, updated, grader)
  }

  /** The answer stored, then `Decide` on the engine's updated session. */
  function StoreThenDecide(
    st: Store, sid: SessionId, sc: Scenario, questions: seq<Question>, responses: Dict<string, string>,
    current: Question, response: string, updated: Engine.Session, grader: Grader): (r: (Store, Reply))
    requires GetSession(st, sid).Some? && responses == Responses(st, sid)
    ensures r.1.Failure? || r.1.Ongoing? || r.1.Completed?
    ensures |r.0| >= |st| && r.0[..|st|] == st
    ensures forall i :: |st| <= i < |r.0| ==> About(r.0[i], sid)
    ensures Responses(r.0, sid) == responses + [(current.id, response)]
    ensures r.1.Ongoing? || r.1.Completed? ==> r.1.sessionId == sid
  {
    var stored := StoreResponse(st, sid, current.id, response);
    var r := Decide(stored, sid, sc, questions, responses + [(current.id, response)], updated, grader);
    assert |stored| == |st| + 1 && r.0[..|stored|] == stored;
    AnswerThenCompletion(st, r.0, sid, current.id, response);
    r
  }

  /**
   * What `process_response` does once the engine returned and the answer is stored: complete the
   * interview when the engine says so or when it has asked as many questions as the scenario lists,
   * and report the engine's session otherwise. The scenario block is read before the count is
   * checked, so a scenario without a title or description fails the turn after the answer is stored.
   */
  function Decide(
    stored: Store, sid: SessionId, sc: Scenario, questions: seq<Question>, answered: Dict<string, string>,
    updated: Engine.Session, grader: Grader): (r: (Store, Reply))
    ensures r.1.Failure? || r.1.Ongoing? || r.1.Completed?
    ensures |r.0| >= |stored| && r.0[..|stored|] == stored
    ensures forall i :: |stored| <= i < |r.0| ==> About(r.0[i], sid) && !r.0[i].ResponseStored?
    ensures r.1.Ongoing? || r.1.Completed? ==> r.1.sessionId == sid
    ensures updated.interviewComplete || (InfoOf(sc).Ok? && |updated.questionsAsked| >= |questions|) ==>
      r == CompleteInterview(stored, sid, sc, answered, grader)
    ensures !updated.interviewComplete && InfoOf(sc).Err? ==> r == (stored, Failure(ProcessFailed + InfoOf(sc).message))
    ensures r.1.Ongoing? ==>
      && r.0 == stored
      && !updated.interviewComplete && InfoOf(sc).Ok? && |updated.questionsAsked| < |questions|
      && r.1 == Ongoing(sid, InfoOf(sc).value, updated.currentQuestion, updated.awaitingClarification,
                        ToRoleMessages(updated.history))
  {
    if updated.interviewComplete then CompleteInterview(stored, sid, sc, answered, grader)
    else
      match InfoOf(sc)
      case Err(m) => (stored, Failure(ProcessFailed + m))
      case Ok(info) =>
        if |updated.questionsAsked| >= |questions| then CompleteInterview(stored, sid, sc, answered, grader)
        else (stored, Ongoing(sid, info, updated.currentQuestion, updated.awaitingClarification,
                              ToRoleMessages(updated.history)))
  }

  /** An answer stored and then only other records of the session: the answer is the last one stored. */
  lemma AnswerThenCompletion(st: Store, after: Store, sid: SessionId, questionId: string, text: string)
    requires GetSession(st, sid).Some?
    requires |after| > |st| && after[..|st| + 1] == StoreResponse(st, sid, questionId, text)
    requires forall i :: |st| + 1 <= i < |after| ==> About(after[i], sid) && !after[i].ResponseStored?
    ensures |after| >= |st| && after[..|st|] == st
    ensures forall i :: |st| <= i < |after| ==> About(after[i], sid)
    ensures Responses(after, sid) == Responses(st, sid) + [(questionId, text)]
  {
    var stored := StoreResponse(st, sid, questionId, text);
    CompletionKeepsResponses(stored, sid, after);
    assert after[..|st|] == after[..|stored|][..|st|];
    assert after[|st|] == stored[|st|];
  }

  /** Writes that store no answer leave a session's stored answers as they were. */
  lemma CompletionKeepsResponses(st: Store, sid: SessionId, after: Store)
    requires sid < |st| && |after| >= |st| && after[..|st|] == st
    requires forall i :: |st| <= i < |after| ==> !after[i].ResponseStored?
    ensures Responses(after, sid) == Responses(st, sid)
  {
    var ws := after[|st|..];
    assert after == st + ws;
    AfterAppend(st, ws, sid);
    NoResponsesIn(After(st, sid), ws, sid);
  }

  lemma {:induction false} NoResponsesIn(prefix: seq<Write>, ws: seq<Write>, sid: SessionId)
    requires forall i :: 0 <= i < |ws| ==> !ws[i].ResponseStored?
    ensures ResponsesIn(prefix + ws, sid) == ResponsesIn(prefix, sid)
    decreases |ws|
  {
    if |ws| > 0 {
      var init := ws[..|ws| - 1];
      assert (prefix + ws)[..|prefix + ws| - 1] == prefix + init;
      NoResponsesIn(prefix, init, sid);
    } else {
      assert prefix + ws == prefix;
    }
  }

  /** The model calls of one whole interview: the random draw of the start, one turn per answer, and the calls that grade the finished interview. */
  datatype Interview = Interview(pick: nat, enginePick: nat, turns: nat -> Turn, grader: Grader)

  /** A handler's `process_response` with the model calls of the `k`-th answer of a run. */
  type Step = (Store, SessionId, string, nat) -> (Store, Reply)

  /**
   * What a run relies on from `process_response`: only the session's own records are written,
   * the reply is an error, the next question or the completion of that session, and a reply
   * with a next question means the answer was stored.
   */
  ghost predicate StepContract(step: Step)
  {
    forall st, sid, response, k :: StepKeeps(step, st, sid, response, k)
  }

  /** The promises of `StepContract` for one call. */
  ghost predicate StepKeeps(step: Step, st: Store, sid: SessionId, response: string, k: nat)
  {
    var r := step(st, sid, response, k);
    && AppendsFor(st, r.0, sid)
    && (r.1.Failure? || r.1.Ongoing? || r.1.Completed?)
    && (r.1.Completed? ==> r.1.sessionId == sid)
    && (r.1.Ongoing? ==> Values(Responses(r.0, sid)) == Values(Responses(st, sid)) + [response])
  }

  /** `process_response` of this handler, with the model calls of an interview. */
  function HandlerStep(catalogue: seq<Scenario>, oracles: Interview): (step: Step)
  {
    (st: Store, sid: SessionId, response: string, k: nat) => ProcessResponse(catalogue, st, sid, response, oracles.turns(k), oracles.grader)
  }

  lemma HandlerStepContract(catalogue: seq<Scenario>, oracles: Interview)
    ensures StepContract(HandlerStep(catalogue, oracles))
  {
    forall st: Store, sid: SessionId, response: string, k: nat
      ensures StepKeeps(HandlerStep(catalogue, oracles), st, sid, response, k)
    {
      var r := ProcessResponse(catalogue, st, sid, response, oracles.turns(k), oracles.grader);
      assert HandlerStep(catalogue, oracles)(st, sid, response, k) == r;
    }
  }

  /**
   * `run_single_interview`: start a session for the scenario, then answer with the given
   * responses in order until a reply is an error or a completion; a run that uses every
   * response without either is reported incomplete.
   */
  function RunSingleInterview(
    catalogue: seq<Scenario>, st: Store, scenarioId: string, responses: seq<string>, metadata: Option<Metadata>,
    pick: nat, begin: string -> Result<FirstTurn>, step: Step): (r: (Store, Reply))
    requires StepContract(step)
    ensures r.1.Failure? || r.1.Completed? || r.1.Incomplete?
    ensures |r.0| >= |st| && r.0[..|st|] == st
    ensures forall i :: |st| < i < |r.0| ==> About(r.0[i], |st|)
    ensures r.1.Completed? || r.1.Incomplete? ==>
      && r.1.sessionId == |st| && |r.0| > |st| && r.0[|st|].SessionCreated? && r.0[|st|].metadata == metadata
      && (scenarioId != "" ==> r.0[|st|].scenarioId == scenarioId)
    ensures r.1.Incomplete? ==> Values(Responses(r.0, |st|)) == responses
  {
    var (started, reply) := StartInterviewSession(catalogue, st, Some(scenarioId), metadata, pick, begin);
    if reply.Failure? then (started, reply)
    else
      var r := Feed(step, started, |st|, responses, 0);
      AfterCreation(st, started[|st|], r.0);
      assert responses[0..] == responses;
      r
  }

  /** A session created at the end of `st` and then written about only by itself. */
  lemma AfterCreation(st: Store, created: Write, after: Store)
    requires created.SessionCreated? && AppendsFor(st + [created], after, |st|)
    ensures |after| > |st| && after[..|st|] == st && after[|st|] == created
    ensures forall i :: |st| < i < |after| ==> About(after[i], |st|)
    ensures Responses(st + [created], |st|) == []
  {
    assert after[..|st|] == after[..|st| + 1][..|st|];
    assert After(st + [created], |st|) == [];
  }

  /** The answers from the `k`-th on, each given to `process_response` until one ends the run. */
  function Feed(step: Step, st: Store, sid: SessionId, responses: seq<string>, k: nat): (r: (Store, Reply))
    requires StepContract(step) && k <= |responses|
    ensures r.1.Failure? || r.1.Completed? || r.1 == Incomplete(sid)
    ensures r.1.Completed? ==> r.1.sessionId == sid
    ensures AppendsFor(st, r.0, sid)
    ensures r.1.Incomplete? ==> Values(Responses(r.0, sid)) == Values(Responses(st, sid)) + responses[k..]
    decreases |responses| - k
  {
    if k == |responses| then
      assert st[..|st|] == st && responses[k..] == [];
      (st, Incomplete(sid))
    else
      assert StepKeeps(step, st, sid, responses[k], k);
      var (next, reply) := step(st, sid, responses[k], k);
      if reply.Failure? || reply.Completed? then (next, reply)
      else
        var r := Feed(step, next, sid, responses, k + 1);
        AppendsForTrans(st, next, r.0, sid);
        if r.1.Incomplete? then
          AnswersAccumulate(Values(Responses(st, sid)), Values(Responses(next, sid)), Values(Responses(r.0, sid)), responses, k);
          r
        else r
  }

  lemma AnswersAccumulate(before: seq<string>, middle: seq<string>, after: seq<string>, responses: seq<string>, k: nat)
    requires k < |responses|
    requires middle == before + [responses[k]] && after == middle + responses[k + 1..]
    ensures after == before + responses[k..]
  {
    assert responses[k..] == [responses[k]] + responses[k + 1..];
  }

  /** One run of a batch: the store after it and its reply, for a scenario id, answers, metadata and position. */
  type Run = (Store, string, seq<string>, Option<Metadata>, nat) -> (Store, Reply)

  /** What a batch relies on from a run: it only adds to the store, and a reply naming a session names the one it created first. */
  ghost predicate RunContract(run: Run)
  {
    forall st, scenarioId, responses, metadata, k :: RunKeeps(run, st, scenarioId, responses, metadata, k)
  }

  /** The promises of `RunContract` for one run. */
  ghost predicate RunKeeps(run: Run, st: Store, scenarioId: string, responses: seq<string>, metadata: Option<Metadata>, k: nat)
  {
    var r := run(st, scenarioId, responses, metadata, k);
    && |r.0| >= |st|
    && (r.1.Failure? || r.1.Completed? || r.1.Incomplete?)
    && (!r.1.Failure? ==> r.1.sessionId == |st| < |r.0|)
  }

  /** `run_single_interview` of this handler, the `k`-th interview of a batch using the `k`-th oracles. */
  function HandlerRun(catalogue: seq<Scenario>, oracles: nat -> Interview): (run: Run)
  {
    (st: Store, scenarioId: string, responses: seq<string>, metadata: Option<Metadata>, k: nat) =>
      HandlerStepContract(catalogue, oracles(k));
      RunSingleInterview(catalogue, st, scenarioId, responses, metadata, oracles(k).pick,
                         EngineStart(catalogue, oracles(k).enginePick), HandlerStep(catalogue, oracles(k)))
  }

  lemma HandlerRunContract(catalogue: seq<Scenario>, oracles: nat -> Interview)
    ensures RunContract(HandlerRun(catalogue, oracles))
  {
    forall st: Store, scenarioId: string, responses: seq<string>, metadata: Option<Metadata>, k: nat
      ensures RunKeeps(HandlerRun(catalogue, oracles), st, scenarioId, responses, metadata, k)
    {
      HandlerStepContract(catalogue, oracles(k));
      var r := RunSingleInterview(catalogue, st, scenarioId, responses, metadata, oracles(k).pick,
                                  EngineStart(catalogue, oracles(k).enginePick), HandlerStep(catalogue, oracles(k)));
      assert HandlerRun(catalogue, oracles)(st, scenarioId, responses, metadata, k) == r;
    }
  }

  /**
   * `run_batch_interviews`: without metadata every interview gets `None`; lists of different
   * lengths give a single error; otherwise one run per scenario, in order.
   */
  function RunBatch(
    st: Store, scenarioIds: seq<string>, responsesList: seq<seq<string>>,
    metadataList: Option<seq<Option<Metadata>>>, run: Run): (r: (Store, seq<Reply>))
    requires RunContract(run)
    ensures var metadata := metadataList.GetOr(seq(|scenarioIds|, _ => None));
      if |scenarioIds| != |responsesList| || |scenarioIds| != |metadata| then r == (st, [Failure(LengthMismatch)])
      else
        && |r.1| == |scenarioIds|
        && (forall i :: 0 <= i < |r.1| ==> r.1[i].Failure? || r.1[i].Completed? || r.1[i].Incomplete?)
        && SessionsWithin(r.1, |st|, |r.0|) && SessionsIncrease(r.1)
  {
    var metadata := metadataList.GetOr(seq(|scenarioIds|, _ => None));
    if |scenarioIds| != |responsesList| || |scenarioIds| != |metadata| then (st, [Failure(LengthMismatch)])
    else RunAll(st, scenarioIds, responsesList, metadata, 0, run)
  }

  /** Every reply that names a session names one in `[lo, hi)`. */
  predicate SessionsWithin(replies: seq<Reply>, lo: nat, hi: nat)
  {
    forall i :: 0 <= i < |replies| && !replies[i].Failure? ==> lo <= replies[i].sessionId < hi
  }

  /** Replies that name sessions name them in increasing order, so no two name the same one. */
  predicate SessionsIncrease(replies: seq<Reply>)
  {
    forall i, j :: 0 <= i < j < |replies| && !replies[i].Failure? && !replies[j].Failure? ==>
      replies[i].sessionId < replies[j].sessionId
  }

  /** The runs of a batch from the `k`-th on; every run gets a session created after the earlier ones. */
  function RunAll(
    st: Store, scenarioIds: seq<string>, responsesList: seq<seq<string>>,
    metadata: seq<Option<Metadata>>, k: nat, run: Run): (r: (Store, seq<Reply>))
    requires RunContract(run)
    requires |responsesList| == |scenarioIds| == |metadata| && k <= |scenarioIds|
    ensures |r.1| == |scenarioIds| - k && |r.0| >= |st|
    ensures forall i :: 0 <= i < |r.1| ==> r.1[i].Failure? || r.1[i].Completed? || r.1[i].Incomplete?
    ensures SessionsWithin(r.1, |st|, |r.0|) && SessionsIncrease(r.1)
    decreases |scenarioIds| - k
  {
    if k == |scenarioIds| then (st, [])
    else
      assert RunKeeps(run, st, scenarioIds[k], responsesList[k], metadata[k], k);
      var first := run(st, scenarioIds[k], responsesList[k], metadata[k], k);
      var rest := RunAll(first.0, scenarioIds, responsesList, metadata, k + 1, run);
      ConsSessions(first.1, rest.1, |st|, |first.0|, |rest.0|);
      (rest.0, [first.1] + rest.1)
  }

  lemma ConsSessions(reply: Reply, rest: seq<Reply>, lo: nat, mid: nat, hi: nat)
    requires !reply.Failure? ==> lo <= reply.sessionId < mid
    requires lo <= mid <= hi && SessionsWithin(rest, mid, hi) && SessionsIncrease(rest)
    ensures SessionsWithin([reply] + rest, lo, hi) && SessionsIncrease([reply] + rest)
  {
    var all := [reply] + rest;
    assert forall i :: 1 <= i < |all| ==> all[i] == rest[i - 1];
  }
}

=== FILE: legacy_engine.dfy ===
/**
 * The earlier, class-based interview engine. It runs the same turn as the fail-open engine but
 * has no fallbacks: a failing model call, a missing key or a `None` where a question is expected
 * raises out of the turn. The session is a dictionary mutated in place, so whatever the turn did
 * before raising stays in it; an outcome therefore carries both the session and the error.
 */
module LegacyEngine {
  import opened Wrappers
  import opened Collections
  import opened Scenarios
  import opened Messages
  import opened QuestionSelection
  import ScenarioManager
  import Engine = ConversationEngine

  /** A session of this engine: the current question becomes `None` when a turn finds none to ask. */
  datatype LegacySession = LegacySession(
    scenario: Scenario,
    currentQuestion: Option<Question>,
    questionsAsked: seq<string>,
    history: seq<Message>,
    evaluation: Dict<string, Engine.EvaluationEntry>,
    awaitingClarification: bool,
    interviewComplete: bool)

  /** A turn's result: the session as the turn left it, and the message of the exception it raised, if any. */
  datatype Outcome = Outcome(session: LegacySession, error: Option<string>)

  /** Building a model message from a missing clarification question. */
  const MissingContent: string := "AIMessage content is not a string"

  /** The same session seen by the fail-open engine (whose current question is never missing). */
  function Lift(s: Engine.Session): (r: LegacySession)
    ensures r.currentQuestion == Some(s.currentQuestion) && r.scenario == s.scenario
    ensures r.questionsAsked == s.questionsAsked && r.history == s.history && r.evaluation == s.evaluation
    ensures r.awaitingClarification == s.awaitingClarification && r.interviewComplete == s.interviewComplete
  {
    LegacySession(s.scenario, Some(s.currentQuestion), s.questionsAsked, s.history, s.evaluation,
                  s.awaitingClarification, s.interviewComplete)
  }

  /**
   * `start_interview`: like the fail-open engine, but a scenario without `questions` raises
   * `KeyError('questions')` and one with an empty list raises `IndexError`.
   */
  function StartInterview(catalogue: seq<Scenario>, scenarioId: Option<string>, pick: nat): (r: Result<LegacySession>)
    ensures |catalogue| == 0 ==> r == Err("No scenarios available to start interview")
    ensures Engine.StartInterview(catalogue, scenarioId, pick).Ok? <==> r.Ok?
    ensures r.Ok? ==> r.value == Lift(Engine.StartInterview(catalogue, scenarioId, pick).value)
  {
    match Engine.ChooseScenario(catalogue, scenarioId, pick)
    case None => Err("No scenarios available to start interview")
    case Some(s) =>
      match s.questions
      case None => Err("'questions'")
      case Some(qs) =>
        if |qs| == 0 then Err("list index out of range")
        else Ok(Lift(Engine.Opening(s, qs[0])))
  }

  /**
   * `_select_next_question`: `None` when nothing is left, the only question left without asking
   * the model; otherwise the scenario's `title` and `description` are read (raising when absent)
   * and the model's answer is matched, a failing call raising.
   */
  function SelectNextQuestion(s: LegacySession, selection: Oracle<string>): (r: Result<Option<Question>>)
    ensures s.scenario.questions.None? ==> r == Err("'questions'")
    ensures s.scenario.questions.Some? ==>
      var available := Available(s.scenario.questions.value, s.questionsAsked);
      && (r == Ok(None) <==> |available| == 0)
      && (|available| == 1 ==> r == Ok(Some(available[0])))
      && (r.Ok? && r.value.Some? ==> r.value.value in available)
      && (r.Err? <==> |available| > 1 && (s.scenario.title.None? || s.scenario.description.None? || selection.Raised?))
  {
    match s.scenario.questions
    case None => Err("'questions'")
    case Some(qs) =>
      var available := Available(qs, s.questionsAsked);
      if |available| == 0 then Ok(None)
      else if |available| == 1 then Ok(Some(available[0]))
      else if s.scenario.title.None? then Err("'title'")
      else if s.scenario.description.None? then Err("'description'")
      else match selection
        case Raised(m) => Err(m)
        case Answer(raw) => Ok(Some(MatchAnswer(available, raw)))
  }

  /**
   * `process_response`: the same steps as the fail-open engine, each of which may raise; the
   * outcome holds the session as far as the turn got.
   */
  function ProcessResponse(
    s: LegacySession, response: string,
    clarification: Oracle<Engine.Clarification>, analysis: Oracle<Engine.Analysis>,
    selection: Oracle<string>): (r: Outcome)
    ensures r.session.scenario == s.scenario
    ensures |s.history| < |r.session.history| <= |s.history| + 2
    ensures r.session.history[..|s.history| + 1] == s.history + [Human(response)]
    ensures r.error.Some? ==> |r.session.history| == |s.history| + 1 && r.session.interviewComplete == s.interviewComplete
    ensures r.error.None? ==> |r.session.history| == |s.history| + 2 && r.session.currentQuestion.Some?
    ensures s.currentQuestion.None? ==> r == Outcome(s.(history := s.history + [Human(response)]), Some(NotSubscriptable))
    ensures clarification.Raised? && s.currentQuestion.Some? ==>
      r == Outcome(s.(history := s.history + [Human(response)]), Some(clarification.message))
    ensures r.session.interviewComplete ==>
      s.interviewComplete || (s.scenario.questions.Some? && |s.questionsAsked| >= |s.scenario.questions.value|)
    ensures r.error.None? && !r.session.awaitingClarification ==>
      && clarification.Answer? && analysis.Answer? && s.currentQuestion.Some?
      && Get(r.session.evaluation, s.currentQuestion.value.id)
         == Some(Engine.EvaluationEntry(s.currentQuestion.value.text, response, analysis.value))
  {
    var answered := s.(history := s.history + [Human(response)]);
    match s.currentQuestion
    case None => Outcome(answered, Some(NotSubscriptable))
    case Some(current) =>
      match clarification
      case Raised(m) => Outcome(answered, Some(m))
      case Answer(c) =>
        if c.needsClarification then
          match c.clarificationQuestion
          case None => Outcome(answered, Some(MissingContent))
          case Some(followUp) =>
            Outcome(answered.(history := answered.history + [Ai(followUp)], awaitingClarification := true), None)
        else
          var cleared := answered.(awaitingClarification := false);
          match analysis
          case Raised(m) => Outcome(cleared, Some(m))
          case Answer(a) =>
            var entry := Engine.EvaluationEntry(current.text, response, a);
            GetPut(s.evaluation, current.id, entry, current.id);
            var recorded := cleared.(evaluation := Put(s.evaluation, current.id, entry));
            Advance(recorded, selection)
  }

  /**
   * The end of a turn whose answer was evaluated: close the interview when every listed question
   * was asked, otherwise move to the next question; both may raise.
   */
  function Advance(recorded: LegacySession, selection: Oracle<string>): (r: Outcome)
    requires recorded.currentQuestion.Some?
    ensures r.session.scenario == recorded.scenario && r.session.evaluation == recorded.evaluation
    ensures r.session.awaitingClarification == recorded.awaitingClarification
    ensures r.error.Some? ==> r.session.history == recorded.history && r.session.interviewComplete == recorded.interviewComplete
    ensures r.session.interviewComplete ==>
      recorded.interviewComplete ||
      (recorded.scenario.questions.Some? && |recorded.questionsAsked| >= |recorded.scenario.questions.value|)
    ensures r.error.None? ==>
      && |r.session.history| == |recorded.history| + 1 && r.session.history[..|recorded.history|] == recorded.history
      && r.session.currentQuestion.Some?
  {
    match recorded.scenario.questions
    case None => Outcome(recorded, Some("'questions'"))
    case Some(qs) =>
      if |recorded.questionsAsked| >= |qs| then
        var closed := recorded.history + [Ai(Engine.ClosingMessage)];
        assert closed[..|recorded.history|] == recorded.history;
        Outcome(recorded.(interviewComplete := true, history := closed), None)
      else
        match SelectNextQuestion(recorded, selection)
        case Err(m) => Outcome(recorded, Some(m))
        case Ok(None) => Outcome(recorded.(currentQuestion := None), Some(NotSubscriptable))
        case Ok(Some(q)) =>
          var asked := recorded.history + [Ai(q.text)];
          assert asked[..|recorded.history|] == recorded.history;
          Outcome(recorded.(currentQuestion := Some(q), questionsAsked := recorded.questionsAsked + [q.id],
                            history := asked), None)
  }

  /** Every call the turn makes succeeded and produced something usable. */
  predicate ModelCooperates(
    s: Engine.Session, clarification: Oracle<Engine.Clarification>, analysis: Oracle<Engine.Analysis>,
    selection: Oracle<string>)
  {
    && clarification.Answer? && analysis.Answer?
    && (clarification.value.needsClarification ==> clarification.value.clarificationQuestion.Some?)
    && s.scenario.questions.Some? && s.scenario.title.Some? && s.scenario.description.Some?
    && selection.Answer?
  }

  /**
   * When the model cooperates and a question remains to be asked, both engines take the same
   * turn: the fallbacks of the fail-open engine change nothing on the path that does not fail.
   */
  lemma EnginesAgreeWhenModelCooperates(
    s: Engine.Session, response: string,
    clarification: Oracle<Engine.Clarification>, analysis: Oracle<Engine.Analysis>, selection: Oracle<string>)
    requires ModelCooperates(s, clarification, analysis, selection)
    requires Engine.AllAsked(s) || |Available(s.scenario.questions.value, s.questionsAsked)| > 0
    ensures ProcessResponse(Lift(s), response, clarification, analysis, selection)
      == Outcome(Lift(Engine.ProcessResponse(s, response, clarification, analysis, selection)), None)
  {
    var r := ProcessResponse(Lift(s), response, clarification, analysis, selection);
    var e := Engine.ProcessResponse(s, response, clarification, analysis, selection);
    if !clarification.value.needsClarification {
      var answered := s.(history := s.history + [Human(response)]);
      if !Engine.AllAsked(s) {
        var entry := Engine.EntryFor(s, response, analysis);
        var recorded := Lift(answered).(awaitingClarification := false,
                                        evaluation := Put(s.evaluation, s.currentQuestion.id, entry));
        assert SelectNextQuestion(recorded, selection) == Ok(Engine.SelectNextQuestion(answered, selection));
      }
    }
  }

  /**
   * A scenario listing two questions with the same id: after the first is asked, fewer ids are
   * asked than questions are listed, yet none is available, so the next turn leaves the session
   * without a current question and raises.
   */
  lemma DuplicateIdsStrandTheSession()
    ensures var q := Question("q1", "Explain joins.");
      var sc := EmptyPatch.(id := Some("dup"), questions := Some([q, q]));
      var s := Lift(Engine.Opening(sc, q));
      var r := ProcessResponse(s, "An answer.",
        Answer(Engine.Clarification(false, None, "clear")),
        Answer(Engine.Analysis(7, 7, 7, 7, 7, "fine")), Raised("unused"));
      r.error == Some(NotSubscriptable) && r.session.currentQuestion.None?
  {
    var q := Question("q1", "Explain joins.");
    assert Available([q, q], ["q1"]) == [];
  }
}

=== FILE: legacy_handler.dfy ===
/**
 * The earlier request handler, which drives the class-based engine. It reads a stored session
 * back the same way as the later handler, but runs the engine before storing the answer, so an
 * engine that raises leaves the answer unstored, and it has no count check of its own after the
 * engine returns. Once every question has an answer, it hands back the call that completes the
 * interview without awaiting it: `ProcessResponseAsWritten` models that, `ProcessResponse` the
 * awaited call.
 */
module LegacyHandler {
  import opened Wrappers
  import opened Text
  import opened Collections
  import opened Scenarios
  import opened Messages
  import opened QuestionSelection
  import opened Storage
  import opened Handler
  import LegacyEngine
  import ScenarioManager
  import Engine = ConversationEngine

  /** The error a run reports when a reply turns out to be an un-awaited coroutine. */
  const CoroutineNotIterable: string := "argument of type 'coroutine' is not iterable"

  /** `start_interview` of the class-based engine, for a scenario id. */
  function LegacyStart(catalogue: seq<Scenario>, enginePick: nat): (begin: string -> Result<FirstTurn>)
  {
    id =>
      match LegacyEngine.StartInterview(catalogue, Some(id), enginePick)
      case Err(m) => Err(m)
      case Ok(s) => Ok(FirstTurn(s.currentQuestion.value, s.history))
  }

  /** Both engines open a scenario the same way; only the messages of their errors differ. */
  lemma StartsAgree(catalogue: seq<Scenario>, enginePick: nat, id: string)
    ensures LegacyStart(catalogue, enginePick)(id).Ok? <==> EngineStart(catalogue, enginePick)(id).Ok?
    ensures LegacyStart(catalogue, enginePick)(id).Ok? ==>
      LegacyStart(catalogue, enginePick)(id) == EngineStart(catalogue, enginePick)(id)
  {
  }

  /**
   * What `process_response` hands back: a reply, or the coroutine of `_complete_interview` with
   * the arguments it was called with, which nobody awaited.
   */
  datatype Outcome =
    | Replied(reply: Reply)
    | Pending(sessionId: SessionId, scenario: Scenario, responses: Dict<string, string>)

  /**
   * `process_response` as written: an unknown session, a scenario or current question that cannot
   * be found fail without writing; with every question answered the completion is returned
   * un-awaited, so nothing is written; otherwise the engine runs and the answer is stored.
   */
  function ProcessResponseAsWritten(
    catalogue: seq<Scenario>, st: Store, sid: SessionId, response: string, turn: Turn, grader: Grader)
    : (r: (Store, Outcome))
    ensures GetSession(st, sid).None? ==> r == (st, Replied(Failure("Session " + NatToString(sid) + " not found")))
    ensures r.1.Pending? <==>
      && GetSession(st, sid).Some?
      && var position := Locate(catalogue, GetSession(st, sid).value.scenarioId, Responses(st, sid));
         position.Ok? && position.value.AllAnswered?
    ensures r.1.Pending? ==>
      && r.0 == st && r.1.sessionId == sid && r.1.responses == Responses(st, sid)
      && Locate(catalogue, GetSession(st, sid).value.scenarioId, Responses(st, sid)) == Ok(AllAnswered(r.1.scenario))
    ensures r.1.Replied? ==>
      && (r.1.reply.Failure? || r.1.reply.Ongoing? || r.1.reply.Completed?)
      && AppendsFor(st, r.0, sid)
      && (r.1.reply.Ongoing? || r.1.reply.Completed? ==> r.1.reply.sessionId == sid)
      && (r.1.reply.Ongoing? ==> Values(Responses(r.0, sid)) == Values(Responses(st, sid)) + [response])
  {
    match GetSession(st, sid)
    case None => (st, Replied(Failure("Session " + NatToString(sid) + " not found")))
    case Some(record) =>
      var responses := Responses(st, sid);
      match Locate(catalogue, record.scenarioId, responses)
      case Err(m) =>
        assert st[..|st|] == st;
        (st, Replied(Failure(ProcessFailed + m)))
      case Ok(AllAnswered(sc)) => (st, Pending(sid, sc, responses))
      case Ok(AtQuestion(sc, questions, current)) =>
        var (after, reply) := AnswerQuestion(st, sid, sc, responses, current, response, turn, grader);
        if reply.Ongoing? then ValuesSnoc(responses, (current.id, response)); (after, Replied(reply))
        else (after, Replied(reply))
  }

  /** The engine's turn on the session the handler rebuilt, with the model calls of the answer. */
  function EngineTurn(sc: Scenario, responses: Dict<string, string>, current: Question, response: string, turn: Turn)
    : (o: LegacyEngine.Outcome)
    ensures o.error.None? ==> o.session.currentQuestion.Some?
    ensures o.session.interviewComplete ==> sc.questions.Some? && |responses| >= |sc.questions.value|
  {
    LegacyEngine.ProcessResponse(LegacyEngine.Lift(EngineSession(sc, responses, current)), response,
                                 turn.clarification, turn.analysis, turn.selection)
  }

  /**
   * The part of `process_response` that answers the current question: the engine runs first, and
   * an exception from it fails the turn with nothing written; then the answer is stored, and the
   * interview completed if the engine says so.
   */
  function AnswerQuestion(
    st: Store, sid: SessionId, sc: Scenario, responses: Dict<string, string>, current: Question,
    response: string, turn: Turn, grader: Grader): (r: (Store, Reply))
    requires GetSession(st, sid).Some? && responses == Responses(st, sid)
    ensures r.1.Failure? || r.1.Ongoing? || r.1.Completed?
    ensures AppendsFor(st, r.0, sid)
    ensures r.1.Ongoing? || r.1.Completed? ==> r.1.sessionId == sid
    ensures EngineTurn(sc, responses, current, response, turn).error.Some? ==>
      r == (st, Failure(ProcessFailed + EngineTurn(sc, responses, current, response, turn).error.value))
    ensures EngineTurn(sc, responses, current, response, turn).error.None? ==>
      Responses(r.0, sid) == responses + [(current.id, response)]
  {
    var outcome := EngineTurn(sc, responses, current, response, turn);
    match outcome.error
    case Some(m) =>
      assert st[..|st|] == st;
      (st, Failure(ProcessFailed + m))
    case None => StoreThenSettle(st, sid, sc, responses, current, response, outcome.session, grader)
  }

  /** The answer stored, then `Settle` on the engine's updated session. */
  function StoreThenSettle(
    st: Store, sid: SessionId, sc: Scenario, responses: Dict<string, string>, current: Question,
    response: string, updated: LegacyEngine.LegacySession, grader: Grader): (r: (Store, Reply))
    requires GetSession(st, sid).Some? && responses == Responses(st, sid)
    requires updated.currentQuestion.Some?
    ensures r.1.Failure? || r.1.Ongoing? || r.1.Completed?
    ensures AppendsFor(st, r.0, sid)
    ensures r.1.Ongoing? || r.1.Completed? ==> r.1.sessionId == sid
    ensures Responses(r.0, sid) == responses + [(current.id, response)]
  {
    var stored := StoreResponse(st, sid, current.id, response);
    var r := Settle(stored, sid, sc, responses + [(current.id, response)], updated, grader);
    assert |stored| == |st| + 1 && r.0[..|stored|] == stored;
    AnswerThenCompletion(st, r.0, sid, current.id, response);
    r
  }

  /** After the answer is stored: complete the interview when the engine closed it, report the engine's session otherwise. */
  function Settle(
    stored: Store, sid: SessionId, sc: Scenario, answered: Dict<string, string>,
    updated: LegacyEngine.LegacySession, grader: Grader): (r: (Store, Reply))
    requires updated.currentQuestion.Some?
    ensures r.1.Failure? || r.1.Ongoing? || r.1.Completed?
    ensures |r.0| >= |stored| && r.0[..|stored|] == stored
    ensures forall i :: |stored| <= i < |r.0| ==> About(r.0[i], sid) && !r.0[i].ResponseStored?
    ensures r.1.Ongoing? || r.1.Completed? ==> r.1.sessionId == sid
    ensures updated.interviewComplete ==> r == CompleteInterview(stored, sid, sc, answered, grader)
    ensures !updated.interviewComplete ==>
      r == (stored, match InfoOf(sc)
                    case Err(m) => Failure(ProcessFailed + m)
                    case Ok(info) => Ongoing(sid, info, updated.currentQuestion.value, updated.awaitingClarification,
                                             ToRoleMessages(updated.history)))
  {
    if updated.interviewComplete then CompleteInterview(stored, sid, sc, answered, grader)
    else
      assert stored[..|stored|] == stored;
      match InfoOf(sc)
      case Err(m) => (stored, Failure(ProcessFailed + m))
      case Ok(info) =>
        (stored, Ongoing(sid, info, updated.currentQuestion.value, updated.awaitingClarification,
                         ToRoleMessages(updated.history)))
  }

  /**
   * `process_response` with the completion awaited: it differs from the code as written only
   * when every question has an answer, where the interview is now completed and the session
   * marked completed, or errored when completing fails.
   */
  function ProcessResponse(
    catalogue: seq<Scenario>, st: Store, sid: SessionId, response: string, turn: Turn, grader: Grader)
    : (r: (Store, Reply))
    ensures r.1.Failure? || r.1.Ongoing? || r.1.Completed?
    ensures GetSession(st, sid).None? ==> r == (st, Failure("Session " + NatToString(sid) + " not found"))
    ensures AppendsFor(st, r.0, sid)
    ensures r.1.Ongoing? || r.1.Completed? ==> r.1.sessionId == sid
    ensures r.1.Ongoing? ==> Values(Responses(r.0, sid)) == Values(Responses(st, sid)) + [response]
  {
    Await(st, sid, response, ProcessResponseAsWritten(catalogue, st, sid, response, turn, grader), grader)
  }

  /** The reply of `process_response`, with a returned completion awaited. */
  function Await(st: Store, sid: SessionId, response: string, written: (Store, Outcome), grader: Grader)
    : (r: (Store, Reply))
    requires written.1.Pending? ==> written.0 == st && written.1.sessionId == sid
    requires written.1.Replied? ==>
      && (written.1.reply.Failure? || written.1.reply.Ongoing? || written.1.reply.Completed?)
      && AppendsFor(st, written.0, sid)
      && (written.1.reply.Ongoing? || written.1.reply.Completed? ==> written.1.reply.sessionId == sid)
      && (written.1.reply.Ongoing? ==> Values(Responses(written.0, sid)) == Values(Responses(st, sid)) + [response])
    ensures r.1.Failure? || r.1.Ongoing? || r.1.Completed?
    ensures written.1.Replied? ==> r == (written.0, written.1.reply)
    ensures AppendsFor(st, r.0, sid)
    ensures r.1.Ongoing? || r.1.Completed? ==> r.1.sessionId == sid
    ensures r.1.Ongoing? ==> Values(Responses(r.0, sid)) == Values(Responses(st, sid)) + [response]
  {
    match written.1
    case Replied(reply) => (written.0, reply)
    case Pending(id, sc, responses) =>
      CompletionAppends(st, id, sc, responses, grader);
      CompleteInterview(st, id, sc, responses, grader)
  }

  /** Completing an interview only appends writes about its session. */
  lemma CompletionAppends(st: Store, sid: SessionId, sc: Scenario, responses: Dict<string, string>, grader: Grader)
    ensures AppendsFor(st, CompleteInterview(st, sid, sc, responses, grader).0, sid)
  {
    var after := CompleteInterview(st, sid, sc, responses, grader).0;
    assert after[..|st|] == after[..|st| + 1][..|st|];
  }

  /**
   * With every question answered, the awaited version completes the interview on the stored
   * answers, which moves the session to "completed", or to "error" when completing fails.
   */
  lemma AwaitedCompletion(
    catalogue: seq<Scenario>, st: Store, sid: SessionId, response: string, turn: Turn, grader: Grader)
    requires GetSession(st, sid).Some?
    requires var position := Locate(catalogue, GetSession(st, sid).value.scenarioId, Responses(st, sid));
      position.Ok? && position.value.AllAnswered?
    ensures var r := ProcessResponse(catalogue, st, sid, response, turn, grader);
      var sc := Locate(catalogue, GetSession(st, sid).value.scenarioId, Responses(st, sid)).value.scenario;
      && r == CompleteInterview(st, sid, sc, Responses(st, sid), grader)
      && GetSession(r.0, sid).Some? && GetSession(r.0, sid).value.status in {"completed", "error"}
  {
    var written := ProcessResponseAsWritten(catalogue, st, sid, response, turn, grader);
    assert written.1.Pending?;
  }

  /** The awaited version changes nothing but the reply to a session whose questions are all answered. */
  lemma CorrectionOnlyAwaits(
    catalogue: seq<Scenario>, st: Store, sid: SessionId, response: string, turn: Turn, grader: Grader)
    ensures var written := ProcessResponseAsWritten(catalogue, st, sid, response, turn, grader);
      written.1.Replied? ==>
        ProcessResponse(catalogue, st, sid, response, turn, grader) == (written.0, written.1.reply)
  {
  }

  /** `process_response` as written, as a run sees it: the un-awaited coroutine makes the run fail. */
  function StepAsWritten(catalogue: seq<Scenario>, oracles: Interview): (step: Handler.Step)
  {
    (st: Store, sid: SessionId, response: string, k: nat) =>
      var (after, outcome) := ProcessResponseAsWritten(catalogue, st, sid, response, oracles.turns(k), oracles.grader);
      match outcome
      case Replied(reply) => (after, reply)
      case Pending(_, _, _) => (after, Failure(RunFailed + CoroutineNotIterable))
  }

  /** `process_response` with the completion awaited, with the model calls of an interview. */
  function LegacyStep(catalogue: seq<Scenario>, oracles: Interview): (step: Handler.Step)
  {
    (st: Store, sid: SessionId, response: string, k: nat) =>
      ProcessResponse(catalogue, st, sid, response, oracles.turns(k), oracles.grader)
  }

  lemma StepContracts(catalogue: seq<Scenario>, oracles: Interview)
    ensures StepContract(StepAsWritten(catalogue, oracles)) && StepContract(LegacyStep(catalogue, oracles))
  {
    forall st: Store, sid: SessionId, response: string, k: nat
      ensures StepKeeps(StepAsWritten(catalogue, oracles), st, sid, response, k)
      ensures StepKeeps(LegacyStep(catalogue, oracles), st, sid, response, k)
    {
      var written := ProcessResponseAsWritten(catalogue, st, sid, response, oracles.turns(k), oracles.grader);
      var awaited := ProcessResponse(catalogue, st, sid, response, oracles.turns(k), oracles.grader);
      assert LegacyStep(catalogue, oracles)(st, sid, response, k) == awaited;
      if written.1.Pending? {
        assert st[..|st|] == st;
        assert StepAsWritten(catalogue, oracles)(st, sid, response, k) == (st, Failure(RunFailed + CoroutineNotIterable));
      } else {
        assert StepAsWritten(catalogue, oracles)(st, sid, response, k) == (written.0, written.1.reply);
      }
    }
  }

  /**
   * Reaching a session whose questions are all answered ends the run as written with a failure,
   * writes nothing and leaves the session "started" or wherever it was; the awaited version
   * always moves the session to "completed" or "error".
   */
  lemma UnawaitedCompletionFailsTheRun(
    catalogue: seq<Scenario>, st: Store, sid: SessionId, response: string, k: nat, oracles: Interview)
    requires GetSession(st, sid).Some?
    requires var position := Locate(catalogue, GetSession(st, sid).value.scenarioId, Responses(st, sid));
      position.Ok? && position.value.AllAnswered?
    ensures StepAsWritten(catalogue, oracles)(st, sid, response, k) == (st, Failure(RunFailed + CoroutineNotIterable))
    ensures var r := LegacyStep(catalogue, oracles)(st, sid, response, k);
      GetSession(r.0, sid).Some? && GetSession(r.0, sid).value.status in {"completed", "error"}
  {
    var r := ProcessResponseAsWritten(catalogue, st, sid, response, oracles.turns(k), oracles.grader);
    assert r.1.Pending?;
  }

  /** `run_single_interview` as written, the `k`-th of a batch. */
  function RunAsWritten(catalogue: seq<Scenario>, oracles: nat -> Interview): (run: Handler.Run)
  {
    (st: Store, scenarioId: string, responses: seq<string>, metadata: Option<Metadata>, k: nat) =>
      StepContracts(catalogue, oracles(k));
      RunSingleInterview(catalogue, st, scenarioId, responses, metadata, oracles(k).pick,
                         LegacyStart(catalogue, oracles(k).enginePick), StepAsWritten(catalogue, oracles(k)))
  }

  /** `run_single_interview` with the completion awaited, the `k`-th of a batch. */
  function LegacyRun(catalogue: seq<Scenario>, oracles: nat -> Interview): (run: Handler.Run)
  {
    (st: Store, scenarioId: string, responses: seq<string>, metadata: Option<Metadata>, k: nat) =>
      StepContracts(catalogue, oracles(k));
      RunSingleInterview(catalogue, st, scenarioId, responses, metadata, oracles(k).pick,
                         LegacyStart(catalogue, oracles(k).enginePick), LegacyStep(catalogue, oracles(k)))
  }

  lemma RunContracts(catalogue: seq<Scenario>, oracles: nat -> Interview)
    ensures RunContract(RunAsWritten(catalogue, oracles)) && RunContract(LegacyRun(catalogue, oracles))
  {
    forall st: Store, scenarioId: string, responses: seq<string>, metadata: Option<Metadata>, k: nat
      ensures RunKeeps(RunAsWritten(catalogue, oracles), st, scenarioId, responses, metadata, k)
      ensures RunKeeps(LegacyRun(catalogue, oracles), st, scenarioId, responses, metadata, k)
    {
      StepContracts(catalogue, oracles(k));
      var begin := LegacyStart(catalogue, oracles(k).enginePick);
      var written := RunSingleInterview(catalogue, st, scenarioId, responses, metadata, oracles(k).pick, begin,
                                        StepAsWritten(catalogue, oracles(k)));
      var awaited := RunSingleInterview(catalogue, st, scenarioId, responses, metadata, oracles(k).pick, begin,
                                        LegacyStep(catalogue, oracles(k)));
      assert RunAsWritten(catalogue, oracles)(st, scenarioId, responses, metadata, k) == written;
      assert LegacyRun(catalogue, oracles)(st, scenarioId, responses, metadata, k) == awaited;
    }
  }

  /**
   * The stored answers of a session this handler drives: each names a question of the scenario,
   * and no question twice.
   */
  predicate AnswersWellFormed(sc: Scenario, responses: Dict<string, string>)
  {
    && sc.questions.Some?
    && Distinct(Keys(responses))
    && forall i :: 0 <= i < |responses| ==> responses[i].0 in Ids(sc.questions.value)
  }

  /**
   * Answering the current question keeps the stored answers well formed, since the current
   * question is one of the scenario's and not yet answered.
   */
  lemma AnswerKeepsAnswersWellFormed(
    catalogue: seq<Scenario>, scenarioId: string, responses: Dict<string, string>, response: string)
    requires var position := Locate(catalogue, scenarioId, responses); position.Ok? && position.value.AtQuestion?
    requires AnswersWellFormed(Locate(catalogue, scenarioId, responses).value.scenario, responses)
    ensures var position := Locate(catalogue, scenarioId, responses);
      AnswersWellFormed(position.value.scenario, responses + [(position.value.current.id, response)])
  {
    var position := Locate(catalogue, scenarioId, responses);
    var current := position.value.current;
    CurrentInScenario(position.value.questions, Keys(responses));
    var keys := Keys(responses + [(current.id, response)]);
    assert keys == Keys(responses) + [current.id];
  }

  /** The current question is one of the scenario's and has no stored answer. */
  lemma CurrentInScenario(questions: seq<Question>, answered: seq<string>)
    requires CurrentQuestion(questions, answered).Ok? && CurrentQuestion(questions, answered).value.Some?
    ensures CurrentQuestion(questions, answered).value.value.id in Ids(questions)
    ensures CurrentQuestion(questions, answered).value.value.id !in answered
  {
    var i :| 0 <= i < |questions| && questions[i] == CurrentQuestion(questions, answered).value.value
      && questions[i].id !in answered;
    assert Ids(questions)[i] == questions[i].id;
  }

  /**
   * The engine never closes an interview for this handler: it closes once as many ids were asked
   * as the scenario lists questions, but the handler passes only the answered ids, which miss the
   * current question. Completion therefore comes only from the branch where every question has an
   * answer.
   */
  lemma EngineNeverCloses(
    catalogue: seq<Scenario>, scenarioId: string, responses: Dict<string, string>, response: string, turn: Turn)
    requires var position := Locate(catalogue, scenarioId, responses); position.Ok? && position.value.AtQuestion?
    requires AnswersWellFormed(Locate(catalogue, scenarioId, responses).value.scenario, responses)
    ensures var position := Locate(catalogue, scenarioId, responses);
      !EngineTurn(position.value.scenario, responses, position.value.current, response, turn).session.interviewComplete
  {
    var position := Locate(catalogue, scenarioId, responses);
    var questions := position.value.questions;
    CurrentInScenario(questions, Keys(responses));
    DistinctWithin(Keys(responses), Ids(questions), position.value.current.id);
  }

  /** A scenario with a single question, and model calls that accept every answer as clear. */
  const SoleQuestion: Question := Question("q1", "Explain joins.")
  const SoleScenario: Scenario :=
    EmptyPatch.(id := Some("sql"), title := Some("SQL"), description := Some("Databases"), questions := Some([SoleQuestion]))
  const ClearAnswers: Interview :=
    Interview(0, 0,
              _ => Turn(Answer(Engine.Clarification(false, None, "clear")), Answer(Engine.Analysis(7, 7, 7, 7, 7, "fine")),
                        Raised("unused")),
              Grader(_ => Raised("unavailable"), (_, _) => Raised("unavailable"), (_, _, _, _) => Raised("unavailable")))

  /** The session store after starting the one-question interview, and after its first answer. */
  const Started: Store := [SessionCreated("sql", None)]
  const FirstStored: Store := Started + [ResponseStored(0, "q1", "a")]

  lemma SoleScenarioStarts()
    ensures var r := StartInterviewSession([SoleScenario], [], Some("sql"), None, 0, LegacyStart([SoleScenario], 0));
      r.0 == Started && r.1.Started?
  {
    assert IndexOfId([SoleScenario], "sql") == Some(0);
    assert LegacyStart([SoleScenario], 0)("sql").Ok?;
  }

  /** The first answer is stored, and the engine asks the same question again. */
  lemma FirstAnswerStored()
    ensures var r := StepAsWritten([SoleScenario], ClearAnswers)(Started, 0, "a", 0);
      r.0 == FirstStored && r.1.Ongoing? && r.1.currentQuestion == SoleQuestion
  {
    assert IndexOfId([SoleScenario], "sql") == Some(0);
    assert Responses(Started, 0) == [];
    assert Locate([SoleScenario], "sql", []) == Ok(AtQuestion(SoleScenario, [SoleQuestion], SoleQuestion));
    assert Available([SoleQuestion], []) == [SoleQuestion];
  }

  /** After the first answer, the session's only question is answered. */
  lemma FirstStoredLocates()
    ensures GetSession(FirstStored, 0).Some? && GetSession(FirstStored, 0).value.scenarioId == "sql"
    ensures Responses(FirstStored, 0) == [("q1", "a")]
    ensures Locate([SoleScenario], "sql", [("q1", "a")]) == Ok(AllAnswered(SoleScenario))
  {
    assert IndexOfId([SoleScenario], "sql") == Some(0);
    assert Keys([("q1", "a")]) == ["q1"];
    assert FirstIndex([SoleQuestion], (q: Question) => NotAsked(["q1"], q)) == None;
    assert CurrentQuestion([SoleQuestion], ["q1"]) == Ok(None);
  }

  /** The second answer finds the only question answered and gets back the un-awaited completion. */
  lemma SecondAnswerFails()
    ensures StepAsWritten([SoleScenario], ClearAnswers)(FirstStored, 0, "b", 1)
      == (FirstStored, Failure(RunFailed + CoroutineNotIterable))
  {
    FirstStoredLocates();
    var written := ProcessResponseAsWritten([SoleScenario], FirstStored, 0, "b", ClearAnswers.turns(1), ClearAnswers.grader);
    assert written == (FirstStored, Pending(0, SoleScenario, [("q1", "a")]));
  }

  /** Awaited, the second answer completes the interview; here the summary call fails, so the session is marked errored. */
  lemma SecondAnswerAwaited()
    ensures LegacyStep([SoleScenario], ClearAnswers)(FirstStored, 0, "b", 1)
      == (FirstStored + [StatusSet(0, "completed"), StatusSet(0, "error")], Failure(CompleteFailed + "unavailable"))
  {
    FirstStoredLocates();
    AwaitedCompletion([SoleScenario], FirstStored, 0, "b", ClearAnswers.turns(1), ClearAnswers.grader);
    assert Values([("q1", "a")]) == ["a"];
  }

  /** Both runs of the one-question interview start it and then feed it the answers. */
  lemma SoleScenarioRuns(responses: seq<string>)
    ensures StepContract(StepAsWritten([SoleScenario], ClearAnswers)) && StepContract(LegacyStep([SoleScenario], ClearAnswers))
    ensures RunAsWritten([SoleScenario], _ => ClearAnswers)([], "sql", responses, None, 0)
      == Feed(StepAsWritten([SoleScenario], ClearAnswers), Started, 0, responses, 0)
    ensures LegacyRun([SoleScenario], _ => ClearAnswers)([], "sql", responses, None, 0)
      == Feed(LegacyStep([SoleScenario], ClearAnswers), Started, 0, responses, 0)
  {
    var catalogue := [SoleScenario];
    var begin := LegacyStart(catalogue, 0);
    StepContracts(catalogue, ClearAnswers);
    SoleScenarioStarts();
    RunOfStarted(catalogue, [], "sql", responses, None, 0, begin, StepAsWritten(catalogue, ClearAnswers));
    RunOfStarted(catalogue, [], "sql", responses, None, 0, begin, LegacyStep(catalogue, ClearAnswers));
  }

  /** A run whose start succeeds is the feeding of its answers to the session it started. */
  lemma RunOfStarted(
    catalogue: seq<Scenario>, st: Store, scenarioId: string, responses: seq<string>, metadata: Option<Metadata>,
    pick: nat, begin: string -> Result<FirstTurn>, step: Handler.Step)
    requires StepContract(step)
    requires StartInterviewSession(catalogue, st, Some(scenarioId), metadata, pick, begin).1.Started?
    ensures RunSingleInterview(catalogue, st, scenarioId, responses, metadata, pick, begin, step)
      == Feed(step, StartInterviewSession(catalogue, st, Some(scenarioId), metadata, pick, begin).0, |st|, responses, 0)
  {
  }

  /** Feeding two answers, the first of which keeps the interview going, ends with the reply to the second. */
  lemma FeedTwoAnswers(step: Handler.Step, st: Store, sid: SessionId, a: string, b: string)
    requires StepContract(step)
    requires step(st, sid, a, 0).1.Ongoing?
    requires var next := step(st, sid, a, 0).0; step(next, sid, b, 1).1.Failure? || step(next, sid, b, 1).1.Completed?
    ensures Feed(step, st, sid, [a, b], 0) == step(step(st, sid, a, 0).0, sid, b, 1)
  {
    assert StepKeeps(step, st, sid, a, 0);
  }

  /**
   * Two answers to a one-question interview: the first is stored and the same question is asked
   * again, since the engine still counts it available; the second finds every question answered
   * and gets back the un-awaited completion, so the run fails and the session stays "started".
   * Awaited, the same run reaches the completion, which marks the session.
   */
  lemma OneQuestionRunFails()
    ensures var r := RunAsWritten([SoleScenario], _ => ClearAnswers)([], "sql", ["a", "b"], None, 0);
      && r == (FirstStored, Failure(RunFailed + CoroutineNotIterable))
      && GetSession(r.0, 0) == Some(SessionRecord("sql", InitialStatus, []))
    ensures var r := LegacyRun([SoleScenario], _ => ClearAnswers)([], "sql", ["a", "b"], None, 0);
      && r == (FirstStored + [StatusSet(0, "completed"), StatusSet(0, "error")], Failure(CompleteFailed + "unavailable"))
      && GetSession(r.0, 0) == Some(SessionRecord("sql", "error", []))
  {
    var catalogue := [SoleScenario];
    var written := StepAsWritten(catalogue, ClearAnswers);
    var awaited := LegacyStep(catalogue, ClearAnswers);
    StepContracts(catalogue, ClearAnswers);
    SoleScenarioRuns(["a", "b"]);
    FirstAnswerStored();
    SecondAnswerFails();
    SecondAnswerAwaited();
    CorrectionOnlyAwaits(catalogue, Started, 0, "a", ClearAnswers.turns(0), ClearAnswers.grader);
    assert awaited(Started, 0, "a", 0) == written(Started, 0, "a", 0);
    FeedTwoAnswers(written, Started, 0, "a", "b");
    FeedTwoAnswers(awaited, Started, 0, "a", "b");
    SessionsAfterRun();
  }

  /** The session's record after the failed run, and after the awaited one. */
  lemma SessionsAfterRun()
    ensures GetSession(FirstStored, 0) == Some(SessionRecord("sql", InitialStatus, []))
    ensures GetSession(FirstStored + [StatusSet(0, "completed"), StatusSet(0, "error")], 0)
      == Some(SessionRecord("sql", "error", []))
  {
    var answered: seq<Write> := [ResponseStored(0, "q1", "a")];
    assert After(FirstStored, 0) == answered;
    assert answered[..0] == [];
    assert LastStatus(answered, 0, InitialStatus) == InitialStatus;
    var closed := FirstStored + [StatusSet(0, "completed"), StatusSet(0, "error")];
    assert After(closed, 0) == answered + [StatusSet(0, "completed"), StatusSet(0, "error")];
  }
}

=== FILE: master_agent.dfy ===
/**
 * The interview master agent: a graph of four nodes over one state record. `initialize_interview`
 * starts an engine session, `process_response` hands the candidate's pending answer to the
 * engine and loops until the interview is complete, `run_evaluation_tools` summarises and checks
 * the transcript, and `generate_final_report` asks the model for the report. The engine's model
 * calls, the tools' calls and the report call are parameters.
 */
module MasterAgent {
  import opened Wrappers
  import opened Text
  import opened Collections
  import opened Scenarios
  import opened Messages
  import opened Tools
  import opened ToolRuns
  import Engine = ConversationEngine

  /**
   * `MasterAgentState`. `currentQuestion` is `None` while it is still the empty dictionary of a
   * fresh state; the scenario of a fresh state has no key at all. `tools_to_run` is only ever
   * set to `[]` and is left out.
   */
  datatype State = State(
    scenario: Scenario,
    currentQuestion: Option<Question>,
    questionsAsked: seq<string>,
    history: seq<Message>,
    candidateResponse: Option<string>,
    awaitingClarification: bool,
    interviewComplete: bool,
    evaluation: Dict<string, Engine.EvaluationEntry>,
    finalSummary: Option<string>,
    grammarEvaluation: Option<string>,
    validationResult: Option<string>,
    finalReport: Option<string>,
    error: Option<string>)

  /** The state `run_interview` starts the graph with. */
  const Fresh: State := State(EmptyPatch, None, [], [], None, false, false, [], None, None, None, None, None)

  const InitFailed: string := "Failed to initialize interview: "
  const ReportFailed: string := "Failed to generate final report: "

  /**
   * `initialize_interview`: the engine's opening session on a random scenario, with every other
   * field reset; when the engine raises, only `error` changes. The log line after the update
   * reads the scenario's `id`, so a scenario without one keeps the update and gains an error.
   */
  function Initialize(st: State, catalogue: seq<Scenario>, pick: nat): (r: State)
    ensures Engine.StartInterview(catalogue, None, pick).Err? ==>
      r == st.(error := Some(InitFailed + Engine.StartInterview(catalogue, None, pick).message))
    ensures |catalogue| == 0 ==> r == st.(error := Some(InitFailed + "No scenarios available to start interview"))
    ensures Engine.StartInterview(catalogue, None, pick).Ok? ==>
      var s := Engine.StartInterview(catalogue, None, pick).value;
      && r.scenario in catalogue && r.scenario == s.scenario
      && r.currentQuestion == Some(s.currentQuestion) && r.history == s.history
      && r.questionsAsked == [s.currentQuestion.id]
      && !r.awaitingClarification && !r.interviewComplete && r.evaluation == []
      && r.finalSummary.None? && r.grammarEvaluation.None? && r.validationResult.None?
      && r.candidateResponse == st.candidateResponse
      && (r.error.None? <==> s.scenario.id.Some?)
  {
    match Engine.StartInterview(catalogue, None, pick)
    case Err(m) => st.(error := Some(InitFailed + m))
    case Ok(s) =>
      var started := st.(scenario := s.scenario, currentQuestion := Some(s.currentQuestion),
                         questionsAsked := s.questionsAsked, history := s.history,
                         awaitingClarification := false, interviewComplete := false, evaluation := [],
                         finalSummary := None, grammarEvaluation := None, validationResult := None,
                         error := None);
      if s.scenario.id.Some? then started else started.(error := Some(InitFailed + "'id'"))
  }

  /** The session dictionary the node hands to the engine. */
  function SessionOf(st: State, q: Question): (s: Engine.Session)
    ensures s.currentQuestion == q && s.history == st.history && s.evaluation == st.evaluation
    ensures !s.interviewComplete
  {
    Engine.Session(st.scenario, q, st.questionsAsked, st.history, st.evaluation, st.awaitingClarification, false)
  }

  /**
   * `process_response`: nothing without a pending answer; otherwise the engine's turn is copied
   * back and the answer is cleared. The session the node builds has no `interview_complete` key,
   * so completion comes from this turn alone. With the empty question of a state that never
   * started, the engine appends the answer and gives up at the analysis, leaving the rest alone.
   */
  function ProcessNode(
    st: State, clarification: Oracle<Engine.Clarification>, analysis: Oracle<Engine.Analysis>, selection: Oracle<string>)
    : (r: State)
    ensures !Truthy(st.candidateResponse) ==> r == st
    ensures Truthy(st.candidateResponse) ==>
      && r.candidateResponse.None?
      && r.scenario == st.scenario && r.error == st.error && r.finalSummary == st.finalSummary
      && |r.history| > |st.history|
      && r.history[..|st.history| + 1] == st.history + [Human(st.candidateResponse.value)]
    ensures Truthy(st.candidateResponse) && st.currentQuestion.None? ==>
      r == st.(history := st.history + [Human(st.candidateResponse.value)],
               awaitingClarification := false, interviewComplete := false, candidateResponse := None)
    ensures Truthy(st.candidateResponse) && st.currentQuestion.Some? ==>
      var turn := Engine.ProcessResponse(SessionOf(st, st.currentQuestion.value), st.candidateResponse.value,
                                         clarification, analysis, selection);
      && r.currentQuestion == Some(turn.currentQuestion) && r.questionsAsked == turn.questionsAsked
      && r.history == turn.history && r.evaluation == turn.evaluation
      && r.awaitingClarification == turn.awaitingClarification && r.interviewComplete == turn.interviewComplete
  {
    if !Truthy(st.candidateResponse) then st
    else
      var response := st.candidateResponse.value;
      match st.currentQuestion
      case None =>
        st.(history := st.history + [Human(response)], awaitingClarification := false,
            interviewComplete := false, candidateResponse := None)
      case Some(q) =>
        var turn := Engine.ProcessResponse(SessionOf(st, q), response, clarification, analysis, selection);
        st.(currentQuestion := Some(turn.currentQuestion), questionsAsked := turn.questionsAsked,
            history := turn.history, evaluation := turn.evaluation,
            awaitingClarification := turn.awaitingClarification, interviewComplete := turn.interviewComplete,
            candidateResponse := None)
  }

  /**
   * `route_after_processing`. `"error"` names no node of the graph, so taking that route ends
   * the run with the graph library's error.
   */
  function RouteAfterProcessing(st: State): (route: string)
    ensures route == "error" <==> Truthy(st.error)
    ensures route == "run_evaluation_tools" <==> !Truthy(st.error) && st.interviewComplete
    ensures route == "process_response" <==> !Truthy(st.error) && !st.interviewComplete
  {
    if Truthy(st.error) then "error"
    else if st.interviewComplete then "run_evaluation_tools"
    else "process_response"
  }

  /**
   * Without a pending answer the processing node changes nothing, so an open interview keeps
   * routing back to it: the graph only moves on once an answer is supplied.
   */
  lemma IdleProcessingIsAFixpoint(
    st: State, clarification: Oracle<Engine.Clarification>, analysis: Oracle<Engine.Analysis>, selection: Oracle<string>)
    requires !Truthy(st.candidateResponse) && !Truthy(st.error) && !st.interviewComplete
    ensures ProcessNode(st, clarification, analysis, selection) == st
    ensures RouteAfterProcessing(ProcessNode(st, clarification, analysis, selection)) == "process_response"
  {
  }

  /**
   * An answer the model wants clarified keeps the interview open whatever the state said before:
   * the follow-up question is appended and the graph comes back for the next answer.
   */
  lemma ClarificationKeepsInterviewOpen(
    st: State, clarification: Oracle<Engine.Clarification>, analysis: Oracle<Engine.Analysis>, selection: Oracle<string>)
    requires Truthy(st.candidateResponse) && st.currentQuestion.Some? && !Truthy(st.error)
    requires Engine.AsksClarification(clarification)
    ensures var r := ProcessNode(st, clarification, analysis, selection);
      && r.awaitingClarification && !r.interviewComplete
      && r.history == st.history + [Human(st.candidateResponse.value), Ai(clarification.value.clarificationQuestion.value)]
      && r.evaluation == st.evaluation && r.currentQuestion == st.currentQuestion
      && RouteAfterProcessing(r) == "process_response"
  {
  }

  /**
   * An answer the model does not question is recorded under the current question's id, and the
   * interview either asks another question or closes; only closing sends the graph to the tools.
   */
  lemma AnswerIsRecorded(
    st: State, clarification: Oracle<Engine.Clarification>, analysis: Oracle<Engine.Analysis>, selection: Oracle<string>)
    requires Truthy(st.candidateResponse) && st.currentQuestion.Some? && !Truthy(st.error)
    requires !Engine.AsksClarification(clarification)
    ensures var r := ProcessNode(st, clarification, analysis, selection);
      var q := st.currentQuestion.value;
      && Get(r.evaluation, q.id) == Some(Engine.EntryFor(SessionOf(st, q), st.candidateResponse.value, analysis))
      && !r.awaitingClarification
      && |r.history| == |st.history| + 2
      && (RouteAfterProcessing(r) == "run_evaluation_tools" <==> r.history[|st.history| + 1] == Ai(Engine.ClosingMessage) && r.interviewComplete)
  {
    var q := st.currentQuestion.value;
    var s := SessionOf(st, q);
    var r := ProcessNode(st, clarification, analysis, selection);
    if !Engine.AllAsked(s) {
      match Engine.SelectNextQuestion(s.(history := s.history + [Human(st.candidateResponse.value)]), selection)
      case Some(next) =>
        if r.history[|st.history| + 1] == Ai(Engine.ClosingMessage) {
          assert r.interviewComplete == s.interviewComplete;
        }
      case None =>
    }
  }

  /**
   * A failed start is never cleared: processing keeps the error, so the route after processing is
   * `"error"` from then on.
   */
  lemma FailedStartRoutesToError(
    st: State, catalogue: seq<Scenario>, pick: nat, response: string,
    clarification: Oracle<Engine.Clarification>, analysis: Oracle<Engine.Analysis>, selection: Oracle<string>)
    requires Engine.StartInterview(catalogue, None, pick).Err?
    ensures var started := Initialize(st, catalogue, pick).(candidateResponse := Some(response));
      && Truthy(started.error)
      && RouteAfterProcessing(ProcessNode(started, clarification, analysis, selection)) == "error"
  {
  }

  /** The evaluation contents: the transcript without system messages, interviewer and candidate labelled. */
  function Contents(history: seq<Message>): (r: seq<string>)
    ensures |r| <= |history|
  {
    TranscriptLines(history, "Interviewer", "Candidate")
  }

  /** An answer adds exactly its own labelled line to the contents. */
  lemma ContentsOfAnswer(history: seq<Message>, answer: string)
    ensures Contents(history + [Human(answer)]) == Contents(history) + ["Candidate: " + answer]
  {
    TranscriptLinesAppend(history, [Human(answer)], "Interviewer", "Candidate");
    assert [Human(answer)][1..] == [];
    assert "Candidate" + ": " == "Candidate: ";
  }

  /**
   * A started interview has something to summarise: the opening question is the first line of the
   * contents, and the system prompt is not part of them.
   */
  lemma StartedInterviewHasContents(st: State, catalogue: seq<Scenario>, pick: nat)
    requires Engine.StartInterview(catalogue, None, pick).Ok?
    ensures var r := Initialize(st, catalogue, pick);
      Contents(r.history) == ["Interviewer: " + Engine.OpeningPrefix + r.currentQuestion.value.text]
  {
    var r := Initialize(st, catalogue, pick);
    var opening := Ai(Engine.OpeningPrefix + r.currentQuestion.value.text);
    assert r.history == [System(Engine.SystemPrompt)] + [opening];
    TranscriptSkipsSystem([opening], Engine.SystemPrompt, "Interviewer", "Candidate");
    assert [opening][1..] == [];
    assert "Interviewer" + ": " == "Interviewer: ";
    assert "Interviewer: " + opening.content == "Interviewer: " + Engine.OpeningPrefix + r.currentQuestion.value.text;
  }

  /** The three tool fields of the state. */
  function Results(st: State): (t: ToolResults)
  {
    ToolResults(st.finalSummary, st.grammarEvaluation, st.validationResult)
  }

  /**
   * `run_evaluation_tools`: all three tools on the contents. The node writes only the tool fields,
   * so the route after it is decided by the error the state already had.
   */
  function EvaluationToolsNode(st: State, tools: ToolOracles): (r: State)
    ensures r.history == st.history && r.evaluation == st.evaluation && r.error == st.error
    ensures RouteAfterEvaluation(r.error) == RouteAfterEvaluation(st.error)
    ensures Results(r) == RunTools(Contents(st.history), AllTools, Results(st), tools)
  {
    var t := RunTools(Contents(st.history), AllTools, Results(st), tools);
    st.(finalSummary := t.finalSummary, grammarEvaluation := t.grammarEvaluation, validationResult := t.validationResult)
  }

  /** The lines of one detailed evaluation, each followed by a newline. */
  function DetailedLines(e: Engine.EvaluationEntry): (lines: seq<string>)
    ensures |lines| == 9
  {
    var a := e.analysis;
    [ "QUESTION: " + e.question,
      "RESPONSE: " + e.response,
      "ANALYSIS:",
      ScoreLine("Relevance", a.relevance),
      ScoreLine("Completeness", a.completeness),
      ScoreLine("Clarity", a.clarity),
      ScoreLine("Technical Accuracy", a.technicalAccuracy),
      ScoreLine("Professional Tone", a.professionalTone),
      "- Reasoning: " + a.reasoning ]
  }

  /** One score out of ten under its label. */
  function ScoreLine(name: string, score: int): (line: string)
    ensures '\n' !in name ==> '\n' !in line
  {
    DigitsHaveNoNewline(score);
    "- " + name + ": " + IntToString(score) + "/10"
  }

  /** A number's decimal text has no newline. */
  lemma DigitsHaveNoNewline(i: int)
    ensures '\n' !in IntToString(i)
  {
    var s := IntToString(i);
    if i >= 0 {
      assert forall k :: 0 <= k < |s| ==> IsDigit(s[k]);
    } else {
      var d := NatToString(-i);
      assert s == "-" + d;
      assert forall k :: 0 <= k < |d| ==> IsDigit(d[k]);
      assert forall k :: 1 <= k < |s| ==> s[k] == d[k - 1];
    }
  }

  /**
   * One detailed evaluation: the question, the answer, the five scores out of ten and the
   * reasoning, one per line. It opens with the question's line, and when the question, the answer
   * and the reasoning are single lines it has exactly nine lines.
   */
  function DetailedText(e: Engine.EvaluationEntry): (text: string)
    ensures "QUESTION: " + e.question + "\n" <= text
    ensures '\n' !in e.question && '\n' !in e.response && '\n' !in e.analysis.reasoning ==>
      CountChar(text, '\n') == 9
  {
    SingleLines(e);
    Unlines(DetailedLines(e))
  }

  lemma SingleLines(e: Engine.EvaluationEntry)
    ensures '\n' !in e.question && '\n' !in e.response && '\n' !in e.analysis.reasoning ==>
      CountChar(Unlines(DetailedLines(e)), '\n') == 9
  {
    if '\n' !in e.question && '\n' !in e.response && '\n' !in e.analysis.reasoning {
      LinesAreSingle(e);
      UnlinesCount(DetailedLines(e));
    }
  }

  lemma LinesAreSingle(e: Engine.EvaluationEntry)
    requires '\n' !in e.question && '\n' !in e.response && '\n' !in e.analysis.reasoning
    ensures forall i :: 0 <= i < |DetailedLines(e)| ==> '\n' !in DetailedLines(e)[i]
  {
    var lines := DetailedLines(e);
    HeadingsAreSingle();
    ScoreNamesAreSingle();
    NoNewlineInConcat("QUESTION: ", e.question);
    NoNewlineInConcat("RESPONSE: ", e.response);
    NoNewlineInConcat("- Reasoning: ", e.analysis.reasoning);
    forall i | 0 <= i < |lines| ensures '\n' !in lines[i] {
      if i == 0 { assert lines[0] == "QUESTION: " + e.question; }
      else if i == 1 { assert lines[1] == "RESPONSE: " + e.response; }
      else if i == 8 { assert lines[8] == "- Reasoning: " + e.analysis.reasoning; }
    }
  }

  lemma NoNewlineInConcat(a: string, b: string)
    requires '\n' !in a && '\n' !in b
    ensures '\n' !in a + b
  {
  }

  lemma HeadingsAreSingle()
    ensures '\n' !in "QUESTION: " && '\n' !in "RESPONSE: " && '\n' !in "ANALYSIS:" && '\n' !in "- Reasoning: "
  {
  }

  lemma ScoreNamesAreSingle()
    ensures '\n' !in "Relevance" && '\n' !in "Completeness" && '\n' !in "Clarity"
    ensures '\n' !in "Technical Accuracy" && '\n' !in "Professional Tone"
  {
  }

  /** The detailed evaluations in the evaluation dictionary's order, one per recorded question. */
  function DetailedEvaluations(evaluation: Dict<string, Engine.EvaluationEntry>): (blocks: seq<string>)
    ensures |blocks| == |evaluation|
    ensures forall i :: 0 <= i < |blocks| ==> "QUESTION: " + Values(evaluation)[i].question + "\n" <= blocks[i]
  {
    seq(|evaluation|, i requires 0 <= i < |evaluation| => DetailedText(evaluation[i].1))
  }

  /** The fields the report call is given. */
  datatype ReportRequest = ReportRequest(
    scenarioTitle: string, scenarioDescription: string,
    finalSummary: string, grammarEvaluation: string, validationResult: string, detailedEvaluations: string)

  /**
   * `generate_final_report`: a scenario without `title` or `description` fails on the lookup; the
   * report call is given the tool results (placeholders for falsy ones) and the detailed
   * evaluations joined by blank lines; its answer is the report, its exception the error.
   */
  function ReportNode(st: State, report: ReportRequest -> Oracle<string>): (r: State)
    ensures st.scenario.title.None? ==> r == st.(error := Some(ReportFailed + "'title'"))
    ensures st.scenario.title.Some? && st.scenario.description.None? ==>
      r == st.(error := Some(ReportFailed + "'description'"))
    ensures st.scenario.title.Some? && st.scenario.description.Some? ==>
      var req := ReportRequest(st.scenario.title.value, st.scenario.description.value,
        Shown(st.finalSummary, NoSummary), Shown(st.grammarEvaluation, NoGrammar),
        Shown(st.validationResult, NoValidation), Join("\n\n", DetailedEvaluations(st.evaluation)));
      && (report(req).Answer? ==> r == st.(finalReport := Some(report(req).value)))
      && (report(req).Raised? ==> r == st.(error := Some(ReportFailed + report(req).message)))
  {
    match (st.scenario.title, st.scenario.description)
    case (None, _) => st.(error := Some(ReportFailed + "'title'"))
    case (Some(_), None) => st.(error := Some(ReportFailed + "'description'"))
    case (Some(title), Some(description)) =>
      var req := ReportRequest(title, description,
        Shown(st.finalSummary, NoSummary), Shown(st.grammarEvaluation, NoGrammar),
        Shown(st.validationResult, NoValidation), Join("\n\n", DetailedEvaluations(st.evaluation)));
      match report(req)
      case Answer(text) => st.(finalReport := Some(text))
      case Raised(m) => st.(error := Some(ReportFailed + m))
  }

  /**
   * The report call sees the evaluations in recording order: recording one more evaluation adds
   * its block at the end, after one blank line.
   */
  lemma ReportBlocksFollowRecording(evaluation: Dict<string, Engine.EvaluationEntry>, e: (string, Engine.EvaluationEntry))
    requires |evaluation| > 0
    ensures Join("\n\n", DetailedEvaluations(evaluation + [e])) ==
      Join("\n\n", DetailedEvaluations(evaluation)) + "\n\n" + DetailedText(e.1)
  {
    var blocks := DetailedEvaluations(evaluation);
    var more := DetailedEvaluations(evaluation + [e]);
    assert more == blocks + [DetailedText(e.1)] by {
      assert |more| == |blocks| + 1;
      forall i | 0 <= i < |more|
        ensures more[i] == (blocks + [DetailedText(e.1)])[i]
      {
        if i < |evaluation| {
          assert (evaluation + [e])[i] == evaluation[i];
        }
      }
    }
    JoinSnoc("\n\n", blocks, DetailedText(e.1));
  }
}

=== FILE: messages.dfy ===
/**
 * Conversation history: the three message kinds the chat model library distinguishes, and the
 * two ways the core renders a history — as role-tagged records for API clients, and as
 * `"Label: content"` transcript lines for prompts and summaries.
 */
module Messages {
  import opened Text

  datatype Message = System(content: string) | Ai(content: string) | Human(content: string)

  /** The record a history message becomes in an API response. */
  datatype RoleMessage = RoleMessage(role: string, content: string)

  /** `system` for system messages, `assistant` for model messages, `user` for everything else. */
  function ToRoleMessage(m: Message): (r: RoleMessage)
    ensures r.content == m.content
    ensures r.role == "system" <==> m.System?
    ensures r.role == "assistant" <==> m.Ai?
    ensures r.role == "user" <==> m.Human?
  {
    match m
    case System(c) => RoleMessage("system", c)
    case Ai(c) => RoleMessage("assistant", c)
    case Human(c) => RoleMessage("user", c)
  }

  function ToRoleMessages(history: seq<Message>): (r: seq<RoleMessage>)
    ensures |r| == |history|
    ensures forall i :: 0 <= i < |history| ==> r[i] == ToRoleMessage(history[i])
  {
    seq(|history|, i requires 0 <= i < |history| => ToRoleMessage(history[i]))
  }

  /** A role-tagged record determines the message it came from. */
  lemma RoleMessageInjective(a: Message, b: Message)
    requires ToRoleMessage(a) == ToRoleMessage(b)
    ensures a == b
  {
  }

  /**
   * Transcript lines: every non-system message as `"<label>: <content>"`, model messages under
   * `aiLabel`, all others under `humanLabel`.
   */
  function TranscriptLines(history: seq<Message>, aiLabel: string, humanLabel: string): (r: seq<string>)
    ensures |r| <= |history|
    ensures (forall i :: 0 <= i < |history| ==> !history[i].System?) ==> |r| == |history|
  {
    if |history| == 0 then []
    else
      var rest := TranscriptLines(history[1..], aiLabel, humanLabel);
      match history[0]
      case System(_) => rest
      case Ai(c) => [aiLabel + ": " + c] + rest
      case Human(c) => [humanLabel + ": " + c] + rest
  }

  /** Transcript lines of a concatenation are the concatenation of the transcripts. */
  lemma {:induction false} TranscriptLinesAppend(a: seq<Message>, b: seq<Message>, aiLabel: string, humanLabel: string)
    ensures TranscriptLines(a + b, aiLabel, humanLabel) == TranscriptLines(a, aiLabel, humanLabel) + TranscriptLines(b, aiLabel, humanLabel)
  {
    if |a| > 0 {
      assert (a + b)[1..] == a[1..] + b;
      TranscriptLinesAppend(a[1..], b, aiLabel, humanLabel);
    } else {
      assert a + b == b;
    }
  }

  /** A system message contributes nothing to a transcript. */
  lemma TranscriptSkipsSystem(history: seq<Message>, content: string, aiLabel: string, humanLabel: string)
    ensures TranscriptLines([System(content)] + history, aiLabel, humanLabel) == TranscriptLines(history, aiLabel, humanLabel)
  {
    assert ([System(content)] + history)[1..] == history;
  }
}

=== FILE: new_master_agent.dfy ===
/**
 * The customer-service master agent: a graph of five nodes over one state record. It starts on a
 * random scenario (a staged one when there is any), appends each customer answer, advances the
 * conversation — stage by stage along a staged scenario's flow, or by the question-count
 * arithmetic for a question-list scenario — and, once complete, runs the evaluation tools and asks
 * for the report. The model calls, the prompt rendering and the clock are parameters.
 */
module NewMasterAgent {
  import opened Wrappers
  import opened Text
  import opened Collections
  import opened Scenarios
  import opened Messages
  import opened Tools
  import opened ToolRuns
  import NewScenarioManager
  import Engine = ConversationEngine

  /** `MasterAgentState`; `persistence_path` is never written and is left out. */
  datatype State = State(
    scenario: Scenario,
    scenarioId: string,
    isNewFormat: bool,
    currentStage: string,
    stagesCompleted: seq<string>,
    history: seq<Message>,
    customerResponse: Option<string>,
    context: map<string, string>,
    customerProfile: map<string, string>,
    evaluationCriteria: map<string, string>,
    interviewComplete: bool,
    finalSummary: Option<string>,
    grammarEvaluation: Option<string>,
    validationResult: Option<string>,
    toolsToRun: seq<string>,
    error: Option<string>,
    sessionId: Option<string>,
    finalReport: Option<string>)

  /** The state `run_conversation` starts the graph with. */
  function Fresh(sessionId: Option<string>): (st: State)
    ensures st.history == [] && st.stagesCompleted == [] && st.error.None? && st.sessionId == sessionId
  {
    State(EmptyPatch, "", false, "", [], [], None, map[], map[], map[], false, None, None, None, [], None, sessionId, None)
  }

  const InitFailed: string := "Failed to initialize conversation: "
  const AdvanceFailed: string := "Failed to advance conversation: "
  const ReportFailed: string := "Failed to generate final report: "
  const DefaultCompany: string := "Our Company"
  const NoConversationYet: string := "No conversation yet."
  const TraditionalPrompt: string := "You are an HR interviewer conducting a technical assessment interview."
  const StagedClosing: string := "Thank you for your time today. Is there anything else I can help you with?"

  /** The fields the system prompt of a stage is rendered from. */
  datatype StagePrompt = StagePrompt(
    companyName: string, context: map<string, string>, customerProfile: map<string, string>,
    stage: string, stageGoals: string, conversation: string)

  /** Rendering the system prompt template (with the JSON dumps of the two maps). */
  type Render = StagePrompt -> string

  /** `context.get('company_name', 'Our Company')`. */
  function CompanyName(context: map<string, string>): (name: string)
    ensures "company_name" in context ==> name == context["company_name"]
    ensures "company_name" !in context ==> name == DefaultCompany
  {
    if "company_name" in context then context["company_name"] else DefaultCompany
  }

  function Greeting(company: string): (g: string)
    ensures "Hello! Welcome to " + company <= g
  {
    "Hello! Welcome to " + company + ". My name is AI Assistant. How may I help you today?"
  }

  /** The stage goals as a bullet list, one per line. */
  function Goals(goals: seq<string>): (text: string)
    ensures |goals| == 0 ==> text == ""
    ensures |goals| == 1 ==> text == "- " + goals[0]
  {
    Join("\n", seq(|goals|, i requires 0 <= i < |goals| => "- " + goals[i]))
  }

  /** A stage dictionary's `stage` and `agent_goals`, with the defaults `''` and `[]`. */
  function StageOf(step: Step): (r: (string, seq<string>))
    ensures step.StageStep? ==> r == (step.stage, step.agentGoals)
  {
    match step
    case StageStep(_, stage, goals, _) => (stage, goals)
    case QuestionStep(_) => ("", [])
  }

  /** The scenario initialisation picks: a staged one first, any one when there is no staged one. */
  function Choose(c: NewScenarioManager.Catalogue, pickStaged: nat, pickAny: nat): (r: Option<Scenario>)
    ensures r.None? <==> |c.traditional| + |c.staged| == 0
    ensures |c.staged| > 0 ==> r.Some? && r.value in c.staged
    ensures r.Some? ==> r.value in c.traditional || r.value in c.staged
  {
    match NewScenarioManager.SelectRandomScenario(c, true, pickStaged)
    case Some(s) => Some(s)
    case None => NewScenarioManager.SelectRandomScenario(c, false, pickAny)
  }

  /**
   * `initialize_conversation` on a staged scenario: the first stage of the flow stored under the
   * scenario's id, the context, profile and criteria stored under it (`{}` when missing), and a
   * history of the rendered system prompt and the greeting; a flow without a first stage is an error.
   */
  function InitStaged(st: State, c: NewScenarioManager.Catalogue, s: Scenario, render: Render, clock: string): (r: State)
    ensures NewScenarioManager.NextConversationStage(c, s.id.GetOr(""), None).None? ==>
      r == st.(error := Some(InitFailed + "No conversation stages found in scenario " + s.id.GetOr("")))
    ensures NewScenarioManager.NextConversationStage(c, s.id.GetOr(""), None).Some? ==>
      var first := NewScenarioManager.NextConversationStage(c, s.id.GetOr(""), None).value;
      && r.scenario == s && r.scenarioId == s.id.GetOr("") && r.isNewFormat
      && r.currentStage == StageOf(first).0 && r.stagesCompleted == []
      && |r.history| == 2 && r.history[0].System? && r.history[1] == Ai(Greeting(CompanyName(r.context)))
      && r.customerResponse.None? && !r.interviewComplete && r.error.None? && r.toolsToRun == []
      && r.sessionId == Some("session_" + clock)
      && r.context == NewScenarioManager.GetScenarioContext(c, s.id.GetOr("")).GetOr(map[])
      && r.customerProfile == NewScenarioManager.GetCustomerProfile(c, s.id.GetOr("")).GetOr(map[])
      && r.evaluationCriteria == NewScenarioManager.GetEvaluationCriteria(c, s.id.GetOr("")).GetOr(map[])
  {
    var id := s.id.GetOr("");
    match NewScenarioManager.NextConversationStage(c, id, None)
    case None => st.(error := Some(InitFailed + "No conversation stages found in scenario " + id))
    case Some(first) =>
      var context := NewScenarioManager.GetScenarioContext(c, id).GetOr(map[]);
      var profile := NewScenarioManager.GetCustomerProfile(c, id).GetOr(map[]);
      var criteria := NewScenarioManager.GetEvaluationCriteria(c, id).GetOr(map[]);
      var company := CompanyName(context);
      var prompt := render(StagePrompt(company, context, profile, StageOf(first).0, Goals(StageOf(first).1), NoConversationYet));
      State(s, id, true, StageOf(first).0, [], [System(prompt), Ai(Greeting(company))], None,
            context, profile, criteria, false, None, None, None, [], None, Some("session_" + clock), st.finalReport)
  }

  /**
   * `initialize_conversation` on a question-list scenario: stage `question_1` and a history of
   * the fixed system prompt and the first question. A scenario without `questions` opens with an
   * empty question; an empty question list fails on the index.
   */
  function InitTraditional(st: State, s: Scenario, clock: string): (r: State)
    ensures s.questions == Some([]) ==> r == st.(error := Some(InitFailed + "list index out of range"))
    ensures s.questions != Some([]) ==>
      && r.scenario == s && !r.isNewFormat && r.currentStage == "question_1" && r.stagesCompleted == []
      && r.history == [System(TraditionalPrompt),
                       Ai(Engine.OpeningPrefix + (if s.questions.None? then "" else s.questions.value[0].text))]
      && r.context == map[] && r.customerProfile == map[] && r.evaluationCriteria == map[]
      && r.customerResponse.None? && !r.interviewComplete && r.error.None?
  {
    match s.questions
    case Some(qs) =>
      if |qs| == 0 then st.(error := Some(InitFailed + "list index out of range"))
      else Opened(st, s, qs[0].text, clock)
    case None => Opened(st, s, "", clock)
  }

  function Opened(st: State, s: Scenario, first: string, clock: string): (r: State)
    ensures r.history == [System(TraditionalPrompt), Ai(Engine.OpeningPrefix + first)]
  {
    State(s, s.id.GetOr(""), false, "question_1", [], [System(TraditionalPrompt), Ai(Engine.OpeningPrefix + first)],
          None, map[], map[], map[], false, None, None, None, [], None, Some("session_" + clock), st.finalReport)
  }

  /**
   * `initialize_conversation`: no scenario at all is an error; otherwise the chosen scenario's
   * format decides how the conversation opens.
   */
  function Initialize(
    st: State, c: NewScenarioManager.Catalogue, pickStaged: nat, pickAny: nat, render: Render, clock: string): (r: State)
    ensures |c.traditional| + |c.staged| == 0 ==> r == st.(error := Some(InitFailed + "No scenarios available"))
    ensures r.error.None? && |c.staged| > 0 ==> r.scenario in c.staged
    ensures r.error.None? ==> r.scenario in c.traditional || r.scenario in c.staged
    ensures r.error.None? ==> r.isNewFormat == IsNewFormat(r.scenario) && |r.history| == 2 && r.stagesCompleted == []
  {
    match Choose(c, pickStaged, pickAny)
    case None => st.(error := Some(InitFailed + "No scenarios available"))
    case Some(s) => if IsNewFormat(s) then InitStaged(st, c, s, render, clock) else InitTraditional(st, s, clock)
  }

  /** `process_response`: the pending answer becomes one more human message and is cleared. */
  function ProcessNode(st: State): (r: State)
    ensures !Truthy(st.customerResponse) ==> r == st
    ensures Truthy(st.customerResponse) ==>
      r == st.(history := st.history + [Human(st.customerResponse.value)], customerResponse := None)
  {
    if Truthy(st.customerResponse) then
      st.(history := st.history + [Human(st.customerResponse.value)], customerResponse := None)
    else st
  }

  /** The conversation as the agent's prompt shows it: no system messages, one labelled line each. */
  function Conversation(history: seq<Message>, aiLabel: string, humanLabel: string): (text: string)
  {
    Join("\n", TranscriptLines(history, aiLabel, humanLabel))
  }

  /** `stages_completed` with the current stage added at the end unless it is already there. */
  function MarkCompleted(completed: seq<string>, stage: string): (r: seq<string>)
    ensures stage in r && completed <= r
    ensures stage in completed ==> r == completed
    ensures Distinct(completed) ==> Distinct(r)
  {
    if stage in completed then completed
    else
      DistinctAppend(completed, stage);
      completed + [stage]
  }

  lemma DistinctAppend(s: seq<string>, x: string)
    requires x !in s
    ensures Distinct(s) ==> Distinct(s + [x])
  {
    if Distinct(s) {
      var t := s + [x];
      forall i, j | 0 <= i < j < |t|
        ensures t[i] != t[j]
      {
        if j == |s| {
          assert t[i] in s;
        }
      }
    }
  }

  /** The stage after the current one in the flow stored under the scenario's id. */
  function NextStage(st: State, c: NewScenarioManager.Catalogue): (r: Option<Step>)
  {
    NewScenarioManager.NextConversationStage(c, st.scenarioId, Some(st.currentStage))
  }

  /**
   * `advance_conversation` on a staged scenario: the current stage is marked completed before
   * anything can fail; with a next stage the agent's answer for it is appended and the stage
   * becomes current, without one the conversation closes.
   */
  function AdvanceStaged(
    st: State, c: NewScenarioManager.Catalogue, render: Render, agent: (string, string) -> Oracle<string>): (r: State)
    ensures r.stagesCompleted == MarkCompleted(st.stagesCompleted, st.currentStage)
    ensures NextStage(st, c).None? ==>
      r.interviewComplete && r.history == st.history + [Ai(StagedClosing)] && r.currentStage == st.currentStage
    ensures NextStage(st, c).Some? && StagedReply(st, c, render, agent).Answer? ==>
      && r.history == st.history + [Ai(StagedReply(st, c, render, agent).value)]
      && r.currentStage == StageOf(NextStage(st, c).value).0
      && r.error == st.error && r.interviewComplete == st.interviewComplete
    ensures NextStage(st, c).Some? && StagedReply(st, c, render, agent).Raised? ==>
      && r.history == st.history && r.currentStage == st.currentStage
      && r.error == Some(AdvanceFailed + StagedReply(st, c, render, agent).message)
      && r.interviewComplete == st.interviewComplete
  {
    var marked := st.(stagesCompleted := MarkCompleted(st.stagesCompleted, st.currentStage));
    match NextStage(st, c)
    case None => marked.(interviewComplete := true, history := st.history + [Ai(StagedClosing)])
    case Some(next) =>
      match StagedReply(st, c, render, agent)
      case Answer(a) => marked.(history := st.history + [Ai(a)], currentStage := StageOf(next).0)
      case Raised(m) => marked.(error := Some(AdvanceFailed + m))
  }

  /**
   * The agent's answer for the next stage: asked with the system prompt rendered for that stage
   * and its goals, over the conversation so far.
   */
  function StagedReply(
    st: State, c: NewScenarioManager.Catalogue, render: Render, agent: (string, string) -> Oracle<string>): (reply: Oracle<string>)
    requires NextStage(st, c).Some?
  {
    var next := NextStage(st, c).value;
    agent(render(StagePrompt(CompanyName(st.context), st.context, st.customerProfile, StageOf(next).0,
                             Goals(StageOf(next).1), Conversation(st.history, "Agent", "Customer"))),
          StageOf(next).0)
  }

  /** The traditional completion test as written: half the history's length, as a true division, against the question count. */
  predicate AllQuestionsCovered(historyLength: nat, questionCount: nat)
  {
    (historyLength as real) / 2.0 > questionCount as real
  }

  /** The stage name of the `k`-th question. */
  function QuestionStage(k: nat): (name: string)
    ensures "question_" <= name
  {
    "question_" + NatToString(k)
  }

  /**
   * `advance_conversation` on a question-list scenario: the agent's answer to the conversation
   * so far is appended; the conversation closes once half the history outnumbers the questions,
   * and otherwise the next `question_<n>` stage is recorded.
   */
  function AdvanceTraditional(st: State, agent: string -> Oracle<string>): (r: State)
    ensures agent(Conversation(st.history, "Interviewer", "Candidate")).Raised? ==>
      r == st.(error := Some(AdvanceFailed + agent(Conversation(st.history, "Interviewer", "Candidate")).message))
    ensures agent(Conversation(st.history, "Interviewer", "Candidate")).Answer? ==>
      var h := st.history + [Ai(agent(Conversation(st.history, "Interviewer", "Candidate")).value)];
      var n := |st.scenario.questions.GetOr([])|;
      && (AllQuestionsCovered(|h|, n) ==>
            r == st.(history := h + [Ai(Engine.ClosingMessage)], interviewComplete := true))
      && (!AllQuestionsCovered(|h|, n) ==>
            r == st.(history := h, currentStage := QuestionStage(|st.stagesCompleted| + 1),
                     stagesCompleted := st.stagesCompleted + [QuestionStage(|st.stagesCompleted| + 1)]))
  {
    match agent(Conversation(st.history, "Interviewer", "Candidate"))
    case Raised(m) => st.(error := Some(AdvanceFailed + m))
    case Answer(a) =>
      var h := st.history + [Ai(a)];
      if AllQuestionsCovered(|h|, |st.scenario.questions.GetOr([])|) then
        st.(history := h + [Ai(Engine.ClosingMessage)], interviewComplete := true)
      else
        var stage := QuestionStage(|st.stagesCompleted| + 1);
        st.(history := h, currentStage := stage, stagesCompleted := st.stagesCompleted + [stage])
  }

  /** `advance_conversation`: by the format recorded at initialisation. */
  function AdvanceNode(
    st: State, c: NewScenarioManager.Catalogue, render: Render,
    staged: (string, string) -> Oracle<string>, traditional: string -> Oracle<string>): (r: State)
    ensures st.isNewFormat ==> r == AdvanceStaged(st, c, render, staged)
    ensures !st.isNewFormat ==> r == AdvanceTraditional(st, traditional)
  {
    if st.isNewFormat then AdvanceStaged(st, c, render, staged) else AdvanceTraditional(st, traditional)
  }

  /** `route_after_processing`: the error field plays no part. */
  function RouteAfterProcessing(st: State): (route: string)
    ensures route == "run_evaluation_tools" <==> st.interviewComplete
    ensures route == "advance_conversation" <==> !st.interviewComplete
  {
    if st.interviewComplete then "run_evaluation_tools" else "advance_conversation"
  }

  /** `route_after_advancing`: the error field plays no part. */
  function RouteAfterAdvancing(st: State): (route: string)
    ensures route == "run_evaluation_tools" <==> st.interviewComplete
    ensures route == "process_response" <==> !st.interviewComplete
  {
    if st.interviewComplete then "run_evaluation_tools" else "process_response"
  }

  /**
   * The two routes of the conversation loop ignore `error`: an advance whose agent call fails
   * leaves the conversation open, and the graph goes back for the next answer.
   */
  lemma FailedAdvanceKeepsLooping(st: State, traditional: string -> Oracle<string>)
    requires !st.isNewFormat && !st.interviewComplete
    requires traditional(Conversation(st.history, "Interviewer", "Candidate")).Raised?
    ensures var r := AdvanceTraditional(st, traditional);
      && Truthy(r.error) && "Failed to advance conversation: " <= r.error.value
      && RouteAfterAdvancing(r) == "process_response"
      && RouteAfterProcessing(ProcessNode(r)) == "advance_conversation"
  {
    var r := AdvanceTraditional(st, traditional);
    assert r.error.value == AdvanceFailed + traditional(Conversation(st.history, "Interviewer", "Candidate")).message;
  }

  /** The true-division test is the integer test `length > 2 * questions`. */
  lemma CoveredIsTwiceTheQuestions(historyLength: nat, questionCount: nat)
    ensures AllQuestionsCovered(historyLength, questionCount) <==> historyLength > 2 * questionCount
  {
  }

  /** `"question_1"`, …, `"question_k"`. */
  function QuestionStages(k: nat): (names: seq<string>)
    ensures |names| == k
    ensures forall i :: 0 <= i < k ==> names[i] == QuestionStage(i + 1)
  {
    seq(k, i requires 0 <= i < k => QuestionStage(i + 1))
  }

  /** One round of the conversation loop: the answer is processed and the conversation advanced. */
  function Round(
    st: State, answer: string, c: NewScenarioManager.Catalogue, render: Render,
    staged: (string, string) -> Oracle<string>, traditional: string -> Oracle<string>): (r: State)
  {
    AdvanceNode(ProcessNode(st.(customerResponse := Some(answer))), c, render, staged, traditional)
  }

  /**
   * The loop of the graph fed one answer per visit to `process_response`, until the conversation
   * is complete or the answers run out.
   */
  function Rounds(
    st: State, answers: seq<string>, c: NewScenarioManager.Catalogue, render: Render,
    staged: (string, string) -> Oracle<string>, traditional: string -> Oracle<string>): (r: State)
    decreases |answers|
  {
    if |answers| == 0 || st.interviewComplete then st
    else Rounds(Round(st, answers[0], c, render, staged, traditional), answers[1..], c, render, staged, traditional)
  }

  /** Where a question-list conversation is after `k` answered rounds that did not close it. */
  predicate AfterRounds(st: State, k: nat)
  {
    && !st.isNewFormat && !st.interviewComplete
    && |st.history| == 2 + 2 * k
    && st.stagesCompleted == QuestionStages(k)
  }

  /**
   * One answered round of a question-list conversation: two messages more, and either the next
   * question stage or, once the answers reach the question count, the closing message.
   */
  lemma TraditionalRound(
    st: State, k: nat, answer: string, c: NewScenarioManager.Catalogue, render: Render,
    staged: (string, string) -> Oracle<string>, traditional: string -> Oracle<string>)
    requires AfterRounds(st, k) && answer != ""
    requires forall text :: traditional(text).Answer?
    ensures var r := Round(st, answer, c, render, staged, traditional);
      && (k + 1 < |st.scenario.questions.GetOr([])| ==> AfterRounds(r, k + 1) && r.currentStage == QuestionStage(k + 1))
      && (k + 1 >= |st.scenario.questions.GetOr([])| ==>
            r.interviewComplete && |r.history| == 2 + 2 * (k + 1) + 1 && r.history[|r.history| - 1] == Ai(Engine.ClosingMessage))
      && r.scenario == st.scenario
  {
    var p := ProcessNode(st.(customerResponse := Some(answer)));
    assert p.history == st.history + [Human(answer)];
    assert traditional(Conversation(p.history, "Interviewer", "Candidate")).Answer?;
    CoveredIsTwiceTheQuestions(|p.history| + 1, |st.scenario.questions.GetOr([])|);
    assert QuestionStages(k) + [QuestionStage(k + 1)] == QuestionStages(k + 1);
  }

  /**
   * A question-list conversation that never fails closes after exactly as many answers as its
   * scenario has questions, whatever the agent says: with fewer answers it is still open at the
   * stage of the last answer, and with enough it has closed with one message more than two per
   * answer and the opening pair.
   */
  lemma {:induction false} TraditionalConversationTakesOneAnswerPerQuestion(
    st: State, k: nat, answers: seq<string>, c: NewScenarioManager.Catalogue, render: Render,
    staged: (string, string) -> Oracle<string>, traditional: string -> Oracle<string>)
    requires AfterRounds(st, k) && k < |st.scenario.questions.GetOr([])|
    requires forall i :: 0 <= i < |answers| ==> answers[i] != ""
    requires forall text :: traditional(text).Answer?
    ensures var n := |st.scenario.questions.GetOr([])|;
      var r := Rounds(st, answers, c, render, staged, traditional);
      && (k + |answers| < n ==> AfterRounds(r, k + |answers|))
      && (k + |answers| >= n ==> r.interviewComplete && |r.history| == 2 + 2 * n + 1)
    decreases |answers|
  {
    if |answers| > 0 {
      var r1 := Round(st, answers[0], c, render, staged, traditional);
      TraditionalRound(st, k, answers[0], c, render, staged, traditional);
      if k + 1 < |st.scenario.questions.GetOr([])| {
        TraditionalConversationTakesOneAnswerPerQuestion(r1, k + 1, answers[1..], c, render, staged, traditional);
      }
    }
  }

  /** A question-list scenario opens in the state of zero answered rounds. */
  lemma TraditionalOpeningIsRoundZero(st: State, s: Scenario, clock: string)
    requires s.questions != Some([])
    ensures AfterRounds(InitTraditional(st, s, clock), 0)
  {
  }

  /**
   * With distinct stage names, advancing from stage `i` of the flow stored under the scenario's
   * id marks stage `i` completed and moves to stage `i + 1` when the agent answers, and closes
   * the conversation after the last stage.
   */
  lemma StagedAdvanceFollowsFlow(
    st: State, c: NewScenarioManager.Catalogue, s: Scenario, i: nat, render: Render, agent: (string, string) -> Oracle<string>)
    requires NewScenarioManager.GetScenarioById(c, st.scenarioId) == Some(s) && IsNewFormat(s)
    requires Distinct(NewScenarioManager.StageNames(NewScenarioManager.Flow(s)))
    requires i < |NewScenarioManager.Flow(s)| && st.currentStage == NewScenarioManager.Flow(s)[i].name
    requires forall p, stage :: agent(p, stage).Answer?
    ensures var flow := NewScenarioManager.Flow(s);
      var r := AdvanceStaged(st, c, render, agent);
      && flow[i].name in r.stagesCompleted
      && (i + 1 < |flow| ==> r.currentStage == flow[i + 1].name && !r.interviewComplete == !st.interviewComplete
                             && |r.history| == |st.history| + 1)
      && (i + 1 == |flow| ==> r.interviewComplete && r.history == st.history + [Ai(StagedClosing)])
  {
    var flow := NewScenarioManager.Flow(s);
    NewScenarioManager.WalkVisitsEveryStageInOrder(flow, i);
    assert NextStage(st, c) == NewScenarioManager.NextInFlow(flow, Some(flow[i].name));
  }

  /** Advancing never records a stage twice. */
  lemma StagedAdvanceKeepsStagesDistinct(
    st: State, c: NewScenarioManager.Catalogue, render: Render, agent: (string, string) -> Oracle<string>)
    requires Distinct(st.stagesCompleted)
    ensures Distinct(AdvanceStaged(st, c, render, agent).stagesCompleted)
  {
  }

  /** The tools `tools_to_run` asks for: all of them when it is empty, otherwise the ones it names. */
  function Wanted(toolsToRun: seq<string>): (w: Selection)
    ensures |toolsToRun| == 0 ==> w == AllTools
    ensures |toolsToRun| > 0 ==>
      w.summarize == (Summarize in toolsToRun) && w.grammar == (GrammarCheckName in toolsToRun) &&
      w.validation == (ValidationName in toolsToRun)
  {
    if |toolsToRun| == 0 then AllTools
    else Selection(Summarize in toolsToRun, GrammarCheckName in toolsToRun, ValidationName in toolsToRun)
  }

  function Results(st: State): (t: ToolResults)
  {
    ToolResults(st.finalSummary, st.grammarEvaluation, st.validationResult)
  }

  /**
   * `run_evaluation_tools`: the tools `tools_to_run` asks for on the contents (agent and customer
   * labelled). Other names in the list do nothing, and the node never sets `error`.
   */
  function EvaluationToolsNode(st: State, tools: ToolOracles): (r: State)
    ensures r.history == st.history && r.error == st.error && r.toolsToRun == st.toolsToRun
    ensures RouteAfterEvaluation(r.error) == RouteAfterEvaluation(st.error)
    ensures Results(r) == RunTools(TranscriptLines(st.history, "Agent", "Customer"), Wanted(st.toolsToRun), Results(st), tools)
  {
    var t := RunTools(TranscriptLines(st.history, "Agent", "Customer"), Wanted(st.toolsToRun), Results(st), tools);
    st.(finalSummary := t.finalSummary, grammarEvaluation := t.grammarEvaluation, validationResult := t.validationResult)
  }

  /**
   * Naming only tools that are not among the three runs none of them: the node leaves every tool
   * field as it was.
   */
  lemma UnknownToolsRunNothing(st: State, tools: ToolOracles)
    requires |st.toolsToRun| > 0
    requires Summarize !in st.toolsToRun && GrammarCheckName !in st.toolsToRun && ValidationName !in st.toolsToRun
    ensures EvaluationToolsNode(st, tools) == st
  {
  }

  /** The fields the report call is given; `criteria` only for a staged scenario. */
  datatype ReportRequest = ReportRequest(
    scenarioTitle: string, scenarioDescription: string, criteria: Option<map<string, string>>,
    finalSummary: string, grammarEvaluation: string, validationResult: string)

  /**
   * `generate_final_report`: the report call gets the scenario's title and description, the
   * evaluation criteria for a staged scenario, and the tool results with placeholders for falsy
   * ones; a missing title or description fails the lookup, and a failing call sets the error.
   */
  function ReportNode(st: State, report: ReportRequest -> Oracle<string>): (r: State)
    ensures st.scenario.title.None? ==> r == st.(error := Some(ReportFailed + "'title'"))
    ensures st.scenario.title.Some? && st.scenario.description.None? ==>
      r == st.(error := Some(ReportFailed + "'description'"))
    ensures st.scenario.title.Some? && st.scenario.description.Some? ==>
      var req := ReportRequest(st.scenario.title.value, st.scenario.description.value,
        if st.isNewFormat then Some(st.evaluationCriteria) else None,
        Shown(st.finalSummary, NoSummary), Shown(st.grammarEvaluation, NoGrammar), Shown(st.validationResult, NoValidation));
      && (report(req).Answer? ==> r == st.(finalReport := Some(report(req).value)))
      && (report(req).Raised? ==> r == st.(error := Some(ReportFailed + report(req).message)))
  {
    match (st.scenario.title, st.scenario.description)
    case (None, _) => st.(error := Some(ReportFailed + "'title'"))
    case (Some(_), None) => st.(error := Some(ReportFailed + "'description'"))
    case (Some(title), Some(description)) =>
      var req := ReportRequest(title, description,
        if st.isNewFormat then Some(st.evaluationCriteria) else None,
        Shown(st.finalSummary, NoSummary), Shown(st.grammarEvaluation, NoGrammar), Shown(st.validationResult, NoValidation));
      match report(req)
      case Answer(text) => st.(finalReport := Some(text))
      case Raised(m) => st.(error := Some(ReportFailed + m))
  }
}

=== FILE: new_scenario_manager.dfy ===
/**
 * The two-list scenario catalogue: traditional scenarios and staged ("new format") scenarios
 * are read from separate files and kept in separate lists. Lookups search the traditional list
 * first. Staged scenarios are walked stage by stage along their `conversation_flow`.
 */
module NewScenarioManager {
  import opened Wrappers
  import opened Collections
  import opened Scenarios
  import ScenarioManager

  datatype Catalogue = Catalogue(traditional: seq<Scenario>, staged: seq<Scenario>)

  /** `load_scenarios` and `load_new_scenarios`: each list is loaded as the one-list catalogue loads its file. */
  function Load(traditionalFile: ScenarioManager.LoadFile, stagedFile: ScenarioManager.LoadFile): (c: Catalogue)
    ensures c.traditional == ScenarioManager.LoadScenarios(traditionalFile)
    ensures c.staged == ScenarioManager.LoadScenarios(stagedFile)
  {
    Catalogue(ScenarioManager.LoadScenarios(traditionalFile), ScenarioManager.LoadScenarios(stagedFile))
  }

  /** `get_all_scenarios(include_new_format)`. */
  function AllScenarios(c: Catalogue, includeNewFormat: bool): (r: seq<Scenario>)
    ensures includeNewFormat ==> r == c.traditional + c.staged
    ensures !includeNewFormat ==> r == c.traditional
  {
    if includeNewFormat then c.traditional + c.staged else c.traditional
  }

  /** `get_scenario_by_id`: traditional scenarios are searched before staged ones. */
  function GetScenarioById(c: Catalogue, id: string): (r: Option<Scenario>)
    ensures ScenarioManager.GetScenarioById(c.traditional, id).Some? ==>
      r == ScenarioManager.GetScenarioById(c.traditional, id)
    ensures ScenarioManager.GetScenarioById(c.traditional, id).None? ==>
      r == ScenarioManager.GetScenarioById(c.staged, id)
  {
    match ScenarioManager.GetScenarioById(c.traditional, id)
    case Some(s) => Some(s)
    case None => ScenarioManager.GetScenarioById(c.staged, id)
  }

  /** Searching the two lists in turn is searching their concatenation. */
  lemma GetScenarioByIdIsFirstOverall(c: Catalogue, id: string)
    ensures GetScenarioById(c, id) == FindById(c.traditional + c.staged, id)
  {
    FindFirstAppend(c.traditional, c.staged, s => HasId(s, id));
    var t := ScenarioManager.GetScenarioById(c.traditional, id);
    assert t == FindById(c.traditional, id) by {
      if t.None? {
        assert FindById(c.traditional, id).None?;
      }
    }
    var n := ScenarioManager.GetScenarioById(c.staged, id);
    assert n == FindById(c.staged, id) by {
      if n.None? {
        assert FindById(c.staged, id).None?;
      }
    }
  }

  /** The pool the random selections draw from: the staged list alone, or both lists. */
  function Pool(c: Catalogue, newFormatOnly: bool): (pool: seq<Scenario>)
    ensures newFormatOnly ==> pool == c.staged
    ensures !newFormatOnly ==> pool == AllScenarios(c, true)
  {
    if newFormatOnly then c.staged else c.traditional + c.staged
  }

  /** `select_random_scenario(new_format_only)`. */
  function SelectRandomScenario(c: Catalogue, newFormatOnly: bool, pick: nat): (r: Option<Scenario>)
    ensures newFormatOnly ==> (r.None? <==> |c.staged| == 0)
    ensures !newFormatOnly ==> (r.None? <==> |c.traditional| + |c.staged| == 0)
    ensures r.Some? && newFormatOnly ==> r.value in c.staged
    ensures r.Some? && !newFormatOnly ==> r.value in c.traditional || r.value in c.staged
  {
    var pool := Pool(c, newFormatOnly);
    if |pool| == 0 then None else Some(Choose(pool, pick))
  }

  /**
   * `select_random_scenarios(count, new_format_only)`: the one-list selection over the pool —
   * `[]` for an empty pool, an error for a negative count, otherwise min(count, pool size)
   * scenarios drawn without replacement.
   */
  function SelectRandomScenarios(c: Catalogue, count: int, newFormatOnly: bool, draws: seq<nat>): (r: Result<seq<Scenario>>)
    ensures r == SampleScenarios(Pool(c, newFormatOnly), count, draws)
    ensures |Pool(c, newFormatOnly)| == 0 ==> r == Ok([])
    ensures |Pool(c, newFormatOnly)| > 0 && count < 0 ==> r.Err?
    ensures |Pool(c, newFormatOnly)| > 0 && count >= 0 && AllHaveIds(Pool(c, newFormatOnly)) ==> r.Ok?
    ensures r.Ok? && |Pool(c, newFormatOnly)| > 0 ==>
      |r.value| == if count < |Pool(c, newFormatOnly)| then count else |Pool(c, newFormatOnly)|
    ensures newFormatOnly && r.Ok? ==> multiset(r.value) <= multiset(c.staged)
    ensures !newFormatOnly && r.Ok? ==> multiset(r.value) <= multiset(c.traditional + c.staged)
  {
    SampleScenarios(Pool(c, newFormatOnly), count, draws)
  }

  /**
   * `filter_scenarios_by_tags(tags, include_new_format)`: the one-list tag filter over the pool —
   * no tags gives the whole pool, otherwise exactly its scenarios with a matching topic, in order.
   */
  function FilterByTags(c: Catalogue, tags: seq<string>, includeNewFormat: bool): (r: seq<Scenario>)
    ensures r == Scenarios.FilterByTags(AllScenarios(c, includeNewFormat), tags)
    ensures |tags| == 0 ==> r == AllScenarios(c, includeNewFormat)
    ensures forall i :: 0 <= i < |r| ==> r[i] in AllScenarios(c, includeNewFormat)
    ensures |tags| > 0 ==> forall i :: 0 <= i < |r| ==> MatchesAnyTag(r[i], tags)
    ensures |tags| > 0 ==> forall i :: (0 <= i < |AllScenarios(c, includeNewFormat)| &&
                                        MatchesAnyTag(AllScenarios(c, includeNewFormat)[i], tags)) ==>
                                       AllScenarios(c, includeNewFormat)[i] in r
  {
    Scenarios.FilterByTags(AllScenarios(c, includeNewFormat), tags)
  }

  /** Including staged scenarios appends their matches after the traditional ones. */
  lemma FilterByTagsTraditionalFirst(c: Catalogue, tags: seq<string>)
    ensures FilterByTags(c, tags, true) == FilterByTags(c, tags, false) + Scenarios.FilterByTags(c.staged, tags)
  {
    FilterByTagsAppend(c.traditional, c.staged, tags);
  }

  /**
   * `filter_scenarios_by_difficulty(difficulty, include_new_format)`: the one-list difficulty
   * filter over the pool — exactly its scenarios of that difficulty, in pool order.
   */
  function FilterByDifficulty(c: Catalogue, difficulty: string, includeNewFormat: bool): (r: seq<Scenario>)
    ensures r == Scenarios.FilterByDifficulty(AllScenarios(c, includeNewFormat), difficulty)
    ensures forall i :: 0 <= i < |r| ==> r[i] in AllScenarios(c, includeNewFormat) && HasDifficulty(r[i], difficulty)
    ensures forall i :: (0 <= i < |AllScenarios(c, includeNewFormat)| &&
                          HasDifficulty(AllScenarios(c, includeNewFormat)[i], difficulty)) ==>
                         AllScenarios(c, includeNewFormat)[i] in r
  {
    Scenarios.FilterByDifficulty(AllScenarios(c, includeNewFormat), difficulty)
  }

  /** Including staged scenarios appends those of the difficulty after the traditional ones. */
  lemma FilterByDifficultyTraditionalFirst(c: Catalogue, difficulty: string)
    ensures FilterByDifficulty(c, difficulty, true) ==
      FilterByDifficulty(c, difficulty, false) + Scenarios.FilterByDifficulty(c.staged, difficulty)
  {
    FilterByDifficultyAppend(c.traditional, c.staged, difficulty);
  }

  /** The stages of a staged scenario, in `conversation_flow` key order. */
  function Flow(s: Scenario): seq<Stage>
  {
    s.conversationFlow.GetOr([])
  }

  function StageNames(flow: seq<Stage>): (names: seq<string>)
    ensures |names| == |flow|
    ensures forall i :: 0 <= i < |flow| ==> names[i] == flow[i].name
  {
    seq(|flow|, i requires 0 <= i < |flow| => flow[i].name)
  }

  /**
   * `get_random_question_from_scenario`: for a staged scenario, a random stage as a question-like
   * item (`None` when its flow is empty); otherwise a random question (`None` when it has none).
   */
  function GetRandomQuestion(c: Catalogue, id: string, pick: nat): (r: Option<Step>)
    ensures GetScenarioById(c, id).None? ==> r.None?
    ensures GetScenarioById(c, id).Some? && IsNewFormat(GetScenarioById(c, id).value) ==>
      (r.None? <==> |Flow(GetScenarioById(c, id).value)| == 0) &&
      (r.Some? ==> exists st :: st in Flow(GetScenarioById(c, id).value) && r.value == StageItem(st))
    ensures GetScenarioById(c, id).Some? && !IsNewFormat(GetScenarioById(c, id).value) ==>
      (r.None? <==> |GetScenarioById(c, id).value.questions.GetOr([])| == 0) &&
      (r.Some? ==> r.value.QuestionStep? && r.value.question in GetScenarioById(c, id).value.questions.value)
  {
    match GetScenarioById(c, id)
    case None => None
    case Some(s) =>
      if IsNewFormat(s) then
        var flow := Flow(s);
        if |flow| == 0 then None else Some(StageItem(Choose(flow, pick)))
      else
        var qs := s.questions.GetOr([]);
        if |qs| == 0 then None else Some(QuestionStep(Choose(qs, pick)))
  }

  /** Position of the first stage with the given name (`stages.index(name)`). */
  function StageIndex(flow: seq<Stage>, name: string): (r: Option<nat>)
    ensures r.Some? ==> r.value < |flow| && flow[r.value].name == name
    ensures r.Some? ==> forall j :: 0 <= j < r.value ==> flow[j].name != name
    ensures r.None? <==> forall j :: 0 <= j < |flow| ==> flow[j].name != name
  {
    FirstIndex(flow, (st: Stage) => st.name == name)
  }

  /**
   * `get_next_conversation_stage(id, current)`: `None` for an unknown or traditional scenario or
   * an empty flow; the first stage when `current` is `None`; otherwise the stage after `current`,
   * or `None` when `current` is the last stage or is not a stage of the flow.
   */
  function NextConversationStage(c: Catalogue, id: string, current: Option<string>): (r: Option<Step>)
    ensures GetScenarioById(c, id).None? ==> r.None?
    ensures GetScenarioById(c, id).Some? && !IsNewFormat(GetScenarioById(c, id).value) ==> r.None?
    ensures GetScenarioById(c, id).Some? && |Flow(GetScenarioById(c, id).value)| == 0 ==> r.None?
    ensures r.Some? ==> exists st :: st in Flow(GetScenarioById(c, id).value) && r.value == StageItem(st)
  {
    match GetScenarioById(c, id)
    case None => None
    case Some(s) =>
      if !IsNewFormat(s) then None
      else NextInFlow(Flow(s), current)
  }

  /** The stage-walking step on a flow. */
  function NextInFlow(flow: seq<Stage>, current: Option<string>): (r: Option<Step>)
    ensures |flow| == 0 ==> r.None?
    ensures current.None? && |flow| > 0 ==> r == Some(StageItem(flow[0]))
    ensures current.Some? && StageIndex(flow, current.value).None? ==> r.None?
    ensures r.Some? ==> exists st :: st in flow && r.value == StageItem(st)
  {
    if |flow| == 0 then None
    else match current
      case None => Some(StageItem(flow[0]))
      case Some(name) =>
        match StageIndex(flow, name)
        case None => None
        case Some(i) => if i + 1 < |flow| then Some(StageItem(flow[i + 1])) else None
  }

  /**
   * With distinct stage names, walking from `None` visits every stage of the flow once, in
   * order: the step after stage `i` is stage `i + 1`, and the step after the last is `None`.
   */
  lemma WalkVisitsEveryStageInOrder(flow: seq<Stage>, i: nat)
    requires Distinct(StageNames(flow))
    requires i < |flow|
    ensures NextInFlow(flow, None) == Some(StageItem(flow[0]))
    ensures i + 1 < |flow| ==> NextInFlow(flow, Some(flow[i].name)) == Some(StageItem(flow[i + 1]))
    ensures i + 1 == |flow| ==> NextInFlow(flow, Some(flow[i].name)).None?
  {
    forall j | 0 <= j < |flow| && j != i
      ensures flow[j].name != flow[i].name
    {
      assert StageNames(flow)[j] == flow[j].name && StageNames(flow)[i] == flow[i].name;
    }
    assert StageIndex(flow, flow[i].name) == Some(i);
  }

  /** Walking the flow `n` times from the start: the stages handed out, in order. */
  function Walk(flow: seq<Stage>, current: Option<string>, fuel: nat): seq<Step>
    decreases fuel
  {
    if fuel == 0 then []
    else match NextInFlow(flow, current)
      case None => []
      case Some(step) => [step] + Walk(flow, Some(step.stage), fuel - 1)
  }

  function StageItems(flow: seq<Stage>): (r: seq<Step>)
    ensures |r| == |flow|
    ensures forall i :: 0 <= i < |flow| ==> r[i] == StageItem(flow[i])
  {
    seq(|flow|, i requires 0 <= i < |flow| => StageItem(flow[i]))
  }

  /** Walking a flow with distinct stage names from the beginning hands out every stage exactly once, in order. */
  lemma {:induction false} WalkIsTheFlow(flow: seq<Stage>)
    requires Distinct(StageNames(flow))
    ensures Walk(flow, None, |flow| + 1) == StageItems(flow)
  {
    if |flow| > 0 {
      WalkVisitsEveryStageInOrder(flow, 0);
      WalkFrom(flow, 0);
      StageItemsFrom(flow, 0);
      assert StageItems(flow)[0..] == StageItems(flow);
    }
  }

  /** From stage `i`, the walk hands out the remaining stages in order and stops. */
  lemma {:induction false} WalkFrom(flow: seq<Stage>, i: nat)
    requires Distinct(StageNames(flow))
    requires i < |flow|
    ensures Walk(flow, Some(flow[i].name), |flow| - i) == StageItems(flow)[i + 1..]
    decreases |flow| - i
  {
    if i + 1 < |flow| {
      WalkFrom(flow, i + 1);
      WalkStep(flow, i);
      StageItemsFrom(flow, i + 1);
    } else {
      WalkVisitsEveryStageInOrder(flow, i);
    }
  }

  lemma StageItemsFrom(flow: seq<Stage>, j: nat)
    requires j < |flow|
    ensures StageItems(flow)[j..] == [StageItem(flow[j])] + StageItems(flow)[j + 1..]
  {
    var items := StageItems(flow);
    assert items[j..] == [items[j]] + items[j + 1..];
  }

  /** One step of the walk from stage `i`: stage `i + 1` is handed out and the walk goes on from it. */
  lemma WalkStep(flow: seq<Stage>, i: nat)
    requires Distinct(StageNames(flow))
    requires i + 1 < |flow|
    ensures Walk(flow, Some(flow[i].name), |flow| - i)
      == [StageItem(flow[i + 1])] + Walk(flow, Some(flow[i + 1].name), |flow| - (i + 1))
  {
    WalkVisitsEveryStageInOrder(flow, i);
    assert StageItem(flow[i + 1]).stage == flow[i + 1].name;
  }

  /** `get_scenario_context`, `get_customer_profile`: staged scenarios only. */
  function GetScenarioContext(c: Catalogue, id: string): (r: Option<map<string, string>>)
    ensures r.Some? <==> GetScenarioById(c, id).Some? && IsNewFormat(GetScenarioById(c, id).value)
    ensures r.Some? ==> r == GetScenarioById(c, id).value.context
  {
    match GetScenarioById(c, id)
    case Some(s) => if IsNewFormat(s) then s.context else None
    case None => None
  }

  function GetCustomerProfile(c: Catalogue, id: string): (r: Option<map<string, string>>)
    ensures r.Some? <==> GetScenarioById(c, id).Some? && IsNewFormat(GetScenarioById(c, id).value)
    ensures r.Some? ==> r == GetScenarioById(c, id).value.customerProfile
  {
    match GetScenarioById(c, id)
    case Some(s) => if IsNewFormat(s) then s.customerProfile else None
    case None => None
  }

  /** `get_evaluation_criteria`: staged scenarios only; a staged scenario without criteria gives `{}`. */
  function GetEvaluationCriteria(c: Catalogue, id: string): (r: Option<map<string, string>>)
    ensures r.Some? <==> GetScenarioById(c, id).Some? && IsNewFormat(GetScenarioById(c, id).value)
    ensures r.Some? ==> r.value == GetScenarioById(c, id).value.evaluationCriteria.GetOr(map[])
  {
    match GetScenarioById(c, id)
    case Some(s) => if IsNewFormat(s) then Some(s.evaluationCriteria.GetOr(map[])) else None
    case None => None
  }

  /** The keys `add_scenario` insists on for the scenario's format. */
  predicate HasRequiredFields(s: Scenario)
  {
    if IsNewFormat(s) then s.id.Some? && s.title.Some? && s.description.Some?
    else ScenarioManager.HasRequiredFields(s)
  }

  /** Outcome of `save_scenarios()`: whether each of the two files was written. */
  datatype SaveFlags = SaveFlags(traditional: bool, staged: bool)

  /**
   * `add_scenario`: validated against the keys of its format, rejected when its id is taken in
   * either list, otherwise stamped `'1.0'` and appended to the list of its format; the result is
   * the save flag of that list.
   */
  function AddScenario(c: Catalogue, s: Scenario, saved: SaveFlags): (r: (Catalogue, bool))
    ensures !HasRequiredFields(s) || ScenarioManager.IdTaken(c.traditional + c.staged, s.id) ==> r == (c, false)
    ensures HasRequiredFields(s) && !ScenarioManager.IdTaken(c.traditional + c.staged, s.id) ==>
      if IsNewFormat(s) then r == (c.(staged := c.staged + [Stamped(s)]), saved.staged)
      else r == (c.(traditional := c.traditional + [Stamped(s)]), saved.traditional)
  {
    if !HasRequiredFields(s) || ScenarioManager.IdTaken(c.traditional + c.staged, s.id) then (c, false)
    else if IsNewFormat(s) then (c.(staged := c.staged + [Stamped(s)]), saved.staged)
    else (c.(traditional := c.traditional + [Stamped(s)]), saved.traditional)
  }

  /** A successfully added scenario is found by its id, whichever list it went to. */
  lemma AddThenGet(c: Catalogue, s: Scenario, saved: SaveFlags)
    requires HasRequiredFields(s) && !ScenarioManager.IdTaken(c.traditional + c.staged, s.id)
    ensures GetScenarioById(AddScenario(c, s, saved).0, s.id.value) == Some(Stamped(s))
  {
    var id := s.id.value;
    var all := c.traditional + c.staged;
    assert forall i :: 0 <= i < |all| ==> all[i].id != Some(id);
    if IsNewFormat(s) {
      AppendedFound(c.traditional, c.staged, Stamped(s), id);
    } else {
      assert forall i :: 0 <= i < |c.traditional| ==> all[i] == c.traditional[i];
      InsertedFound(c.traditional, c.staged, Stamped(s), id);
    }
  }

  /** A scenario whose id no traditional scenario has, appended to the traditional list, is what the lookup finds. */
  lemma InsertedFound(traditional: seq<Scenario>, staged: seq<Scenario>, x: Scenario, id: string)
    requires x.id == Some(id)
    requires forall i :: 0 <= i < |traditional| ==> traditional[i].id != Some(id)
    ensures GetScenarioById(Catalogue(traditional + [x], staged), id) == Some(x)
  {
    GetScenarioByIdIsFirstOverall(Catalogue(traditional + [x], staged), id);
    assert (traditional + [x]) + staged == traditional + ([x] + staged);
    FindByIdSkip(traditional, [x] + staged, id);
    FindByIdHead(x, staged, id);
  }

  /** A scenario whose id no earlier scenario has, appended to the staged list, is what the lookup finds. */
  lemma AppendedFound(traditional: seq<Scenario>, staged: seq<Scenario>, x: Scenario, id: string)
    requires x.id == Some(id)
    requires forall i :: 0 <= i < |traditional + staged| ==> (traditional + staged)[i].id != Some(id)
    ensures GetScenarioById(Catalogue(traditional, staged + [x]), id) == Some(x)
  {
    GetScenarioByIdIsFirstOverall(Catalogue(traditional, staged + [x]), id);
    assert traditional + (staged + [x]) == (traditional + staged) + [x];
    FindByIdSkip(traditional + staged, [x], id);
    FindByIdHead(x, [], id);
    assert [x] + [] == [x];
  }

  /** A lookup finds a scenario with the id at the front. */
  lemma FindByIdHead(x: Scenario, rest: seq<Scenario>, id: string)
    requires x.id == Some(id)
    ensures FindById([x] + rest, id) == Some(x)
  {
    FirstIndexShift([x] + rest, y => HasId(y, id));
  }

  /** Scenarios without the id are passed over by a lookup. */
  lemma FindByIdSkip(a: seq<Scenario>, b: seq<Scenario>, id: string)
    requires forall i :: 0 <= i < |a| ==> a[i].id != Some(id)
    ensures FindById(a + b, id) == FindById(b, id)
  {
    FindFirstAppend(a, b, x => HasId(x, id));
    assert FindById(a, id).None?;
  }

  /**
   * `update_scenario`: the first match in the traditional list is updated and the traditional
   * save flag returned; failing that, the first match in the staged list and its flag; otherwise
   * nothing changes and the result is `False`.
   */
  function UpdateScenario(c: Catalogue, id: string, patch: Scenario, saved: SaveFlags): (r: (Catalogue, bool))
    ensures IndexOfId(c.traditional, id).Some? ==>
      r == (c.(traditional := ScenarioManager.UpdateScenario(c.traditional, id, patch, saved.traditional).0), saved.traditional)
    ensures IndexOfId(c.traditional, id).None? && IndexOfId(c.staged, id).Some? ==>
      r == (c.(staged := ScenarioManager.UpdateScenario(c.staged, id, patch, saved.staged).0), saved.staged)
    ensures IndexOfId(c.traditional, id).None? && IndexOfId(c.staged, id).None? ==> r == (c, false)
  {
    if IndexOfId(c.traditional, id).Some? then
      var u := ScenarioManager.UpdateScenario(c.traditional, id, patch, saved.traditional);
      (c.(traditional := u.0), u.1)
    else if IndexOfId(c.staged, id).Some? then
      var u := ScenarioManager.UpdateScenario(c.staged, id, patch, saved.staged);
      (c.(staged := u.0), u.1)
    else (c, false)
  }
}

=== FILE: question_selection.dfy ===
/**
 * Choosing the next interview question. The questions not asked yet are listed to the model as
 * `ID: <id>, Question: <text>` lines; its answer is cleaned up to an id, and the first unasked
 * question with that id is taken, or the first unasked question when none has it.
 */
module QuestionSelection {
  import opened Wrappers
  import opened Text
  import opened Collections
  import opened Scenarios

  predicate NotAsked(asked: seq<string>, q: Question)
  {
    q.id !in asked
  }

  /** The questions whose id is not among the asked ids, in scenario order. */
  function Available(questions: seq<Question>, asked: seq<string>): (r: seq<Question>)
    ensures |r| <= |questions|
    ensures forall i :: 0 <= i < |r| ==> r[i] in questions && r[i].id !in asked
    ensures forall i :: 0 <= i < |questions| && questions[i].id !in asked ==> questions[i] in r
  {
    Filter(questions, q => NotAsked(asked, q))
  }

  /** The ids of a list of questions, in order. */
  function Ids(questions: seq<Question>): (r: seq<string>)
    ensures |r| == |questions|
    ensures forall i :: 0 <= i < |questions| ==> r[i] == questions[i].id
  {
    seq(|questions|, i requires 0 <= i < |questions| => questions[i].id)
  }

  /**
   * Asking questions in scenario order: once the first `m` questions are asked, the available
   * ones are exactly the rest, provided ids are distinct.
   */
  lemma AvailableAfterPrefix(questions: seq<Question>, m: nat)
    requires m <= |questions| && Distinct(Ids(questions))
    ensures Available(questions, Ids(questions[..m])) == questions[m..]
  {
    var asked := Ids(questions[..m]);
    var p := q => NotAsked(asked, q);
    assert questions == questions[..m] + questions[m..];
    FilterAppend(questions[..m], questions[m..], p);
    PrefixAsked(questions, m);
    FilterNone(questions[..m], p);
    SuffixUnasked(questions, m);
    FilterAll(questions[m..], p);
  }

  /** Each of the first `m` questions has its id among the first `m` ids. */
  lemma PrefixAsked(questions: seq<Question>, m: nat)
    requires m <= |questions|
    ensures forall i :: 0 <= i < m ==> !NotAsked(Ids(questions[..m]), questions[..m][i])
  {
    var asked := Ids(questions[..m]);
    forall i | 0 <= i < m
      ensures !NotAsked(asked, questions[..m][i])
    {
      assert asked[i] == questions[i].id;
    }
  }

  /** With distinct ids, none of the questions after the first `m` has its id among the first `m` ids. */
  lemma SuffixUnasked(questions: seq<Question>, m: nat)
    requires m <= |questions| && Distinct(Ids(questions))
    ensures forall i :: 0 <= i < |questions| - m ==> NotAsked(Ids(questions[..m]), questions[m..][i])
  {
    var asked := Ids(questions[..m]);
    forall i | 0 <= i < |questions| - m
      ensures NotAsked(asked, questions[m..][i])
    {
      forall j | 0 <= j < |asked|
        ensures asked[j] != questions[m + i].id
      {
        assert Ids(questions)[j] != Ids(questions)[m + i];
      }
    }
  }

  /** When every question before `i` has been asked and question `i` has not, question `i` is the first available. */
  lemma AvailableStartsAt(questions: seq<Question>, asked: seq<string>, i: nat)
    requires i < |questions| && questions[i].id !in asked
    requires forall j :: 0 <= j < i ==> questions[j].id in asked
    ensures |Available(questions, asked)| > 0 && Available(questions, asked)[0] == questions[i]
  {
    var p := q => NotAsked(asked, q);
    assert questions == questions[..i] + ([questions[i]] + questions[i + 1..]);
    FilterAppend(questions[..i], [questions[i]] + questions[i + 1..], p);
    FilterNone(questions[..i], p);
    FilterAppend([questions[i]], questions[i + 1..], p);
  }

  /** One line of the list of available questions shown to the model. */
  function QuestionLine(q: Question): string
  {
    "ID: " + q.id + ", Question: " + q.text
  }

  /** The list of available questions shown to the model: one line per question. */
  function AvailableQuestionsText(available: seq<Question>): (r: string)
    ensures |available| == 1 ==> r == QuestionLine(available[0])
  {
    Join("\n", seq(|available|, i requires 0 <= i < |available| => QuestionLine(available[i])))
  }

  /** `raw.strip().replace("ID: ", "").split(",")[0].strip()`: the id the model's answer names. */
  function CleanId(raw: string): (id: string)
    ensures ',' !in id && NoSpaceAtEnds(id)
  {
    var head := BeforeFirst(RemoveAll(Strip(raw), "ID: "), ',');
    StripKeepsChars(head);
    Strip(head)
  }

  predicate HasQuestionId(id: string, q: Question)
  {
    q.id == id
  }

  /**
   * The question the model's answer selects among at least two available ones: the first whose
   * id the cleaned answer equals, or the first available question.
   */
  function MatchAnswer(available: seq<Question>, raw: string): (r: Question)
    requires |available| > 0
    ensures r in available
    ensures r == available[0] || r.id == CleanId(raw)
    ensures (exists i :: 0 <= i < |available| && available[i].id == CleanId(raw)) ==> r.id == CleanId(raw)
  {
    match FindFirst(available, q => HasQuestionId(CleanId(raw), q))
    case Some(q) => q
    case None => available[0]
  }

  /** An id that survives the clean-up of its own question line. */
  predicate PlainId(id: string)
  {
    ',' !in id && !Occurs(id, "ID: ") && NoSpaceAtEnds(id)
  }

  /** The model is shown `ID: <id>, Question: <text>`; echoing such a line back names `<id>`. */
  lemma CleanIdOfQuestionLine(q: Question)
    requires PlainId(q.id)
    ensures CleanId(QuestionLine(q)) == q.id
  {
    var rest := "," + RStrip(" Question: " + q.text);
    assert |rest| > 0 && rest[0] == ',';
    StripQuestionLine(q);
    CleanIdOfStripped(QuestionLine(q), q.id, rest);
  }

  /** A line that strips to `ID: <id>,…` names `<id>`. */
  lemma CleanIdOfStripped(raw: string, id: string, rest: string)
    requires Strip(raw) == "ID: " + id + rest
    requires PlainId(id) && |rest| > 0 && rest[0] == ','
    ensures CleanId(raw) == id
  {
    RemoveIdPrefix(id, rest);
    CleanIdOfRemoved(raw, id, RemoveAll(rest, "ID: "));
  }

  /** Once the `ID: ` markers are gone, the clean-up keeps what precedes the first comma. */
  lemma CleanIdOfRemoved(raw: string, id: string, tail: string)
    requires RemoveAll(Strip(raw), "ID: ") == id + tail
    requires ',' !in id && NoSpaceAtEnds(id) && |tail| > 0 && tail[0] == ','
    ensures CleanId(raw) == id
  {
    BeforeFirstAt(id, tail, ',');
    StripOfTrimmed(id);
  }

  /** Stripping a question line only trims the end of the question text. */
  lemma StripQuestionLine(q: Question)
    ensures Strip(QuestionLine(q)) == "ID: " + q.id + ("," + RStrip(" Question: " + q.text))
  {
    var head := "ID: " + q.id + ",";
    var tail := " Question: " + q.text;
    assert QuestionLine(q) == head + tail;
    StripKeepsHead(head, tail);
    Regroup("ID: " + q.id, ",", RStrip(tail));
  }

  /** Removing `ID: ` from `ID: <id>,…` leaves the id followed by what is left of `,…`. */
  lemma RemoveIdPrefix(id: string, rest: string)
    requires !Occurs(id, "ID: ") && |rest| > 0 && rest[0] == ','
    ensures RemoveAll("ID: " + id + rest, "ID: ") == id + RemoveAll(rest, "ID: ")
    ensures |RemoveAll(rest, "ID: ")| > 0 && RemoveAll(rest, "ID: ")[0] == ','
  {
    var a := "ID: " + id;
    RemoveAllAppend(a, rest, "ID: ");
    RemoveAllDropMatch(a, [], "ID: ");
    assert a[4..] == id;
    assert a + [] == a;
    RemoveAllAbsent(id, "ID: ");
    if |rest| >= 4 {
      assert rest[..4] != "ID: " by { assert rest[..4][0] == ','; }
    }
  }

  /** `split(sep)[0]` stops at the first separator. */
  lemma {:induction false} BeforeFirstAt(a: string, b: string, sep: char)
    requires sep !in a && |b| > 0 && b[0] == sep
    ensures BeforeFirst(a + b, sep) == a
  {
    if |a| > 0 {
      assert (a + b)[1..] == a[1..] + b;
      BeforeFirstAt(a[1..], b, sep);
      assert a == [a[0]] + a[1..];
    } else {
      assert a + b == b;
    }
  }

  /**
   * When the available questions have distinct plain ids and the model answers with one of the
   * lines it was shown, that question is selected.
   */
  lemma MatchEchoedLine(available: seq<Question>, k: nat)
    requires k < |available| && Distinct(Ids(available)) && PlainId(available[k].id)
    ensures MatchAnswer(available, QuestionLine(available[k])) == available[k]
  {
    CleanIdOfQuestionLine(available[k]);
    MatchUniqueId(available, QuestionLine(available[k]), k);
  }

  /** An answer naming the id of exactly one available question selects that question. */
  lemma MatchUniqueId(available: seq<Question>, raw: string, k: nat)
    requires k < |available| && Distinct(Ids(available)) && available[k].id == CleanId(raw)
    ensures MatchAnswer(available, raw) == available[k]
  {
    var id := CleanId(raw);
    var r := MatchAnswer(available, raw);
    assert r.id == id by {
      assert 0 <= k < |available| && available[k].id == id;
    }
    SameIdSameQuestion(available, r, k);
  }

  /** With distinct ids, the available question carrying question `k`'s id is question `k`. */
  lemma SameIdSameQuestion(available: seq<Question>, r: Question, k: nat)
    requires k < |available| && Distinct(Ids(available))
    requires r in available && r.id == available[k].id
    ensures r == available[k]
  {
    var i :| 0 <= i < |available| && available[i] == r;
    assert Ids(available)[i] == Ids(available)[k];
  }
}

=== FILE: scenario_manager.dfy ===
/**
 * The scenario catalogue of traditional (question-list) scenarios: loading, lookup, random
 * selection, filtering, adding and updating. The catalogue is the list held in memory; every
 * operation takes it and, when it changes it, returns the new list.
 */
module ScenarioManager {
  import opened Wrappers
  import opened Text
  import opened Collections
  import opened Scenarios

  /** What reading the scenario file produced: nothing usable, or a JSON object whose `scenarios` key may be absent. */
  datatype LoadFile = Unreadable | Parsed(scenarios: Option<seq<Scenario>>)

  /** A scenario read from the file gets version `'1.0'` when it has none. */
  function WithDefaultVersion(s: Scenario): (r: Scenario)
    ensures r.version == Some(s.version.GetOr(DefaultVersion))
    ensures r.(version := s.version) == s
  {
    if s.version.Some? then s else s.(version := Some(DefaultVersion))
  }

  /**
   * `load_scenarios`: the file's `scenarios` list (default `[]`) with missing versions set to
   * `'1.0'`; any failure to read or parse leaves an empty catalogue.
   */
  function LoadScenarios(file: LoadFile): (r: seq<Scenario>)
    ensures file.Unreadable? || file.scenarios.None? ==> r == []
    ensures file.Parsed? && file.scenarios.Some? ==> |r| == |file.scenarios.value|
    ensures file.Parsed? && file.scenarios.Some? ==>
      forall i :: 0 <= i < |r| ==> r[i] == WithDefaultVersion(file.scenarios.value[i])
  {
    match file
    case Unreadable => []
    case Parsed(None) => []
    case Parsed(Some(ss)) => seq(|ss|, i requires 0 <= i < |ss| => WithDefaultVersion(ss[i]))
  }

  /** Every loaded scenario has a version, and loading changes nothing but versions. */
  lemma LoadedScenariosHaveVersions(file: LoadFile)
    ensures forall i :: 0 <= i < |LoadScenarios(file)| ==> LoadScenarios(file)[i].version.Some?
    ensures file.Parsed? && file.scenarios.Some? ==>
      forall i :: 0 <= i < |LoadScenarios(file)| ==>
        LoadScenarios(file)[i].(version := file.scenarios.value[i].version) == file.scenarios.value[i]
  {
  }

  /** `get_scenario_by_id`: the first scenario whose `id` key equals the requested id. */
  function GetScenarioById(catalogue: seq<Scenario>, id: string): (r: Option<Scenario>)
    ensures r.Some? ==> r.value in catalogue && r.value.id == Some(id)
    ensures r.Some? ==> exists i :: 0 <= i < |catalogue| && catalogue[i] == r.value &&
                          (forall j :: 0 <= j < i ==> catalogue[j].id != Some(id))
    ensures r.None? <==> forall i :: 0 <= i < |catalogue| ==> catalogue[i].id != Some(id)
  {
    match IndexOfId(catalogue, id)
    case None => None
    case Some(i) => Some(catalogue[i])
  }

  /** `select_random_scenario`: `None` exactly for an empty catalogue, otherwise one of its scenarios. */
  function SelectRandomScenario(catalogue: seq<Scenario>, pick: nat): (r: Option<Scenario>)
    ensures r.None? <==> |catalogue| == 0
    ensures r.Some? ==> r.value in catalogue
  {
    if |catalogue| == 0 then None else Some(Choose(catalogue, pick))
  }

  /** `select_random_scenarios(count)`: up to `count` distinct draws from the catalogue. */
  function SelectRandomScenarios(catalogue: seq<Scenario>, count: int, draws: seq<nat>): (r: Result<seq<Scenario>>)
    ensures |catalogue| == 0 ==> r == Ok([])
    ensures |catalogue| > 0 && count < 0 ==> r.Err?
    ensures r.Ok? && |catalogue| > 0 ==> |r.value| == if count < |catalogue| then count else |catalogue|
    ensures r.Ok? ==> multiset(r.value) <= multiset(catalogue)
    ensures |catalogue| > 0 && count >= 0 && AllHaveIds(catalogue) ==> r.Ok?
  {
    SampleScenarios(catalogue, count, draws)
  }

  /** `get_random_question_from_scenario`: a question of the scenario, `None` when it is unknown or has none. */
  function GetRandomQuestion(catalogue: seq<Scenario>, id: string, pick: nat): (r: Option<Question>)
    ensures r.None? <==>
      GetScenarioById(catalogue, id).None? || |GetScenarioById(catalogue, id).value.questions.GetOr([])| == 0
    ensures r.Some? ==> r.value in GetScenarioById(catalogue, id).value.questions.value
  {
    match GetScenarioById(catalogue, id)
    case None => None
    case Some(s) =>
      var qs := s.questions.GetOr([]);
      if |qs| == 0 then None else Some(Choose(qs, pick))
  }

  /** The keys `add_scenario` insists on, in the order it checks them. */
  predicate HasRequiredFields(s: Scenario)
  {
    s.id.Some? && s.title.Some? && s.description.Some? && s.questions.Some?
  }

  predicate IdTaken(catalogue: seq<Scenario>, id: Option<string>)
  {
    exists i :: 0 <= i < |catalogue| && catalogue[i].id == id
  }

  /**
   * `add_scenario`: rejected (catalogue unchanged, `False`) when a required key is missing or the
   * id is taken; otherwise the scenario, stamped with version `'1.0'`, is appended and the result
   * is whether saving the file succeeded.
   */
  function AddScenario(catalogue: seq<Scenario>, s: Scenario, saved: bool): (r: (seq<Scenario>, bool))
    ensures !HasRequiredFields(s) || IdTaken(catalogue, s.id) ==> r == (catalogue, false)
    ensures HasRequiredFields(s) && !IdTaken(catalogue, s.id) ==> r.0 == catalogue + [Stamped(s)] && r.1 == saved
  {
    if !HasRequiredFields(s) || IdTaken(catalogue, s.id) then (catalogue, false)
    else (catalogue + [Stamped(s)], saved)
  }

  /** No two scenarios of the catalogue share an id. */
  predicate UniqueIds(catalogue: seq<Scenario>)
  {
    forall i, j :: 0 <= i < j < |catalogue| ==> catalogue[i].id != catalogue[j].id
  }

  /** Adding keeps ids unique, and the added scenario is then what a lookup by its id finds. */
  lemma AddScenarioKeepsIdsUnique(catalogue: seq<Scenario>, s: Scenario, saved: bool)
    requires UniqueIds(catalogue)
    ensures UniqueIds(AddScenario(catalogue, s, saved).0)
    ensures AddScenario(catalogue, s, saved).0 != catalogue ==>
      GetScenarioById(AddScenario(catalogue, s, saved).0, s.id.value) == Some(Stamped(s))
  {
    var r := AddScenario(catalogue, s, saved).0;
    if r != catalogue {
      var added := catalogue + [Stamped(s)];
      assert forall i :: 0 <= i < |catalogue| ==> added[i].id != Some(s.id.value);
      FindFirstAppend(catalogue, [Stamped(s)], x => HasId(x, s.id.value));
      assert FindById(catalogue, s.id.value).None?;
    }
  }

  /** The version an update gives a scenario: the bump of its current one (default `'1.0'`). */
  function NextVersion(s: Scenario): string
  {
    BumpVersion(s.version.GetOr(DefaultVersion))
  }

  /** The record that replaces a scenario on update: the patch applied, then the new version. */
  function Updated(s: Scenario, patch: Scenario): (r: Scenario)
    ensures r.version == Some(NextVersion(s))
    ensures patch.id.Some? ==> r.id == patch.id
    ensures patch.id.None? ==> r.id == s.id
  {
    Merge(s, patch).(version := Some(NextVersion(s)))
  }

  /**
   * `update_scenario`: the first scenario with the id gets the patch and a bumped version, the
   * others stay as they are, and the result is whether saving succeeded; an unknown id changes
   * nothing and gives `False`.
   */
  function UpdateScenario(catalogue: seq<Scenario>, id: string, patch: Scenario, saved: bool): (r: (seq<Scenario>, bool))
    ensures |r.0| == |catalogue|
    ensures IndexOfId(catalogue, id).None? ==> r == (catalogue, false)
    ensures IndexOfId(catalogue, id).Some? ==> r.1 == saved
    ensures IndexOfId(catalogue, id).Some? ==>
      var i := IndexOfId(catalogue, id).value;
      r.0[i] == Updated(catalogue[i], patch) &&
      forall j :: 0 <= j < |catalogue| && j != i ==> r.0[j] == catalogue[j]
  {
    match IndexOfId(catalogue, id)
    case None => (catalogue, false)
    case Some(i) => (ReplaceAt(catalogue, i, Updated(catalogue[i], patch)), saved)
  }

  /** An update that leaves the id alone is seen by the next lookup, with the new version. */
  lemma UpdateThenGet(catalogue: seq<Scenario>, id: string, patch: Scenario, saved: bool)
    requires patch.id.None?
    requires GetScenarioById(catalogue, id).Some?
    ensures GetScenarioById(UpdateScenario(catalogue, id, patch, saved).0, id)
      == Some(Updated(GetScenarioById(catalogue, id).value, patch))
  {
    var i := IndexOfId(catalogue, id).value;
    var r := UpdateScenario(catalogue, id, patch, saved).0;
    assert r[i].id == Some(id);
    assert forall j :: 0 <= j < i ==> r[j].id != Some(id);
    assert IndexOfId(r, id) == Some(i);
  }

  /** A scenario whose version reads `major.minor` reads `major.(minor + 1)` after an update. */
  lemma UpdateBumpsMinor(s: Scenario, patch: Scenario, major: string, minor: nat)
    requires '.' !in major
    requires s.version == Some(major + "." + NatToString(minor))
    ensures Updated(s, patch).version == Some(major + "." + NatToString(minor + 1))
  {
    BumpVersionIncrements(major, minor);
  }
}

=== FILE: scenarios.dfy ===
/**
 * Interview scenarios as stored in the scenario JSON files.
 *
 * A scenario is a JSON object whose keys may or may not be present, so each field is an
 * `Option`. Two shapes exist: a traditional scenario carries a list of `questions`; a
 * staged ("new format") scenario carries a `context`, a `customer_profile` and a
 * `conversation_flow` whose keys, in order, are the stages of the conversation.
 */
module Scenarios {
  import opened Wrappers
  import opened Text
  import opened Collections

  datatype Question = Question(id: string, text: string)

  /** One entry of `conversation_flow`: the stage name (its key) and its `agent_goals` (default `[]`). */
  datatype Stage = Stage(name: string, agentGoals: seq<string>)

  datatype Scenario = Scenario(
    id: Option<string>,
    title: Option<string>,
    description: Option<string>,
    difficulty: Option<string>,
    topics: Option<seq<string>>,
    version: Option<string>,
    questions: Option<seq<Question>>,
    context: Option<map<string, string>>,
    customerProfile: Option<map<string, string>>,
    conversationFlow: Option<seq<Stage>>,
    evaluationCriteria: Option<map<string, string>>)

  /** A question-like item handed out for a step of a scenario: a real question or a stage. */
  datatype Step =
    | QuestionStep(question: Question)
    | StageStep(id: string, stage: string, agentGoals: seq<string>, prompt: string)

  const DefaultVersion: string := "1.0"

  /** A scenario is staged when all three of `context`, `customer_profile`, `conversation_flow` are keys. */
  predicate IsNewFormat(s: Scenario)
  {
    s.context.Some? && s.customerProfile.Some? && s.conversationFlow.Some?
  }

  /** The question-like dictionary built for a stage of the conversation flow. */
  function StageItem(st: Stage): (r: Step)
    ensures r.StageStep? && r.stage == st.name && r.agentGoals == st.agentGoals
    ensures r.id == "stage_" + st.name
    ensures r.prompt == "Handle the " + st.name + " stage of the conversation"
  {
    StageStep("stage_" + st.name, st.name, st.agentGoals, "Handle the " + st.name + " stage of the conversation")
  }

  predicate HasId(s: Scenario, id: string)
  {
    s.id == Some(id)
  }

  /** `for s in pool: if s.get('id') == id: return s`, else `None`. */
  function FindById(pool: seq<Scenario>, id: string): (r: Option<Scenario>)
    ensures r.Some? ==> r.value in pool && r.value.id == Some(id)
    ensures r.None? <==> forall i :: 0 <= i < |pool| ==> pool[i].id != Some(id)
  {
    FindFirst(pool, s => HasId(s, id))
  }

  /** Index of the first scenario with the given id. */
  function IndexOfId(pool: seq<Scenario>, id: string): (r: Option<nat>)
    ensures r.Some? ==> r.value < |pool| && pool[r.value].id == Some(id)
    ensures r.Some? ==> forall j :: 0 <= j < r.value ==> pool[j].id != Some(id)
    ensures r.None? <==> forall j :: 0 <= j < |pool| ==> pool[j].id != Some(id)
  {
    FirstIndex(pool, s => HasId(s, id))
  }

  /** `random.choice(pool)`, with the random index supplied by the caller. */
  function Choose<T>(pool: seq<T>, pick: nat): (r: T)
    requires |pool| > 0
    ensures r in pool
  {
    pool[pick % |pool|]
  }

  /**
   * `random.sample(pool, k)`: `k` draws without replacement; the caller supplies the random
   * draws (a missing draw counts as 0).
   */
  function Sample<T>(pool: seq<T>, k: nat, draws: seq<nat>): (r: seq<T>)
    requires k <= |pool|
    ensures |r| == k
    ensures multiset(r) <= multiset(pool)
    decreases k
  {
    if k == 0 then []
    else
      var i := (if |draws| > 0 then draws[0] else 0) % |pool|;
      var rest := pool[..i] + pool[i + 1..];
      assert pool == pool[..i] + [pool[i]] + pool[i + 1..];
      [pool[i]] + Sample(rest, k - 1, if |draws| > 0 then draws[1..] else [])
  }

  /** Every scenario drawn by a sample carries an id (the log line joins the ids as strings). */
  predicate AllHaveIds(s: seq<Scenario>)
  {
    forall i :: 0 <= i < |s| ==> s[i].id.Some?
  }

  /**
   * `select_random_scenarios(count)` over a pool: `[]` for an empty pool, otherwise
   * `random.sample(pool, min(count, len(pool)))`; a negative count is rejected by
   * `random.sample`, and a drawn scenario without an id breaks the `', '.join` of the log line.
   */
  function SampleScenarios(pool: seq<Scenario>, count: int, draws: seq<nat>): (r: Result<seq<Scenario>>)
    ensures |pool| == 0 ==> r == Ok([])
    ensures |pool| > 0 && count < 0 ==> r.Err?
    ensures r.Ok? ==> |r.value| == (if count < |pool| then count else |pool|) || |pool| == 0
    ensures r.Ok? ==> multiset(r.value) <= multiset(pool)
    ensures r.Ok? && |pool| > 0 ==> AllHaveIds(r.value)
    ensures r.Err? <==> |pool| > 0 && (count < 0 || !AllHaveIds(Sample(pool, if count < |pool| then count else |pool|, draws)))
    ensures |pool| > 0 && count >= 0 && AllHaveIds(pool) ==> r.Ok?
  {
    if |pool| == 0 then Ok([])
    else
      var k := if count < |pool| then count else |pool|;
      if k < 0 then Err("Sample larger than population or is negative")
      else
        var chosen := Sample(pool, k, draws);
        DrawnKeepIds(chosen, pool);
        if AllHaveIds(chosen) then Ok(chosen)
        else Err("sequence item: expected str instance, NoneType found")
  }

  /** Drawing from a pool whose scenarios all carry ids draws only scenarios with ids. */
  lemma DrawnKeepIds(drawn: seq<Scenario>, pool: seq<Scenario>)
    requires multiset(drawn) <= multiset(pool)
    ensures AllHaveIds(pool) ==> AllHaveIds(drawn)
  {
    if AllHaveIds(pool) {
      forall i | 0 <= i < |drawn|
        ensures drawn[i].id.Some?
      {
        assert drawn[i] in multiset(drawn);
        var j :| 0 <= j < |pool| && pool[j] == drawn[i];
      }
    }
  }

  /** `scenario.get('topics', [])` contains one of the tags. */
  predicate MatchesAnyTag(s: Scenario, tags: seq<string>)
  {
    exists t :: t in tags && t in s.topics.GetOr([])
  }

  /** Keeps, in order, the scenarios one of whose topics is a requested tag; no tags keeps all. */
  function FilterByTags(pool: seq<Scenario>, tags: seq<string>): (r: seq<Scenario>)
    ensures |tags| == 0 ==> r == pool
    ensures |tags| > 0 ==> forall i :: 0 <= i < |r| ==> r[i] in pool && MatchesAnyTag(r[i], tags)
    ensures |tags| > 0 ==> forall i :: 0 <= i < |pool| && MatchesAnyTag(pool[i], tags) ==> pool[i] in r
  {
    if |tags| == 0 then pool else Filter(pool, s => MatchesAnyTag(s, tags))
  }

  predicate HasDifficulty(s: Scenario, difficulty: string)
  {
    s.difficulty == Some(difficulty)
  }

  /** Keeps, in order, the scenarios whose `difficulty` key equals the requested level. */
  function FilterByDifficulty(pool: seq<Scenario>, difficulty: string): (r: seq<Scenario>)
    ensures forall i :: 0 <= i < |r| ==> r[i] in pool && r[i].difficulty == Some(difficulty)
    ensures forall i :: 0 <= i < |pool| && pool[i].difficulty == Some(difficulty) ==> pool[i] in r
  {
    Filter(pool, s => HasDifficulty(s, difficulty))
  }

  /** Both filters keep the catalogue's order: filtering two catalogues joined is joining their filtrates. */
  lemma FilterByTagsAppend(a: seq<Scenario>, b: seq<Scenario>, tags: seq<string>)
    ensures FilterByTags(a + b, tags) == FilterByTags(a, tags) + FilterByTags(b, tags)
  {
    if |tags| > 0 {
      FilterAppend(a, b, s => MatchesAnyTag(s, tags));
    }
  }

  lemma FilterByDifficultyAppend(a: seq<Scenario>, b: seq<Scenario>, difficulty: string)
    ensures FilterByDifficulty(a + b, difficulty) == FilterByDifficulty(a, difficulty) + FilterByDifficulty(b, difficulty)
  {
    FilterAppend(a, b, s => HasDifficulty(s, difficulty));
  }

  /**
   * Version after an update: `major, minor = version.split('.')` then `f"{major}.{int(minor) + 1}"`;
   * a `ValueError` (not exactly one dot, or a minor part `int` rejects) gives `'1.1'`.
   */
  function BumpVersion(v: string): (r: string)
    ensures CountChar(v, '.') != 1 ==> r == "1.1"
  {
    if CountChar(v, '.') != 1 then "1.1"
    else
      var dot := IndexOf(v, '.');
      BumpWith(v, dot, ParseInt(v[dot + 1..]))
  }

  /** The bump of a version whose only dot is at `dot`, given what the text after it parses to. */
  function BumpWith(v: string, dot: nat, parsed: Option<int>): (r: string)
    requires dot < |v|
    ensures parsed.None? ==> r == "1.1"
    ensures parsed.Some? && parsed.value >= -1 ==> r == v[..dot] + "." + NatToString(parsed.value + 1)
  {
    match parsed
    case None => "1.1"
    case Some(minor) => v[..dot] + "." + IntToString(minor + 1)
  }

  /** A well-formed `major.minor` version moves to `major.(minor + 1)`. */
  lemma BumpVersionIncrements(major: string, minor: nat)
    requires '.' !in major
    ensures BumpVersion(major + "." + NatToString(minor)) == major + "." + NatToString(minor + 1)
  {
    var digits := NatToString(minor);
    var v := major + "." + digits;
    assert '.' !in digits by {
      forall i | 0 <= i < |digits| ensures digits[i] != '.' {
        assert IsDigit(digits[i]);
      }
    }
    SplitAtOnlyDot(major, digits);
    ParseNatToString(minor);
    assert ParseInt(v[|major| + 1..]) == Some(minor);
    assert BumpVersion(v) == BumpWith(v, |major|, Some(minor));
  }

  /** `major.minor` with no dot in either part splits at that one dot into the two parts. */
  lemma SplitAtOnlyDot(major: string, minor: string)
    requires '.' !in major && '.' !in minor
    ensures var v := major + "." + minor;
      && CountChar(v, '.') == 1 && IndexOf(v, '.') == |major|
      && v[..|major|] == major && v[|major| + 1..] == minor
  {
    var v := major + "." + minor;
    assert v == major + ("." + minor);
    CountSplit(major, "." + minor, '.');
    CountSplit(".", minor, '.');
    IndexOfAfter(major, "." + minor);
  }

  lemma {:induction false} IndexOfAfter(head: string, rest: string)
    requires '.' !in head && |rest| > 0 && rest[0] == '.'
    ensures '.' in head + rest && IndexOf(head + rest, '.') == |head|
  {
    assert (head + rest)[|head|] == '.';
    if |head| > 0 {
      assert (head + rest)[1..] == head[1..] + rest;
      IndexOfAfter(head[1..], rest);
    }
  }

  /** A field after `dict.update`: the patch's value when the patch has the key, the stored one otherwise. */
  predicate Merged<T(==)>(stored: Option<T>, patched: Option<T>, result: Option<T>)
  {
    && (patched.Some? ==> result == patched)
    && (patched.None? ==> result == stored)
  }

  /** `scenario.update(updates)`: every key present in the patch overwrites the scenario's. */
  function Merge(s: Scenario, patch: Scenario): (r: Scenario)
    ensures Merged(s.id, patch.id, r.id) && Merged(s.title, patch.title, r.title)
    ensures Merged(s.description, patch.description, r.description)
    ensures Merged(s.difficulty, patch.difficulty, r.difficulty) && Merged(s.topics, patch.topics, r.topics)
    ensures Merged(s.version, patch.version, r.version) && Merged(s.questions, patch.questions, r.questions)
    ensures Merged(s.context, patch.context, r.context)
    ensures Merged(s.customerProfile, patch.customerProfile, r.customerProfile)
    ensures Merged(s.conversationFlow, patch.conversationFlow, r.conversationFlow)
    ensures Merged(s.evaluationCriteria, patch.evaluationCriteria, r.evaluationCriteria)
  {
    Scenario(
      Over(s.id, patch.id), Over(s.title, patch.title), Over(s.description, patch.description),
      Over(s.difficulty, patch.difficulty), Over(s.topics, patch.topics), Over(s.version, patch.version),
      Over(s.questions, patch.questions), Over(s.context, patch.context),
      Over(s.customerProfile, patch.customerProfile), Over(s.conversationFlow, patch.conversationFlow),
      Over(s.evaluationCriteria, patch.evaluationCriteria))
  }

  function Over<T>(current: Option<T>, patched: Option<T>): (r: Option<T>)
    ensures patched.Some? ==> r == patched
    ensures patched.None? ==> r == current
  {
    if patched.Some? then patched else current
  }

  /** An empty patch changes nothing. */
  lemma MergeEmpty(s: Scenario)
    ensures Merge(s, EmptyPatch) == s
  {
  }

  const EmptyPatch: Scenario := Scenario(None, None, None, None, None, None, None, None, None, None, None)

  /** Replaces element `i` of a sequence. */
  function ReplaceAt<T>(s: seq<T>, i: nat, x: T): (r: seq<T>)
    requires i < |s|
    ensures |r| == |s| && r[i] == x
    ensures forall j :: 0 <= j < |s| && j != i ==> r[j] == s[j]
  {
    s[i := x]
  }

  /** The record a scenario gets when it is appended by `add_scenario`: version reset to `'1.0'`. */
  function Stamped(s: Scenario): (r: Scenario)
    ensures r.version == Some(DefaultVersion)
    ensures r.(version := s.version) == s
  {
    s.(version := Some(DefaultVersion))
  }
}

=== FILE: storage.dfy ===
/**
 * The interview store as the request handlers use it: an append-only journal of writes. A
 * session is identified by the position of the write that created it, which makes every new
 * session id fresh; the queries the handlers make — a session's record, its status, its stored
 * answers in storage order — are read back from the writes that follow that creation.
 */
module Storage {
  import opened Wrappers
  import opened Collections
  import opened Evaluation

  type SessionId = nat

  /** Candidate information attached to a session. */
  type Metadata = Dict<string, string>

  datatype Write =
    | SessionCreated(scenarioId: string, metadata: Option<Metadata>)
    | StatusSet(session: SessionId, status: string)
    | ResponseStored(session: SessionId, questionId: string, text: string)
    | DetailedStored(session: SessionId, questionId: string, evaluation: DetailedEvaluation)
    | OverallStored(session: SessionId, overall: OverallEvaluation)
    | ReportStored(session: SessionId, report: Report)

  type Store = seq<Write>

  /** A session row: its scenario, its status and its metadata (`{}` when none was given). */
  datatype SessionRecord = SessionRecord(scenarioId: string, status: string, metadata: Metadata)

  /** The status a new session starts with. */
  const InitialStatus: string := "started"

  /** The write concerns an existing session (creations concern none). */
  predicate About(w: Write, id: SessionId)
  {
    !w.SessionCreated? && w.session == id
  }

  /** The writes made after session `id` was created. */
  function After(st: Store, id: SessionId): (ws: seq<Write>)
    ensures id < |st| ==> ws == st[id + 1..]
    ensures id >= |st| ==> ws == []
  {
    if id < |st| then st[id + 1..] else []
  }

  /** The last status written among `ws` for the session, `default` when there is none. */
  function LastStatus(ws: seq<Write>, id: SessionId, default: string): string
  {
    if |ws| == 0 then default
    else
      var w := ws[|ws| - 1];
      if w.StatusSet? && w.session == id then w.status else LastStatus(ws[..|ws| - 1], id, default)
  }

  /** The answers stored among `ws` for the session, as (question id, text), in storage order. */
  function ResponsesIn(ws: seq<Write>, id: SessionId): (r: Dict<string, string>)
    ensures |r| <= |ws|
  {
    if |ws| == 0 then []
    else
      var w := ws[|ws| - 1];
      ResponsesIn(ws[..|ws| - 1], id) + (if w.ResponseStored? && w.session == id then [(w.questionId, w.text)] else [])
  }

  /** `get_session`: the session's row, `None` for an id no creation write has. */
  function GetSession(st: Store, id: SessionId): (r: Option<SessionRecord>)
    ensures r.Some? <==> id < |st| && st[id].SessionCreated?
    ensures r.Some? ==> r.value.scenarioId == st[id].scenarioId && r.value.metadata == st[id].metadata.GetOr([])
  {
    if id < |st| && st[id].SessionCreated? then
      Some(SessionRecord(st[id].scenarioId, LastStatus(After(st, id), id, InitialStatus), st[id].metadata.GetOr([])))
    else None
  }

  /** `get_session_responses`: the session's stored answers in storage order. */
  function Responses(st: Store, id: SessionId): Dict<string, string>
  {
    ResponsesIn(After(st, id), id)
  }

  /** `after` is `st` followed only by writes about session `id`. */
  predicate AppendsFor(st: Store, after: Store, id: SessionId)
  {
    |after| >= |st| && after[..|st|] == st && forall i :: |st| <= i < |after| ==> About(after[i], id)
  }

  lemma AppendsForTrans(a: Store, b: Store, c: Store, id: SessionId)
    requires AppendsFor(a, b, id) && AppendsFor(b, c, id)
    ensures AppendsFor(a, c, id)
  {
    assert c[..|a|] == c[..|b|][..|a|];
    assert forall i :: |a| <= i < |b| ==> c[i] == b[i];
  }

  /** Appending writes after a creation extends what is read after it. */
  lemma AfterAppend(st: Store, ws: seq<Write>, id: SessionId)
    requires id < |st|
    ensures After(st + ws, id) == After(st, id) + ws
  {
    assert (st + ws)[id + 1..] == st[id + 1..] + ws;
  }

  /** `create_session`: a fresh id whose row holds the scenario, status "started" and the metadata. */
  function CreateSession(st: Store, scenarioId: string, metadata: Option<Metadata>): (r: (Store, SessionId))
    ensures r.0 == st + [SessionCreated(scenarioId, metadata)]
    ensures GetSession(st, r.1).None?
    ensures GetSession(r.0, r.1) == Some(SessionRecord(scenarioId, InitialStatus, metadata.GetOr([])))
    ensures Responses(r.0, r.1) == []
  {
    (st + [SessionCreated(scenarioId, metadata)], |st|)
  }

  /** `update_session_status`: an update of a session that does not exist changes nothing visible. */
  function UpdateStatus(st: Store, id: SessionId, status: string): (r: Store)
    ensures |r| == |st| + 1 && r[..|st|] == st
    ensures GetSession(st, id).Some? ==> GetSession(r, id) == Some(GetSession(st, id).value.(status := status))
    ensures GetSession(st, id).None? ==> GetSession(r, id).None?
  {
    var r := st + [StatusSet(id, status)];
    if id < |st| then AfterAppend(st, [StatusSet(id, status)], id); assert After(r, id)[..|After(r, id)| - 1] == After(st, id); r
    else r
  }

  /** `store_response`: the answer joins the end of the session's stored answers. */
  function StoreResponse(st: Store, id: SessionId, questionId: string, text: string): (r: Store)
    ensures |r| == |st| + 1 && r[..|st|] == st
    ensures id < |st| ==> Responses(r, id) == Responses(st, id) + [(questionId, text)]
  {
    var r := st + [ResponseStored(id, questionId, text)];
    if id < |st| then AfterAppend(st, [ResponseStored(id, questionId, text)], id); assert After(r, id)[..|After(r, id)| - 1] == After(st, id); r
    else r
  }

  /** Writes that concern no session other than `id` leave everything read about the others as it was. */
  lemma {:induction false} OtherSessionsUnchanged(st: Store, ws: seq<Write>, id: SessionId, other: SessionId)
    requires other != id && other < |st|
    requires forall i :: 0 <= i < |ws| ==> About(ws[i], id)
    ensures GetSession(st + ws, other) == GetSession(st, other)
    ensures Responses(st + ws, other) == Responses(st, other)
    decreases |ws|
  {
    AfterAppend(st, ws, other);
    if |ws| > 0 {
      var init := ws[..|ws| - 1];
      OtherSessionsUnchanged(st, init, id, other);
      AfterAppend(st, init, other);
      assert (After(st, other) + ws)[..|ws| + |After(st, other)| - 1] == After(st, other) + init;
      assert About(ws[|ws| - 1], id);
    } else {
      assert st + ws == st;
    }
  }
}

=== FILE: summary.dfy ===
/**
 * The map-reduce summarisation graph: every content is summarised on its own, the summaries
 * become documents, documents are collapsed group by group while their total token count is
 * over the budget, and the final summary is asked for on the remaining documents joined by blank
 * lines. The token counter, the splitter into groups and every model call are parameters; the
 * graph library's scheduling is not modelled, and nothing here claims that collapsing ends.
 */
module Summary {
  import opened Wrappers
  import opened Text

  datatype Document = Document(pageContent: string)

  /** `SUMMARIZATION_CHUNK_SIZE` as configured by default. */
  const ChunkSize: nat := 1000

  /** The model's token count of a text. */
  type TokenCounter = string -> nat

  /** `length_function`: the token counts of the documents, summed. */
  function Length(docs: seq<Document>, tokens: TokenCounter): (n: nat)
    ensures |docs| == 0 ==> n == 0
    ensures |docs| > 0 ==> n >= tokens(docs[0].pageContent)
  {
    if |docs| == 0 then 0 else tokens(docs[0].pageContent) + Length(docs[1..], tokens)
  }

  /** The length of two runs of documents is the sum of their lengths. */
  lemma {:induction false} LengthAppend(a: seq<Document>, b: seq<Document>, tokens: TokenCounter)
    ensures Length(a + b, tokens) == Length(a, tokens) + Length(b, tokens)
    decreases |a|
  {
    if |a| == 0 {
      assert a + b == b;
    } else {
      assert (a + b)[1..] == a[1..] + b;
      LengthAppend(a[1..], b, tokens);
    }
  }

  /** A task the graph library runs: a node name and its input. */
  datatype Send = Send(node: string, content: string)

  /** `map_summaries`: one `generate_summary` task per content, in order. */
  function MapSummaries(contents: seq<string>): (r: seq<Send>)
    ensures |r| == |contents|
    ensures forall i :: 0 <= i < |r| ==> r[i].node == "generate_summary"
  {
    seq(|contents|, i requires 0 <= i < |contents| => Send("generate_summary", contents[i]))
  }

  /** The inputs of a batch of tasks. */
  function TaskInputs(tasks: seq<Send>): (r: seq<string>)
    ensures |r| == |tasks|
  {
    seq(|tasks|, i requires 0 <= i < |tasks| => tasks[i].content)
  }

  /** The tasks carry exactly the contents, one each, in order. */
  lemma MapSummariesCarriesContents(contents: seq<string>)
    ensures TaskInputs(MapSummaries(contents)) == contents
  {
  }

  /**
   * A call applied to each element in order: all results when every call answers, the first
   * failure otherwise.
   */
  function Each<A, B>(xs: seq<A>, f: A -> Oracle<B>): (r: Result<seq<B>>)
    ensures r.Ok? <==> forall i :: 0 <= i < |xs| ==> f(xs[i]).Answer?
    ensures r.Ok? ==> |r.value| == |xs| && forall i :: 0 <= i < |xs| ==> f(xs[i]) == Answer(r.value[i])
    ensures r.Err? ==> exists i :: 0 <= i < |xs| && f(xs[i]) == Raised(r.message)
    decreases |xs|
  {
    if |xs| == 0 then Ok([])
    else
      match f(xs[0])
      case Raised(m) => Err(m)
      case Answer(y) =>
        match Each(xs[1..], f)
        case Err(m) => assert forall i :: 0 <= i < |xs| - 1 ==> xs[1..][i] == xs[i + 1]; Err(m)
        case Ok(ys) =>
          assert forall i :: 1 <= i < |xs| ==> xs[i] == xs[1..][i - 1];
          Ok([y] + ys)
  }

  /**
   * The summaries the map phase accumulates: `generate_summary` answers one summary per task
   * and the state's reducer concatenates them, so there is one summary per content, in order.
   * A failing call fails the graph run.
   */
  function MapPhase(contents: seq<string>, mapChain: string -> Oracle<string>): (r: Result<seq<string>>)
    ensures r.Ok? ==> |r.value| == |contents|
    ensures r.Ok? ==> forall i :: 0 <= i < |contents| ==> mapChain(contents[i]) == Answer(r.value[i])
    ensures r.Err? <==> exists i :: 0 <= i < |contents| && mapChain(contents[i]).Raised?
  {
    Each(TaskInputs(MapSummaries(contents)), mapChain)
  }

  /** `collect_summaries`: each summary becomes one document, in order. */
  function CollectSummaries(summaries: seq<string>): (r: seq<Document>)
    ensures |r| == |summaries|
  {
    seq(|summaries|, i requires 0 <= i < |summaries| => Document(summaries[i]))
  }

  function PageContents(docs: seq<Document>): (r: seq<string>)
    ensures |r| == |docs|
  {
    seq(|docs|, i requires 0 <= i < |docs| => docs[i].pageContent)
  }

  /** Collecting loses nothing: the documents' texts are the summaries. */
  lemma CollectedTextsAreSummaries(summaries: seq<string>)
    ensures PageContents(CollectSummaries(summaries)) == summaries
  {
  }

  /** `split_list_of_docs`: groups of documents under a token budget, by the counter. */
  type Splitter = (seq<Document>, TokenCounter, nat) -> seq<seq<Document>>

  /**
   * `collapse_summaries`: the documents are split into groups under the budget and each group is
   * collapsed into one document by the reduce call, in group order.
   */
  function CollapseSummaries(
    collapsed: seq<Document>, tokens: TokenCounter, split: Splitter, collapse: seq<Document> -> Oracle<Document>)
    : (r: Result<seq<Document>>)
    ensures r.Ok? ==> |r.value| == |split(collapsed, tokens, ChunkSize)|
    ensures r.Ok? ==> forall i :: 0 <= i < |r.value| ==>
      collapse(split(collapsed, tokens, ChunkSize)[i]) == Answer(r.value[i])
    ensures r.Err? <==> exists g :: g in split(collapsed, tokens, ChunkSize) && collapse(g).Raised?
  {
    var groups := split(collapsed, tokens, ChunkSize);
    var r := Each(groups, collapse);
    assert r.Err? ==> exists i :: 0 <= i < |groups| && collapse(groups[i]).Raised?;
    r
  }

  /** The nodes of the summarisation graph. */
  datatype Node = GenerateSummary | CollectSummariesNode | CollapseSummariesNode | GenerateFinalSummary | End

  /**
   * `should_collapse`: collapse again while the documents together are over the budget, produce
   * the final summary otherwise.
   */
  function ShouldCollapse(collapsed: seq<Document>, tokens: TokenCounter): (r: Node)
    ensures r == CollapseSummariesNode || r == GenerateFinalSummary
  {
    if Length(collapsed, tokens) > ChunkSize then CollapseSummariesNode else GenerateFinalSummary
  }

  /**
   * Where the graph goes after a node: every `generate_summary` task into `collect_summaries`,
   * both `collect_summaries` and `collapse_summaries` through `should_collapse`, and the final
   * summary to the end.
   */
  function After(node: Node, collapsed: seq<Document>, tokens: TokenCounter): (r: Node)
  {
    match node
    case GenerateSummary => CollectSummariesNode
    case CollectSummariesNode => ShouldCollapse(collapsed, tokens)
    case CollapseSummariesNode => ShouldCollapse(collapsed, tokens)
    case GenerateFinalSummary => End
    case End => End
  }

  /**
   * The final summary is reached exactly when the documents fit the budget; adding documents
   * never brings an over-budget set back under it.
   */
  lemma CollapseDecision(collapsed: seq<Document>, more: seq<Document>, tokens: TokenCounter, node: Node)
    requires node == CollectSummariesNode || node == CollapseSummariesNode
    ensures After(node, collapsed, tokens) == GenerateFinalSummary <==> Length(collapsed, tokens) <= ChunkSize
    ensures After(node, collapsed, tokens) == CollapseSummariesNode ==>
      After(node, collapsed + more, tokens) == CollapseSummariesNode
  {
    LengthAppend(collapsed, more, tokens);
  }

  /** `generate_final_summary`: the reduce call on the documents' texts joined by blank lines. */
  function GenerateFinalSummaryNode(collapsed: seq<Document>, reduce: string -> Oracle<string>): (r: Result<string>)
    ensures r.Ok? <==> reduce(Join("\n\n", PageContents(collapsed))).Answer?
    ensures r.Ok? ==> r.value == reduce(Join("\n\n", PageContents(collapsed))).value
  {
    match reduce(Join("\n\n", PageContents(collapsed)))
    case Answer(s) => Ok(s)
    case Raised(m) => Err(m)
  }

  /**
   * When the summaries fit the budget straight away, the final summary is asked for on the
   * map-phase summaries themselves, in content order, separated by blank lines, and the input
   * has exactly the summaries' characters plus two per separator.
   */
  lemma DirectSummaryJoinsSummaries(
    contents: seq<string>, mapChain: string -> Oracle<string>, tokens: TokenCounter, reduce: string -> Oracle<string>)
    requires |contents| > 0 && MapPhase(contents, mapChain).Ok?
    requires Length(CollectSummaries(MapPhase(contents, mapChain).value), tokens) <= ChunkSize
    ensures var summaries := MapPhase(contents, mapChain).value;
      var docs := CollectSummaries(summaries);
      && After(CollectSummariesNode, docs, tokens) == GenerateFinalSummary
      && GenerateFinalSummaryNode(docs, reduce) ==
         (match reduce(Join("\n\n", summaries)) case Answer(s) => Ok(s) case Raised(m) => Err(m))
      && |Join("\n\n", summaries)| == SumLengths(summaries) + 2 * (|contents| - 1)
  {
    var summaries := MapPhase(contents, mapChain).value;
    CollectedTextsAreSummaries(summaries);
    JoinLength("\n\n", summaries);
  }
}

=== FILE: text.dfy ===
/**
 * The Python string operations the interview core relies on: `str.strip()` (with Python's
 * whitespace set), `str.replace(pattern, "")`, `str.split(sep)[0]`, `sep.join(parts)`, `str(n)`
 * on integers, and `int(text)` on strings written with ASCII digits.
 */
module Text {
  import opened Wrappers

  /** Characters for which Python's `str.isspace()` holds (the set `str.strip()` removes). */
  predicate IsSpace(c: char)
  {
    c == ' ' || c == '\t' || c == '\n' || c == '\r' || c == '\U{0b}' || c == '\U{0c}'
    || ('\U{1c}' <= c <= '\U{1f}') || c == '\U{85}' || c == '\U{a0}' || c == '\U{1680}'
    || ('\U{2000}' <= c <= '\U{200a}') || c == '\U{2028}' || c == '\U{2029}'
    || c == '\U{202f}' || c == '\U{205f}' || c == '\U{3000}'
  }

  /** Every code point Python counts as whitespace is a space here, beyond the ASCII ones. */
  lemma PythonWhitespaceIsSpace()
    ensures forall c: char :: '\U{1c}' <= c <= '\U{1f}' ==> IsSpace(c)
    ensures forall c: char :: '\U{2000}' <= c <= '\U{200a}' ==> IsSpace(c)
    ensures IsSpace('\U{85}') && IsSpace('\U{a0}') && IsSpace('\U{1680}') && IsSpace('\U{2028}')
    ensures IsSpace('\U{2029}') && IsSpace('\U{202f}') && IsSpace('\U{205f}') && IsSpace('\U{3000}')
  {
  }

  predicate IsDigit(c: char)
  {
    '0' <= c <= '9'
  }

  predicate NoSpaceAtEnds(s: string)
  {
    |s| > 0 ==> !IsSpace(s[0]) && !IsSpace(s[|s| - 1])
  }

  /** `s.lstrip()`: drops the longest all-space prefix. */
  function LStrip(s: string): (r: string)
    ensures |r| <= |s| && r == s[|s| - |r|..]
    ensures forall i :: 0 <= i < |s| - |r| ==> IsSpace(s[i])
    ensures |r| > 0 ==> !IsSpace(r[0])
  {
    if |s| > 0 && IsSpace(s[0]) then LStrip(s[1..]) else s
  }

  /** `s.rstrip()`: drops the longest all-space suffix. */
  function RStrip(s: string): (r: string)
    ensures |r| <= |s| && r == s[..|r|]
    ensures forall i :: |r| <= i < |s| ==> IsSpace(s[i])
    ensures |r| > 0 ==> !IsSpace(r[|r| - 1])
  {
    if |s| > 0 && IsSpace(s[|s| - 1]) then RStrip(s[..|s| - 1]) else s
  }

  /** `s.strip()`. */
  function Strip(s: string): (r: string)
    ensures NoSpaceAtEnds(r)
    ensures |r| <= |s|
  {
    var l := LStrip(s);
    var r := RStrip(l);
    assert |r| > 0 ==> r[0] == l[0];
    r
  }

  /** Stripping only removes characters: everything it keeps comes from `s`. */
  lemma StripKeepsChars(s: string)
    ensures forall i :: 0 <= i < |Strip(s)| ==> Strip(s)[i] in s
  {
    var l := LStrip(s);
    var r := RStrip(l);
    assert Strip(s) == r;
    forall i | 0 <= i < |r| ensures r[i] in s {
      assert r[i] == l[i] == s[|s| - |l| + i];
    }
  }

  lemma {:induction false} StripOfTrimmed(s: string)
    requires NoSpaceAtEnds(s)
    ensures Strip(s) == s
  {
  }

  /** Appending a tail that starts with a non-space cannot change what `lstrip` keeps of the head. */
  lemma LStripAppend(a: string, b: string)
    requires |a| > 0 && !IsSpace(a[0])
    ensures LStrip(a + b) == a + b
  {
  }

  /** `rstrip` of `p + q` where `p` ends in a non-space only reaches into `q`. */
  lemma {:induction false} RStripAppend(p: string, q: string)
    requires |p| > 0 && !IsSpace(p[|p| - 1])
    ensures RStrip(p + q) == p + RStrip(q)
    decreases |q|
  {
    if |q| > 0 && IsSpace(q[|q| - 1]) {
      assert (p + q)[..|p + q| - 1] == p + q[..|q| - 1];
      RStripAppend(p, q[..|q| - 1]);
    } else {
      assert |p + q| > 0 && (p + q)[|p + q| - 1] == if |q| > 0 then q[|q| - 1] else p[|p| - 1];
    }
  }

  /** Concatenation regrouped; stated once so that proofs about long literals need not rediscover it. */
  lemma Regroup(a: string, b: string, c: string)
    ensures (a + b) + c == a + (b + c)
  {
  }

  /** Text that starts and ends with non-space characters survives stripping; only the tail is trimmed. */
  lemma StripKeepsHead(head: string, tail: string)
    requires NoSpaceAtEnds(head) && |head| > 0
    ensures Strip(head + tail) == head + RStrip(tail)
  {
    assert LStrip(head + tail) == head + tail by {
      assert (head + tail)[0] == head[0];
    }
    RStripAppend(head, tail);
  }

  /** `pat` occurs in `s` starting at position `i`. */
  predicate OccursAt(s: string, pat: string, i: int)
  {
    0 <= i && i + |pat| <= |s| && s[i..i + |pat|] == pat
  }

  predicate Occurs(s: string, pat: string)
  {
    exists i :: 0 <= i <= |s| && OccursAt(s, pat, i)
  }

  /**
   * `s.replace(pat, "")`: scans left to right and deletes every non-overlapping occurrence.
   * Characters that do not appear in the pattern all survive, in number.
   */
  function RemoveAll(s: string, pat: string): (r: string)
    requires |pat| > 0
    ensures |r| <= |s|
    decreases |s|
  {
    if |s| < |pat| then s
    else if s[..|pat|] == pat then RemoveAll(s[|pat|..], pat)
    else [s[0]] + RemoveAll(s[1..], pat)
  }

  /** Removal only deletes characters, and every character the pattern lacks survives in number. */
  lemma {:induction false} RemoveAllKeepsOthers(s: string, pat: string)
    requires |pat| > 0
    ensures multiset(RemoveAll(s, pat)) <= multiset(s)
    ensures forall c :: c !in pat ==> multiset(RemoveAll(s, pat))[c] == multiset(s)[c]
    decreases |s|
  {
    if |s| < |pat| {
    } else if s[..|pat|] == pat {
      var rest := s[|pat|..];
      assert RemoveAll(s, pat) == RemoveAll(rest, pat);
      RemoveAllKeepsOthers(rest, pat);
      assert s == pat + rest;
      DroppedMatchCounts(s, pat, rest, RemoveAll(rest, pat));
    } else {
      var rest := s[1..];
      assert RemoveAll(s, pat) == [s[0]] + RemoveAll(rest, pat);
      RemoveAllKeepsOthers(rest, pat);
      KeptFirstCounts(s, pat, RemoveAll(rest, pat));
    }
  }

  /** The counts step of `RemoveAllKeepsOthers` when `s` opens with the pattern. */
  lemma DroppedMatchCounts(s: string, pat: string, rest: string, r: string)
    requires s == pat + rest
    requires multiset(r) <= multiset(rest)
    requires forall c :: c !in pat ==> multiset(r)[c] == multiset(rest)[c]
    ensures multiset(r) <= multiset(s)
    ensures forall c :: c !in pat ==> multiset(r)[c] == multiset(s)[c]
  {
    assert multiset(s) == multiset(pat) + multiset(rest);
    forall c | c !in pat
      ensures multiset(r)[c] == multiset(s)[c]
    {
      assert multiset(pat)[c] == 0;
    }
  }

  /** The counts step of `RemoveAllKeepsOthers` when `s`'s first character is kept. */
  lemma KeptFirstCounts(s: string, pat: string, r: string)
    requires |s| > 0
    requires multiset(r) <= multiset(s[1..])
    requires forall c :: c !in pat ==> multiset(r)[c] == multiset(s[1..])[c]
    ensures multiset([s[0]] + r) <= multiset(s)
    ensures forall c :: c !in pat ==> multiset([s[0]] + r)[c] == multiset(s)[c]
  {
    assert s == [s[0]] + s[1..];
    assert multiset(s) == multiset([s[0]]) + multiset(s[1..]);
    assert multiset([s[0]] + r) == multiset([s[0]]) + multiset(r);
  }

  /** Text without any occurrence of the pattern is left as it is. */
  lemma {:induction false} RemoveAllAbsent(s: string, pat: string)
    requires |pat| > 0 && !Occurs(s, pat)
    ensures RemoveAll(s, pat) == s
    decreases |s|
  {
    if |s| < |pat| {
    } else {
      assert !OccursAt(s, pat, 0);
      assert s[..|pat|] != pat;
      forall i | OccursAt(s[1..], pat, i)
        ensures false
      {
        assert s[1..][i..i + |pat|] == s[i + 1..i + 1 + |pat|];
        assert OccursAt(s, pat, i + 1);
      }
      RemoveAllAbsent(s[1..], pat);
    }
  }

  /** Removal distributes over a cut at a point where no occurrence straddles it. */
  lemma {:induction false} RemoveAllPrefix(p: string, s: string, pat: string)
    requires |pat| > 0
    requires pat <= p
    ensures RemoveAll(p + s, pat) == RemoveAll(p[|pat|..] + s, pat)
  {
    assert (p + s)[..|pat|] == pat;
    assert (p + s)[|pat|..] == p[|pat|..] + s;
  }

  /** An occurrence at the front of `a + b` that reaches past `a` would have to contain `b[0]`. */
  lemma FrontMatchReach(a: string, b: string, pat: string)
    requires |b| > 0 && |a + b| >= |pat| && (a + b)[..|pat|] == pat
    ensures |a| < |pat| ==> pat[|a|] == b[0]
    ensures |a| >= |pat| ==> a[..|pat|] == pat
  {
    if |a| < |pat| {
      assert (a + b)[..|pat|][|a|] == b[0];
    } else {
      assert a[..|pat|] == (a + b)[..|pat|];
    }
  }

  /**
   * When the tail starts with a character the pattern does not contain, removal
   * on the whole equals removal on the head followed by removal on the tail.
   */
  lemma {:induction false} RemoveAllAppend(a: string, b: string, pat: string)
    requires |pat| > 0 && |b| > 0 && b[0] !in pat
    ensures RemoveAll(a + b, pat) == RemoveAll(a, pat) + RemoveAll(b, pat)
    decreases |a|
  {
    if |a| == 0 {
      assert a + b == b;
    } else if |a + b| < |pat| {
    } else if (a + b)[..|pat|] == pat {
      FrontMatchReach(a, b, pat);
      RemoveAllAppend(a[|pat|..], b, pat);
      RemoveAllDropMatch(a, b, pat);
    } else {
      RemoveAllAppend(a[1..], b, pat);
      RemoveAllKeepFirst(a, b, pat);
      var head := RemoveAll(a[1..], pat);
      var tail := RemoveAll(b, pat);
      if |a| < |pat| {
        assert head == a[1..];
        assert a == [a[0]] + a[1..];
      }
      assert RemoveAll(a, pat) == [a[0]] + head;
      ConsAssoc(a[0], head, tail);
    }
  }

  /** Prepending one element to a concatenation is prepending it to the first part. */
  lemma ConsAssoc<T>(c: T, x: seq<T>, y: seq<T>)
    ensures [c] + (x + y) == ([c] + x) + y
  {
    var l, r := [c] + (x + y), ([c] + x) + y;
    assert |l| == |r|;
    forall i | 0 <= i < |l| ensures l[i] == r[i] {
      if i > 0 && i <= |x| { assert l[i] == x[i - 1] == r[i]; }
    }
  }

  lemma RemoveAllDropMatch(a: string, b: string, pat: string)
    requires |pat| > 0 && |a| >= |pat| && a[..|pat|] == pat
    ensures RemoveAll(a + b, pat) == RemoveAll(a[|pat|..] + b, pat)
    ensures RemoveAll(a, pat) == RemoveAll(a[|pat|..], pat)
  {
    assert (a + b)[..|pat|] == pat;
    assert (a + b)[|pat|..] == a[|pat|..] + b;
  }

  lemma RemoveAllKeepFirst(a: string, b: string, pat: string)
    requires |pat| > 0 && |a| > 0 && |a + b| >= |pat| && (a + b)[..|pat|] != pat
    ensures RemoveAll(a + b, pat) == [a[0]] + RemoveAll(a[1..] + b, pat)
    ensures RemoveAll(a, pat) == if |a| < |pat| then a else [a[0]] + RemoveAll(a[1..], pat)
  {
    assert (a + b)[1..] == a[1..] + b;
    if |a| >= |pat| {
      assert a[..|pat|] == (a + b)[..|pat|];
    }
  }

  /** `s.split(sep)[0]`: the text before the first `sep`, or all of `s`. */
  function BeforeFirst(s: string, sep: char): (r: string)
    ensures sep !in r
    ensures r <= s
    ensures |r| < |s| <==> sep in s
    ensures |r| < |s| ==> s[|r|] == sep
  {
    if |s| == 0 then s
    else if s[0] == sep then ""
    else [s[0]] + BeforeFirst(s[1..], sep)
  }

  /** `sep.join(parts)`. */
  function Join(sep: string, parts: seq<string>): (r: string)
    ensures |parts| == 1 ==> r == parts[0]
    ensures |parts| == 0 ==> r == ""
  {
    if |parts| == 0 then ""
    else if |parts| == 1 then parts[0]
    else parts[0] + sep + Join(sep, parts[1..])
  }

  /** Joining `k + 1` parts inserts exactly `k` separators. */
  lemma {:induction false} JoinLength(sep: string, parts: seq<string>)
    requires |parts| > 0
    ensures |Join(sep, parts)| == SumLengths(parts) + (|parts| - 1) * |sep|
  {
    if |parts| > 1 {
      JoinLength(sep, parts[1..]);
    }
  }

  /** Joining one more part adds one separator and the part at the end. */
  lemma {:induction false} JoinSnoc(sep: string, parts: seq<string>, last: string)
    requires |parts| > 0
    ensures Join(sep, parts + [last]) == Join(sep, parts) + sep + last
  {
    var whole := parts + [last];
    if |parts| == 1 {
      assert whole[1..] == [last];
    } else {
      assert whole[1..] == parts[1..] + [last];
      JoinSnoc(sep, parts[1..], last);
      assert Join(sep, whole) == parts[0] + sep + (Join(sep, parts[1..]) + sep + last);
    }
  }

  function SumLengths(parts: seq<string>): nat
  {
    if |parts| == 0 then 0 else |parts[0]| + SumLengths(parts[1..])
  }

  /** Joining keeps every part in order: the first part is a prefix of the whole. */
  lemma JoinStartsWithFirst(sep: string, parts: seq<string>)
    requires |parts| > 0
    ensures parts[0] <= Join(sep, parts)
  {
  }

  /** A prefix of a prefix is a prefix. */
  lemma PrefixTransitive(p: string, a: string, b: string)
    requires p <= a && a <= b
    ensures p <= b
  {
    assert p == a[..|p|] == b[..|a|][..|p|];
  }

  function DigitChar(d: nat): (c: char)
    requires d < 10
    ensures IsDigit(c)
  {
    "0123456789"[d]
  }

  function DigitValue(c: char): (d: nat)
    requires IsDigit(c)
    ensures d < 10
  {
    (c as int - '0' as int) as nat
  }

  lemma DigitRoundTrip(d: nat)
    requires d < 10
    ensures DigitValue(DigitChar(d)) == d
  {
  }

  /** `str(n)` for a non-negative integer: decimal, no leading zeros. */
  function NatToString(n: nat): (r: string)
    ensures |r| > 0
    ensures forall i :: 0 <= i < |r| ==> IsDigit(r[i])
    ensures |r| > 1 ==> r[0] != '0'
  {
    if n < 10 then [DigitChar(n)]
    else NatToString(n / 10) + [DigitChar(n % 10)]
  }

  /** `str(i)` for any integer. */
  function IntToString(i: int): (r: string)
    ensures |r| > 0
    ensures i >= 0 ==> r == NatToString(i)
    ensures i < 0 ==> r == "-" + NatToString(-i)
  {
    if i >= 0 then NatToString(i) else "-" + NatToString(-i)
  }

  /** Value of a string of decimal digits, most significant first. */
  function DigitsValue(s: string): (n: nat)
    requires forall i :: 0 <= i < |s| ==> IsDigit(s[i])
  {
    if |s| == 0 then 0 else DigitsValue(s[..|s| - 1]) * 10 + DigitValue(s[|s| - 1])
  }

  lemma {:induction false} NatToStringRoundTrip(n: nat)
    ensures DigitsValue(NatToString(n)) == n
  {
    var s := NatToString(n);
    if n < 10 {
      DigitRoundTrip(n);
    } else {
      NatToStringRoundTrip(n / 10);
      assert s[..|s| - 1] == NatToString(n / 10);
      DigitRoundTrip(n % 10);
    }
  }

  /** The body of a Python integer literal: digits, single underscores only between digits. */
  predicate ValidDigitGroups(s: string)
  {
    && |s| > 0
    && IsDigit(s[0]) && IsDigit(s[|s| - 1])
    && (forall i :: 0 <= i < |s| ==> IsDigit(s[i]) || s[i] == '_')
    && (forall i :: 0 <= i < |s| - 1 && s[i] == '_' ==> s[i + 1] != '_')
  }

  function DropUnderscores(s: string): (r: string)
    requires forall i :: 0 <= i < |s| ==> IsDigit(s[i]) || s[i] == '_'
    ensures forall i :: 0 <= i < |r| ==> IsDigit(r[i])
    ensures (forall i :: 0 <= i < |s| ==> IsDigit(s[i])) ==> r == s
  {
    if |s| == 0 then ""
    else if s[0] == '_' then DropUnderscores(s[1..])
    else [s[0]] + DropUnderscores(s[1..])
  }

  /**
   * `int(text)` on a string: surrounding whitespace, an optional sign, then ASCII digits with
   * optional single underscores between them. `None` is the `ValueError` case.
   */
  function ParseInt(text: string): (r: Option<int>)
    ensures r.Some? ==> |Strip(text)| > 0
  {
    var t := Strip(text);
    var negative := |t| > 0 && t[0] == '-';
    var body := if |t| > 0 && (t[0] == '+' || t[0] == '-') then t[1..] else t;
    if ValidDigitGroups(body) then
      var magnitude: int := DigitsValue(DropUnderscores(body));
      Some(if negative then -magnitude else magnitude)
    else None
  }

  /** `int(str(n)) == n` for every non-negative `n`. */
  lemma ParseNatToString(n: nat)
    ensures ParseInt(NatToString(n)) == Some(n)
  {
    var s := NatToString(n);
    assert NoSpaceAtEnds(s) by {
      assert !IsSpace(s[0]) && !IsSpace(s[|s| - 1]);
    }
    StripOfTrimmed(s);
    assert ValidDigitGroups(s);
    assert IsDigit(s[0]) && s[0] != '+' && s[0] != '-';
    assert DropUnderscores(s) == s;
    NatToStringRoundTrip(n);
    assert ParseInt(s) == Some(DigitsValue(s));
  }

  function CountChar(s: string, c: char): (n: nat)
    ensures n <= |s|
    ensures n == 0 <==> c !in s
  {
    if |s| == 0 then 0 else (if s[0] == c then 1 else 0) + CountChar(s[1..], c)
  }

  /** Index of the first `c` in `s`. */
  function IndexOf(s: string, c: char): (i: nat)
    requires c in s
    ensures i < |s| && s[i] == c && c !in s[..i]
  {
    if s[0] == c then 0 else 1 + IndexOf(s[1..], c)
  }

  lemma {:induction false} CountSplit(a: string, b: string, c: char)
    ensures CountChar(a + b, c) == CountChar(a, c) + CountChar(b, c)
  {
    if |a| == 0 {
      assert a + b == b;
    } else {
      assert (a + b)[1..] == a[1..] + b;
      CountSplit(a[1..], b, c);
    }
  }

  /** The lines, each followed by a newline. */
  function Unlines(lines: seq<string>): (r: string)
    ensures |lines| > 0 ==> lines[0] + "\n" <= r
  {
    if |lines| == 0 then "" else lines[0] + "\n" + Unlines(lines[1..])
  }

  /** Lines without newlines of their own give exactly one newline each. */
  lemma {:induction false} UnlinesCount(lines: seq<string>)
    requires forall i :: 0 <= i < |lines| ==> '\n' !in lines[i]
    ensures CountChar(Unlines(lines), '\n') == |lines|
    decreases |lines|
  {
    if |lines| > 0 {
      UnlinesCount(lines[1..]);
      CountSplit(lines[0], "\n" + Unlines(lines[1..]), '\n');
      CountSplit("\n", Unlines(lines[1..]), '\n');
      assert lines[0] + "\n" + Unlines(lines[1..]) == lines[0] + ("\n" + Unlines(lines[1..]));
    }
  }
}

=== FILE: tool_runs.dfy ===
/**
 * The `run_evaluation_tools` node both master agents share: the transcript is summarised, and
 * the grammar check and the validation run on the summarisation's analysis state when the
 * summary the agent keeps is truthy. Each tool's failure becomes a fixed error string; nothing
 * here ever sets the agent's `error`. The interview agent asks for all three tools; the customer
 * service agent asks for the ones `tools_to_run` names (all of them when it is empty).
 */
module ToolRuns {
  import opened Wrappers
  import opened Text
  import opened Attributes
  import opened Tools

  const SummaryFailed: string := "Error generating summary."
  const GrammarFailed: string := "Error performing grammar check."
  const ValidationFailed: string := "Error performing validation."

  /** The three model-backed tools as the node calls them. */
  datatype ToolOracles = ToolOracles(graph: GraphRun, grammar: SummaryCall, validation: SummaryCall)

  /** The three agent fields the node writes. */
  datatype ToolResults = ToolResults(
    finalSummary: Option<string>, grammarEvaluation: Option<string>, validationResult: Option<string>)

  /** Which of the three tools a run asks for. */
  datatype Selection = Selection(summarize: bool, grammar: bool, validation: bool)

  const AllTools: Selection := Selection(true, true, true)

  /**
   * The summarisation step: the summary the agent keeps and the analysis state the later tools
   * read. A failed summarisation leaves the fresh analysis state (summary `""`) in place.
   */
  function SummaryStep(contents: seq<string>, graph: GraphRun): (r: (Option<string>, AnalysisState))
    ensures r.1.contents == contents
    ensures r.0 == Some(SummaryFailed) || r.0 == r.1.finalSummary
    ensures |contents| == 0 ==> r == (Some(SummaryFailed), FreshAnalysis(contents))
  {
    match SummarizeInterviewHistory(FreshAnalysis(contents), graph)
    case Ok(a) => (a.finalSummary, a)
    case Err(_) => (Some(SummaryFailed), FreshAnalysis(contents))
  }

  /** The summary the grammar check and the validation are fed. */
  function ToolInput(contents: seq<string>, wanted: Selection, graph: GraphRun): (s: Option<string>)
    ensures !wanted.summarize ==> s == Some("")
  {
    if wanted.summarize then SummaryStep(contents, graph).1.finalSummary else Some("")
  }

  /** The summary the agent keeps after the node. */
  function KeptSummary(contents: seq<string>, wanted: Selection, prior: Option<string>, graph: GraphRun): (s: Option<string>)
    ensures !wanted.summarize ==> s == prior
  {
    if wanted.summarize then SummaryStep(contents, graph).0 else prior
  }

  /** What the grammar field becomes when the grammar check runs: the stripped answer or the error string. */
  function GrammarOutcome(answer: Oracle<string>): (g: string)
    ensures answer.Raised? ==> g == GrammarFailed
    ensures answer.Answer? ==> g == Strip(answer.value)
  {
    match answer
    case Answer(a) => Strip(a)
    case Raised(_) => GrammarFailed
  }

  /** What the validation field becomes when the validation runs. */
  function ValidationOutcome(state: AnalysisState, call: SummaryCall): (v: string)
    ensures call(state.finalSummary).Raised? ==> v == ValidationFailed
    ensures call(state.finalSummary).Answer? ==> v == Strip(call(state.finalSummary).value)
  {
    match ValidationTool(state, call)
    case Ok(after) => after.validationResult.GetOr("")
    case Err(_) => ValidationFailed
  }

  /**
   * The node: a wanted summarisation replaces the summary (by the error string when it fails);
   * the grammar check and the validation run exactly when wanted and the kept summary is truthy,
   * and otherwise leave their fields as they were.
   */
  function RunTools(contents: seq<string>, wanted: Selection, prior: ToolResults, tools: ToolOracles): (r: ToolResults)
    ensures r.finalSummary == KeptSummary(contents, wanted, prior.finalSummary, tools.graph)
    ensures !(wanted.grammar && Truthy(r.finalSummary)) ==> r.grammarEvaluation == prior.grammarEvaluation
    ensures wanted.grammar && Truthy(r.finalSummary) ==>
      r.grammarEvaluation == Some(GrammarOutcome(tools.grammar(ToolInput(contents, wanted, tools.graph))))
    ensures !(wanted.validation && Truthy(r.finalSummary)) ==> r.validationResult == prior.validationResult
    ensures wanted.validation && Truthy(r.finalSummary) && tools.validation(ToolInput(contents, wanted, tools.graph)).Raised? ==>
      r.validationResult == Some(ValidationFailed)
    ensures wanted.validation && Truthy(r.finalSummary) && tools.validation(ToolInput(contents, wanted, tools.graph)).Answer? ==>
      r.validationResult == Some(Strip(tools.validation(ToolInput(contents, wanted, tools.graph)).value))
  {
    var analysis := if wanted.summarize then SummaryStep(contents, tools.graph).1 else FreshAnalysis(contents);
    var summary := KeptSummary(contents, wanted, prior.finalSummary, tools.graph);
    var runs := Truthy(summary);
    ToolResults(
      summary,
      if wanted.grammar && runs then
        Some(match GrammarCheck(analysis, tools.grammar) case Ok(g) => g case Err(_) => GrammarFailed)
      else prior.grammarEvaluation,
      if wanted.validation && runs then Some(ValidationOutcome(analysis, tools.validation))
      else prior.validationResult)
  }

  /**
   * A summarisation that fails — an empty transcript, a raising graph, a run without a final
   * state — leaves a truthy error string as the summary, so the grammar check and the validation
   * still run, on an empty summary.
   */
  lemma FailedSummaryStillRunsTools(contents: seq<string>, prior: ToolResults, tools: ToolOracles)
    requires SummarizeInterviewHistory(FreshAnalysis(contents), tools.graph).Err?
    ensures var r := RunTools(contents, AllTools, prior, tools);
      && r.finalSummary == Some(SummaryFailed)
      && r.grammarEvaluation == Some(GrammarOutcome(tools.grammar(Some(""))))
      && (tools.validation(Some("")).Raised? ==> r.validationResult == Some(ValidationFailed))
      && (tools.validation(Some("")).Answer? ==> r.validationResult == Some(Strip(tools.validation(Some("")).value)))
  {
  }

  /**
   * With the summarisation as written, the node always keeps the error string as the summary,
   * and the grammar check and the validation run on an empty summary instead of a real one.
   */
  lemma AsWrittenSummaryAlwaysFails(contents: seq<string>, prior: ToolResults, grammar: SummaryCall, validation: SummaryCall)
    ensures var r := RunTools(contents, AllTools, prior, ToolOracles(AsWrittenRun, grammar, validation));
      && r.finalSummary == Some(SummaryFailed)
      && r.grammarEvaluation == Some(GrammarOutcome(grammar(Some(""))))
      && (validation(Some("")).Answer? ==> r.validationResult == Some(Strip(validation(Some("")).value)))
  {
    var _ := SummarizeAsWritten(FreshAnalysis(contents));
    FailedSummaryStillRunsTools(contents, prior, ToolOracles(AsWrittenRun, grammar, validation));
  }

  /** An empty transcript never reaches the graph: the summary is the error string whatever the graph would do. */
  lemma EmptyTranscriptFailsSummary(prior: ToolResults, tools: ToolOracles, wanted: Selection)
    requires wanted.summarize
    ensures RunTools([], wanted, prior, tools).finalSummary == Some(SummaryFailed)
    ensures ToolInput([], wanted, tools.graph) == Some("")
  {
  }

  /**
   * A summarisation that succeeds feeds its own summary to the other tools, and a final state
   * without `final_summary` (or with an empty one) switches them off.
   */
  lemma SucceededSummaryFeedsTools(contents: seq<string>, wanted: Selection, prior: ToolResults, tools: ToolOracles)
    requires wanted.summarize && |contents| > 0
    requires tools.graph(contents, RecursionLimit).Answer? && tools.graph(contents, RecursionLimit).value.Some?
    ensures var final := tools.graph(contents, RecursionLimit).value.value;
      var r := RunTools(contents, wanted, prior, tools);
      && r.finalSummary == GetAttributeOrNone(final, "final_summary")
      && ToolInput(contents, wanted, tools.graph) == r.finalSummary
      && (!Truthy(r.finalSummary) ==>
            r.grammarEvaluation == prior.grammarEvaluation && r.validationResult == prior.validationResult)
  {
  }

  /**
   * Without summarisation the other tools are gated on the summary the agent already had, and
   * are fed an empty summary all the same.
   */
  lemma SkippedSummaryGatesOnPrior(contents: seq<string>, wanted: Selection, prior: ToolResults, tools: ToolOracles)
    requires !wanted.summarize
    ensures var r := RunTools(contents, wanted, prior, tools);
      && r.finalSummary == prior.finalSummary
      && (wanted.grammar && Truthy(prior.finalSummary) ==> r.grammarEvaluation == Some(GrammarOutcome(tools.grammar(Some("")))))
      && (!Truthy(prior.finalSummary) ==> r == prior)
  {
  }

  /**
   * `route_after_evaluation`, the same in both agents: the error node when the agent's `error`
   * is truthy, the final report otherwise.
   */
  function RouteAfterEvaluation(error: Option<string>): (route: string)
    ensures route == "error" <==> Truthy(error)
    ensures route == "generate_final_report" <==> !Truthy(error)
  {
    if Truthy(error) then "error" else "generate_final_report"
  }

  /** The placeholder a report shows for a falsy tool result. */
  function Shown(s: Option<string>, placeholder: string): (r: string)
    ensures Truthy(s) ==> r == s.value
    ensures !Truthy(s) ==> r == placeholder
  {
    if Truthy(s) then s.value else placeholder
  }

  const NoSummary: string := "No summary available."
  const NoGrammar: string := "No grammar evaluation available."
  const NoValidation: string := "No validation result available."
}

=== FILE: tools.dfy ===
/**
 * The evaluation tools: a registry of named tools with their descriptions, and the tools
 * themselves as far as their control flow goes — the summarisation guard, the grammar and
 * validation calls whose answers are trimmed, and the technical-accuracy check with its two
 * fallback reports. Every model call and the summarisation graph are oracle parameters.
 */
module Tools {
  import opened Wrappers
  import opened Text
  import opened Collections
  import opened Attributes

  /** A function as the registry sees it: its name and its docstring, if any. */
  datatype Callable = Callable(name: string, doc: Option<string>)

  datatype ToolInfo = ToolInfo(func: Callable, description: string)

  /** `TOOLS_REGISTRY`: tool name to function and description, in registration order. */
  type Registry = Dict<string, ToolInfo>

  const NoDescription: string := "No description available"

  /** `description or func.__doc__ or "No description available"`. */
  function Describe(description: Option<string>, func: Callable): (d: string)
    ensures d != ""
    ensures Truthy(description) ==> d == description.value
    ensures !Truthy(description) ==> (d == NoDescription <==> !Truthy(func.doc) || func.doc.value == NoDescription)
    ensures d == NoDescription || Some(d) == description || Some(d) == func.doc
  {
    if Truthy(description) then description.value
    else if Truthy(func.doc) then func.doc.value
    else NoDescription
  }

  /** The registry after `TOOLS_REGISTRY[name] = {...}`. */
  function Enter(reg: Registry, name: string, func: Callable, description: Option<string>): (r: Registry)
    ensures Get(r, name) == Some(ToolInfo(func, Describe(description, func)))
    ensures forall k :: k != name ==> Get(r, k) == Get(reg, k)
    ensures name in Keys(reg) ==> Keys(r) == Keys(reg)
    ensures name !in Keys(reg) ==> Keys(r) == Keys(reg) + [name]
    ensures WellFormed(reg) ==> WellFormed(r)
  {
    var info := ToolInfo(func, Describe(description, func));
    PutReads(reg, name, info);
    Put(reg, name, info)
  }

  lemma PutReads(reg: Registry, name: string, info: ToolInfo)
    ensures forall k :: Get(Put(reg, name, info), k) == if k == name then Some(info) else Get(reg, k)
    ensures WellFormed(reg) ==> WellFormed(Put(reg, name, info))
  {
    forall k {
      GetPut(reg, name, info, k);
    }
    if WellFormed(reg) {
      PutWellFormed(reg, name, info);
    }
  }

  /**
   * `register_tool(name, description)` applied to a function: the function is entered under
   * the name, and the decorator hands the function back unchanged.
   */
  function RegisterTool(reg: Registry, name: string, description: Option<string>, func: Callable): (r: (Registry, Callable))
    ensures r.1 == func
    ensures Get(r.0, name).Some? && Get(r.0, name).value.func == func
    ensures Truthy(description) ==> Get(r.0, name).value.description == description.value
    ensures forall k :: k != name ==> Get(r.0, k) == Get(reg, k)
  {
    (Enter(reg, name, func, description), func)
  }

  /** `add_custom_tool(name, function, description)`: inserts or overwrites one entry, nothing else. */
  function AddCustomTool(reg: Registry, name: string, func: Callable, description: Option<string>): (r: Registry)
    ensures GetTool(r, name) == Some(func)
    ensures Get(r, name).value.description == Describe(description, func)
    ensures forall k :: k != name ==> Get(r, k) == Get(reg, k)
    ensures |Keys(r)| == |Keys(reg)| + (if name in Keys(reg) then 0 else 1)
  {
    Enter(reg, name, func, description)
  }

  /** `get_tool(name)`: the registered function, `None` for an unknown name. */
  function GetTool(reg: Registry, name: string): (r: Option<Callable>)
    ensures r.None? <==> name !in Keys(reg)
    ensures r.Some? ==> exists i :: 0 <= i < |reg| && reg[i].0 == name && reg[i].1.func == r.value
  {
    match Get(reg, name)
    case Some(info) => Some(info.func)
    case None => None
  }

  /** `get_available_tools()`: every registered name with its description only. */
  function GetAvailableTools(reg: Registry): (r: Dict<string, string>)
    ensures Keys(r) == Keys(reg)
    ensures forall i :: 0 <= i < |r| ==> r[i].1 == reg[i].1.description
  {
    seq(|reg|, i requires 0 <= i < |reg| => (reg[i].0, reg[i].1.description))
  }

  /** `get_tools_dict()`: every registered name with its function. */
  function GetToolsDict(reg: Registry): (r: Dict<string, Callable>)
    ensures Keys(r) == Keys(reg)
    ensures forall i :: 0 <= i < |r| ==> r[i].1 == reg[i].1.func
  {
    seq(|reg|, i requires 0 <= i < |reg| => (reg[i].0, reg[i].1.func))
  }

  /** Looking a name up in the functions dictionary gives what `get_tool` gives. */
  lemma {:induction false} ToolsDictAgreesWithGetTool(reg: Registry, name: string)
    ensures Get(GetToolsDict(reg), name) == GetTool(reg, name)
    decreases |reg|
  {
    if |reg| > 0 {
      assert GetToolsDict(reg)[1..] == GetToolsDict(reg[1..]);
      ToolsDictAgreesWithGetTool(reg[1..], name);
    }
  }

  /** Looking a name up among the available tools gives the description it was registered with. */
  lemma {:induction false} AvailableToolsDescribeRegistered(reg: Registry, name: string)
    ensures Get(GetAvailableTools(reg), name) ==
      match Get(reg, name) case Some(info) => Some(info.description) case None => None
    decreases |reg|
  {
    if |reg| > 0 {
      assert GetAvailableTools(reg)[1..] == GetAvailableTools(reg[1..]);
      AvailableToolsDescribeRegistered(reg[1..], name);
    }
  }

  const Summarize: string := "summarize_interview_history"
  const GrammarCheckName: string := "grammar_check"
  const ValidationName: string := "validation_tool"
  const TechnicalAccuracyName: string := "technical_accuracy_check"

  /** The tool a decorator of this module registers: its own name, no docstring needed. */
  function Decorated(name: string, description: string): (entry: (string, ToolInfo))
    ensures entry.0 == name && entry.1.func.name == name && entry.1.description == description
  {
    (name, ToolInfo(Callable(name, None), description))
  }

  /**
   * The registry once the module's four decorated tools are registered, in definition order.
   * Each supplies a non-empty description, so their docstrings play no part and are left out.
   */
  const DefaultRegistry: Registry := [
    Decorated(Summarize, "Summarizes the interview history and generates a comprehensive evaluation"),
    Decorated(GrammarCheckName, "Checks grammar and spelling in the interview summary"),
    Decorated(ValidationName, "Validates the quality and completeness of the assessment report"),
    Decorated(TechnicalAccuracyName, "Evaluates the technical accuracy of the candidate's responses")]

  lemma NamesDistinct()
    ensures Distinct([Summarize, GrammarCheckName, ValidationName, TechnicalAccuracyName])
  {
    var names := [Summarize, GrammarCheckName, ValidationName, TechnicalAccuracyName];
    assert |names[0]| == 27 && |names[1]| == 13 && |names[2]| == 15 && |names[3]| == 24;
  }

  /** The default registry names the four tools once each, and each entry holds the function of its own name. */
  lemma DefaultRegistryWellFormed()
    ensures Keys(DefaultRegistry) == [Summarize, GrammarCheckName, ValidationName, TechnicalAccuracyName]
    ensures WellFormed(DefaultRegistry)
    ensures forall i :: 0 <= i < |DefaultRegistry| ==> DefaultRegistry[i].1.func.name == DefaultRegistry[i].0
  {
    NamesDistinct();
  }

  /** The four decorators, applied in definition order, build the default registry. */
  lemma DefaultRegistryRegistered()
    ensures RegisterAll([], DefaultRegistry) == DefaultRegistry
  {
    DefaultRegistryWellFormed();
    var d := DefaultRegistry;
    assert [] + d == d;
    assert forall i :: 0 <= i < |d| ==> d[i].1.description != "" by {
      assert |d| == 4 && |d[0].1.description| > 0 && |d[1].1.description| > 0;
      assert |d[2].1.description| > 0 && |d[3].1.description| > 0;
    }
    RegisterAllAppends([], d);
  }

  /** Decorators applied one after another, each entering its tool as `register_tool` does. */
  function RegisterAll(reg: Registry, entries: seq<(string, ToolInfo)>): (r: Registry)
    decreases |entries|
  {
    if |entries| == 0 then reg
    else
      var e := entries[0];
      RegisterAll(Put(reg, e.0, ToolInfo(e.1.func, Describe(Some(e.1.description), e.1.func))), entries[1..])
  }

  /**
   * Registering described tools under distinct names that the registry does not hold yet
   * appends them in registration order: one entry per decorator, earliest first.
   */
  lemma {:induction false} RegisterAllAppends(reg: Registry, entries: seq<(string, ToolInfo)>)
    requires WellFormed(reg + entries)
    requires forall i :: 0 <= i < |entries| ==> entries[i].1.description != ""
    ensures RegisterAll(reg, entries) == reg + entries
    decreases |entries|
  {
    if |entries| > 0 {
      var e := entries[0];
      var next := reg + [e];
      assert reg + entries == next + entries[1..];
      NewName(reg, entries);
      assert ToolInfo(e.1.func, Describe(Some(e.1.description), e.1.func)) == e.1;
      PutAppends(reg, e.0, e.1);
      RegisterAllAppends(next, entries[1..]);
    }
  }

  /** In a well-formed registry, the name after the first `|reg|` entries is not among them. */
  lemma NewName(reg: Registry, entries: seq<(string, ToolInfo)>)
    requires |entries| > 0 && WellFormed(reg + entries)
    ensures entries[0].0 !in Keys(reg)
  {
    var all := reg + entries;
    assert Keys(all)[|reg|] == entries[0].0;
    forall j | 0 <= j < |reg|
      ensures Keys(reg)[j] != entries[0].0
    {
      assert Keys(all)[j] == Keys(reg)[j];
    }
  }

  lemma {:induction false} PutAppends(reg: Registry, name: string, info: ToolInfo)
    requires name !in Keys(reg)
    ensures Put(reg, name, info) == reg + [(name, info)]
    decreases |reg|
  {
    if |reg| > 0 {
      var rest := reg[1..];
      assert Keys(reg)[0] == reg[0].0 != name;
      assert name !in Keys(rest) by {
        forall j | 0 <= j < |rest| ensures Keys(rest)[j] != name {
          assert Keys(rest)[j] == Keys(reg)[j + 1];
        }
      }
      PutAppends(rest, name, info);
      assert Put(reg, name, info) == [reg[0]] + (rest + [(name, info)]);
      ConsAssoc(reg[0], rest, [(name, info)]);
      assert [reg[0]] + rest == reg;
    }
  }

  /** `initialize_tools()`: the functions dictionary of the default registry. */
  function InitializeTools(): (r: Dict<string, Callable>)
    ensures Keys(r) == [Summarize, GrammarCheckName, ValidationName, TechnicalAccuracyName]
    ensures forall i :: 0 <= i < |r| ==> r[i].1.name == r[i].0
  {
    DefaultRegistryWellFormed();
    GetToolsDict(DefaultRegistry)
  }

  /** The part of `InterviewAnalysisState` the tools read and write. */
  datatype AnalysisState = AnalysisState(contents: seq<string>, finalSummary: Option<string>, validationResult: Option<string>)

  /** The analysis state the master agents build: the contents and an empty summary. */
  function FreshAnalysis(contents: seq<string>): (a: AnalysisState)
    ensures a.contents == contents && a.finalSummary == Some("") && a.validationResult.None?
  {
    AnalysisState(contents, Some(""), None)
  }

  /** The recursion limit the summarisation graph is run with. */
  const RecursionLimit: nat := 10

  const NoContents: string := "No interview contents found for summarization."
  const NoFinalState: string := "Summarization failed: No final state returned."

  /**
   * One run of the summarisation graph on some contents with a recursion limit: the last state
   * it yielded (`None` when it yielded none) or the exception it raised.
   */
  type GraphRun = (seq<string>, nat) -> Oracle<Option<Object<string>>>

  /**
   * `summarize_interview_history`: empty contents are refused before the graph runs; otherwise
   * the graph runs with the recursion limit, a run without a final state is an error, and the
   * final state's `final_summary` (or `None`) becomes the state's summary.
   */
  function SummarizeInterviewHistory(state: AnalysisState, graph: GraphRun): (r: Result<AnalysisState>)
    ensures |state.contents| == 0 ==> r == Err(NoContents)
    ensures r.Ok? <==> |state.contents| > 0 && graph(state.contents, RecursionLimit).Answer?
                       && graph(state.contents, RecursionLimit).value.Some?
    ensures |state.contents| > 0 && graph(state.contents, RecursionLimit) == Answer(None) ==> r == Err(NoFinalState)
    ensures |state.contents| > 0 && graph(state.contents, RecursionLimit).Raised? ==>
      r == Err(graph(state.contents, RecursionLimit).message)
    ensures r.Ok? ==> r.value.contents == state.contents && r.value.validationResult == state.validationResult
    ensures r.Ok? ==> (r.value.finalSummary.Some? <==> Carries(graph(state.contents, RecursionLimit).value.value, "final_summary"))
  {
    if |state.contents| == 0 then Err(NoContents)
    else
      match graph(state.contents, RecursionLimit)
      case Raised(m) => Err(m)
      case Answer(None) => Err(NoFinalState)
      case Answer(Some(final)) => Ok(state.(finalSummary := GetAttributeOrNone(final, "final_summary")))
  }

  /** The message of the `TypeError` an `async for` raises on a coroutine. */
  const NotAsyncIterable: string := "'async for' requires an object with __aiter__ method, got coroutine"

  /** The graph run as the loop over the un-awaited `ainvoke` experiences it: it always raises. */
  const AsWrittenRun: GraphRun := (contents: seq<string>, limit: nat) => Raised(NotAsyncIterable)

  /**
   * `summarize_interview_history` as written: it iterates with `async for` over the result of
   * `ainvoke`, which is a coroutine and not an asynchronous iterator, so the loop raises before
   * any step is taken, and the handler re-raises. No non-empty transcript is ever summarised.
   */
  function SummarizeAsWritten(state: AnalysisState): (r: Result<AnalysisState>)
    ensures r.Err?
    ensures |state.contents| > 0 ==> r == Err(NotAsyncIterable)
    ensures r == SummarizeInterviewHistory(state, AsWrittenRun)
  {
    if |state.contents| == 0 then Err(NoContents) else Err(NotAsyncIterable)
  }

  /** The graph run as evidently intended: `ainvoke` awaited, giving the final state or the exception. */
  function Awaited(invoke: (seq<string>, nat) -> Oracle<Object<string>>): (g: GraphRun)
    ensures forall contents, limit :: invoke(contents, limit).Answer? ==>
      g(contents, limit) == Answer(Some(invoke(contents, limit).value))
    ensures forall contents, limit :: invoke(contents, limit).Raised? ==>
      g(contents, limit) == Raised(invoke(contents, limit).message)
  {
    (contents: seq<string>, limit: nat) => match invoke(contents, limit) case Answer(st) => Answer(Some(st)) case Raised(m) => Raised(m)
  }

  /**
   * With `ainvoke` awaited, a non-empty transcript is summarised exactly when the graph run
   * answers, the summary is the final state's `final_summary`, and the "no final state" error
   * cannot arise from the run itself.
   */
  lemma AwaitedSummaryTakesFinalState(state: AnalysisState, invoke: (seq<string>, nat) -> Oracle<Object<string>>)
    requires |state.contents| > 0
    ensures var r := SummarizeInterviewHistory(state, Awaited(invoke));
      && (r.Ok? <==> invoke(state.contents, RecursionLimit).Answer?)
      && (r.Ok? ==> r.value == state.(finalSummary := GetAttributeOrNone(invoke(state.contents, RecursionLimit).value, "final_summary")))
      && (r.Err? ==> r == Err(invoke(state.contents, RecursionLimit).message))
  {
  }

  /** A model call fed a summary (`None` when the state holds `None`): the raw answer or the exception. */
  type SummaryCall = Option<string> -> Oracle<string>

  /** `grammar_check`: the model's answer on the state's summary, stripped; a failing call raises. */
  function GrammarCheck(state: AnalysisState, call: SummaryCall): (r: Result<string>)
    ensures r.Err? <==> call(state.finalSummary).Raised?
    ensures r.Ok? ==> NoSpaceAtEnds(r.value) && |r.value| <= |call(state.finalSummary).value|
    ensures r.Ok? && NoSpaceAtEnds(call(state.finalSummary).value) ==> r.value == call(state.finalSummary).value
  {
    match call(state.finalSummary)
    case Raised(m) => Err(m)
    case Answer(raw) =>
      StripKeepsTrimmed(raw);
      Ok(Strip(raw))
  }

  lemma StripKeepsTrimmed(s: string)
    ensures NoSpaceAtEnds(s) ==> Strip(s) == s
  {
    if NoSpaceAtEnds(s) {
      StripOfTrimmed(s);
    }
  }

  /** `validation_tool`: the stripped answer on the state's summary becomes `validation_result`. */
  function ValidationTool(state: AnalysisState, call: SummaryCall): (r: Result<AnalysisState>)
    ensures r.Err? <==> call(state.finalSummary).Raised?
    ensures r.Ok? ==> r.value.contents == state.contents && r.value.finalSummary == state.finalSummary
    ensures r.Ok? ==> r.value == state.(validationResult := r.value.validationResult)
    ensures r.Ok? ==> r.value.validationResult.Some? && NoSpaceAtEnds(r.value.validationResult.value)
    ensures r.Ok? ==> |r.value.validationResult.value| <= |call(state.finalSummary).value|
    ensures r.Ok? && NoSpaceAtEnds(call(state.finalSummary).value) ==>
      r.value.validationResult == Some(call(state.finalSummary).value)
  {
    match call(state.finalSummary)
    case Raised(m) => Err(m)
    case Answer(raw) =>
      StripKeepsTrimmed(raw);
      Ok(state.(validationResult := Some(Strip(raw))))
  }

  /** The report `technical_accuracy_check` returns when it cannot use the model's answer. */
  datatype AccuracyReport = AccuracyReport(
    technicalAccuracyScore: int, misconceptions: seq<string>, knowledgeDepthScore: int,
    problemSolvingScore: int, overallAssessment: string)

  /** What the check returns: the parsed JSON value, or a fallback report. */
  datatype AccuracyResult<J> = Parsed(value: J) | Fallback(report: AccuracyReport)

  const UnparsedReport: AccuracyReport := AccuracyReport(5, ["Unable to parse response"], 5, 5,
    "Unable to properly evaluate technical accuracy due to parsing error.")

  const ErrorPrefix: string := "Error during evaluation: "

  /** The report for a failure with message `m`: zero scores and the message in two places. */
  function ErrorReport(m: string): (r: AccuracyReport)
    ensures r.technicalAccuracyScore == 0 && r.knowledgeDepthScore == 0 && r.problemSolvingScore == 0
    ensures |r.misconceptions| == 1
  {
    AccuracyReport(0, [ErrorPrefix + m], 0, 0, "Evaluation failed due to error: " + m)
  }

  /**
   * `technical_accuracy_check`: the contents joined by newlines go to the model; an answer that
   * parses is returned as parsed, one that does not gives the neutral report, and a failing call
   * gives the error report.
   */
  function TechnicalAccuracyCheck<J>(state: AnalysisState, call: string -> Oracle<string>, parse: string -> Option<J>)
    : (r: AccuracyResult<J>)
    ensures call(Join("\n", state.contents)).Raised? ==>
      r == Fallback(ErrorReport(call(Join("\n", state.contents)).message))
    ensures call(Join("\n", state.contents)).Answer? ==>
      match parse(call(Join("\n", state.contents)).value)
      case Some(v) => r == Parsed(v)
      case None => r == Fallback(UnparsedReport)
  {
    match call(Join("\n", state.contents))
    case Raised(m) => Fallback(ErrorReport(m))
    case Answer(raw) =>
      match parse(raw)
      case Some(v) => Parsed(v)
      case None => Fallback(UnparsedReport)
  }

  /** The failure message a fallback report carries, if it is an error report. */
  function ReportedError(report: AccuracyReport): (m: Option<string>)
  {
    if |report.misconceptions| == 1 && ErrorPrefix <= report.misconceptions[0]
    then Some(report.misconceptions[0][|ErrorPrefix|..])
    else None
  }

  /**
   * The two fallbacks are told apart: an error report gives its failure message back, the
   * neutral report gives none.
   */
  lemma FallbacksDistinguished(m: string)
    ensures ReportedError(ErrorReport(m)) == Some(m)
    ensures ReportedError(UnparsedReport).None?
  {
    assert (ErrorPrefix + m)[|ErrorPrefix|..] == m;
    assert UnparsedReport.misconceptions[0][0] != ErrorPrefix[0];
  }
}

=== FILE: wrappers.dfy ===
/**
 * Outcome types shared by every module of the model.
 *
 *  - `Option` models a Python value that may be `None` or a dictionary key that may be absent.
 *  - `Result` is what a modelled operation returns when the original code either returns a value
 *    or lets an exception escape (the message is the exception text, or the error string the
 *    original code builds).
 *  - `Oracle` is what an external call (a language-model chain, the summarisation graph) did on
 *    one invocation: produced a value or raised.
 */
module Wrappers {

  datatype Option<+T> = None | Some(value: T)
  {
    /** `d.get(key, default)` on a key that is present-or-absent. */
    function GetOr(default: T): (r: T)
      ensures this.Some? ==> r == value
      ensures this.None? ==> r == default
    {
      match this
      case Some(v) => v
      case None => default
    }
  }

  datatype Result<+T> = Ok(value: T) | Err(message: string)

  datatype Oracle<+T> = Answer(value: T) | Raised(message: string)

  /** Python's message for subscripting `None` (a lookup that found nothing, used as a dictionary). */
  const NotSubscriptable: string := "'NoneType' object is not subscriptable"

  /** Python truthiness of an optional string: present and non-empty. */
  predicate Truthy(s: Option<string>)
  {
    s.Some? && s.value != ""
  }
}
